=== FILE: README.md ===
# Mouse-gesture extension: the gesture engine in Dafny

This project models the gesture engine of a browser extension. The user
holds the right mouse button, or touches the screen, and draws a stroke.
The stroke becomes a pattern of the four direction letters `U`, `D`, `L`
and `R`, and the pattern is mapped to a browser action such as "go back"
or "close tab". The engine's parts are modelled as immutable records and
pure functions, one Dafny module per source file:

- `MotionTracker` is the gesture session of the content script: press,
  activation, direction commits, the cancel band, release and dispatch,
  the context-menu policy, and the visibility, focus and settings
  handlers. Time, viewport and settings replies are explicit arguments.
  Timers are queued in the state and fired by their own events.
- `InputManager` covers platform and input-kind detection, the per-platform
  event profiles, the start-event test, coordinate extraction, unified
  events and default-action suppression.
- `PathRenderer` is the trail buffer: lifecycle, interpolated appends and
  the alpha fade, with alpha in integer hundredths.
- `Coordinates` holds coordinate correction, canvas offsets, bounds and distance.
- `PatternAnalyzer` is the batch path-to-pattern reducer. It also holds
  the edit distance, similarity, validator, descriptions and statistics.
- `Directions` defines the run-length `Collapse` that every reducer in the
  extension amounts to.
- The display helpers are `GestureArrows` and `DirectionVisualizer`.
- The settings logic is split by page:
  - `Background`: the service worker's settings manager, tab actions and
    message dispatch;
  - `OptionsPage` and `OptionsManager`: the two options pages;
  - `Sidepanel`: the side panel.
- `MessageUtils` holds tab eligibility, broadcast counting, the listener
  filter and scrolling.
- `I18n` covers locale choice, message lookup with `$n` substitution, and
  `{name}` formatting.
- `DomUtils` computes the overlay z-index.
- Shared vocabulary lives in three modules:
  - `Common`: `Option` and string helpers;
  - `Values`: the JavaScript values settings are made of, with truthiness,
    `||` and object spread;
  - `Numerals`: `parseInt` and decimal numerals.

Calls into the browser become parameters. These include storage reads and
writes, tab queries, message replies, the DOM's computed styles and the
UI language. They are either the value the call yields or a flag saying
whether it succeeded. The browser's answer to a tab, window or session
command is its rejection error, if any.

## Model

| member | source | states |
|---|---|---|
| MotionTracker.Init | src/core/motion-tracker.js:7-52 | A new tracker is idle, holds no settings and satisfies the session invariant at every time. |
| MotionTracker.Reset | src/core/motion-tracker.js:424-453 | Resetting ends the session: not recording, not cancelled, empty pattern, origin and anchor at (0,0), trail inactive. It schedules one more tab-switch clear and keeps settings, prevention mark and tab-switch flag. |
| MotionTracker.ShowDisabledHint | src/core/motion-tracker.js:1048-1058 | The hint is shown exactly when more than 5000 ms have passed since the last one, and only then is the hint time updated. |
| MotionTracker.LoadSettings | src/core/motion-tracker.js:169-220 | A reply is used as it is. Without one, the fallback enables execution with exactly the eight built-in mappings: L goBack, R goForward, U scrollToTop, D scrollToBottom, UD refreshTab, DL newTab, DR closeTab, RL reopenTab. |
| MotionTracker.Start | src/core/motion-tracker.js:458-539 | With execution disabled, no session starts and only the cooldown hint may change state. Otherwise the session starts at the press point: recording, right-click-only, not moved, empty pattern, anchor = origin. An activation timer for that point is queued. |
| MotionTracker.Activate | src/core/motion-tracker.js:553-574 | A first move more than 5 px from the origin, or 150 ms after the press, makes the press a gesture. Any other move leaves the tracker unchanged. |
| MotionTracker.TrackerDirection | src/core/motion-tracker.js:596-627 | The committed letter is R/L when \|dx\| > \|dy\| by the sign of dx, else D/U by the sign of dy (ties go vertical), as four exact sector conditions. |
| MotionTracker.AppendDirection | src/core/motion-tracker.js:612-624 | A letter equal to the pattern's last letter is dropped; any other is appended. |
| MotionTracker.AppendIsCollapse | src/core/motion-tracker.js:612-624 | On a duplicate-free pattern, appending is the run-length collapse of the pattern plus the letter. |
| MotionTracker.AppendKeepsGesturePattern | src/core/motion-tracker.js:612-624 | Appending a direction keeps the pattern made of U/D/L/R with no two equal neighbours. |
| MotionTracker.Commit | src/core/motion-tracker.js:596-627 | A segment longer than 30 px (45 px for touch) from the anchor appends its letter and moves the anchor there. A shorter one changes nothing. |
| MotionTracker.Move | src/core/motion-tracker.js:544-630 | A move outside a session changes nothing. A session's first move activates it iff the activation test holds, and a move that does not start or continue tracking changes nothing. A tracking move inside the 25 px band cancels and clears the pattern. Any other tracking move applies the segment rule and keeps recording. |
| MotionTracker.End | src/core/motion-tracker.js:635-672 | After release the tracker is idle with an empty pattern. A pattern is dispatched exactly when the session recorded, moved, has a non-empty pattern, was neither cancelled nor right-click-only, and the pattern has an enabled mapping. The prevention mark is set after a tab switch or a real gesture. |
| MotionTracker.FireActivationTimer | src/core/motion-tracker.js:527-536 | The oldest timer is consumed. It activates the session only if it is still recording and 150 ms have passed since the press; otherwise the tracker is unchanged. |
| MotionTracker.FireTabSwitchTimer | src/core/motion-tracker.js:440-442 | A pending three-second clear resets the tab-switch flag; with none pending nothing changes. |
| MotionTracker.BecomeHidden | src/core/motion-tracker.js:333-349 | Hiding the page ends a recording session and remembers the hidden state. |
| MotionTracker.BecomeVisible | src/core/motion-tracker.js:333-349 | Becoming visible flags a tab switch exactly when the page was hidden during a recording; nothing else changes. |
| MotionTracker.Focus | src/core/motion-tracker.js:355-362 | Focus after a tab switch sets the prevention mark; otherwise nothing changes. |
| MotionTracker.Blur | src/core/motion-tracker.js:368-373 | Blur during a recording flags a tab switch; nothing else changes. |
| MotionTracker.ApplySettings | src/core/motion-tracker.js:312-322 | New settings are stored. Disabling execution ends a running session; otherwise only the settings change. |
| MotionTracker.SettingsRefreshed | src/core/motion-tracker.js:379-418 | Missing or unchanged settings change nothing; different ones are applied. |
| MotionTracker.ShouldPreventContextMenu | src/core/motion-tracker.js:677-690 | False for a right-click-only press younger than 150 ms. Otherwise true iff the prevention mark is younger than 500 ms (2000 ms after a tab switch) or a moved session is recording. |
| MotionTracker.Translate | src/core/motion-tracker.js:151-163 | The message is taken from the own table, then the browser, then the fallback, then the key; it is never empty for a non-empty key. |
| MotionTracker.SelectContentLocale | src/core/motion-tracker.js:102-141 | The content locale is always one of the four shipped. A saved shipped locale wins. Otherwise a UI language starting with `zh` gives zh_CN, then `de` gives de, then `ja` gives ja, and anything else gives en. |
| MotionTracker.StepKeepsInv | src/core/motion-tracker.js:458-672 | Every event, at any later time, preserves the session invariant, so the pattern always consists of U/D/L/R with no equal neighbours. |
| MotionTracker.MoveKeepsInv | src/core/motion-tracker.js:544-630 | A move preserves the session invariant. |
| MotionTracker.PressKeepsInv | src/core/motion-tracker.js:458-539 | A press preserves the session invariant. |
| MotionTracker.ReleaseDispatchesGesture | src/core/motion-tracker.js:651-671 | After release the tracker is idle, and a dispatched pattern is a non-empty gesture pattern. |
| MotionTracker.FivePixelsDoNotActivate | src/core/motion-tracker.js:553-563 | A move of exactly 5 px (3,4) before 150 ms leaves the tracker unchanged. |
| MotionTracker.CancelledSessionIgnoresMoves | src/core/motion-tracker.js:578-587 | After a move into the cancel band, every later move is ignored. |
| MotionTracker.QuickReleaseSendsNothing | src/core/motion-tracker.js:651-656 | Releasing a right-click-only press never dispatches. |
| MotionTracker.DownRightGesture | src/core/motion-tracker.js:458-672 | Press, a long drag down, a long drag right and release dispatch "DR" under the fallback settings. |
| MotionTracker.QuantisersAgreeOffAntiDiagonal | src/core/motion-tracker.js:596-611 | The tracker's axis rule and the analyzer's angle sectors give the same letter except on the anti-diagonal dx = -dy. |
| MotionTracker.CorrectionIsIdentity | src/core/motion-tracker.js:696-708 | Because a fresh input manager always reports mouse input, the tracker's coordinate correction is the identity. |
| InputManager.DetectPlatform | src/core/unified-input-manager.js:28-44 | Exactly one platform is chosen, decided in the order mac (platform or user agent), windows, linux, android, ios, and unknown otherwise. |
| InputManager.DetectInputType | src/core/unified-input-manager.js:50-58 | Touch iff touch is supported on a mobile device; else pointer iff pointer events are supported; else mouse. |
| InputManager.Construct | src/core/unified-input-manager.js:7-22 | A freshly constructed manager always has input kind mouse, whatever the device supports. |
| InputManager.ConstructionOrderHidesTouch | src/core/unified-input-manager.js:8-11 | An Android phone with touch and pointer support is still classified as mouse input. |
| InputManager.ActiveProfile | src/core/unified-input-manager.js:115-125 | Touch selects the mobile profile, pointer the pointer profile, mouse on mac the mac profile, and anything else the windows one. |
| InputManager.UpdateConfig | src/core/unified-input-manager.js:541-544 | Each given profile replaces its own; the others, platform and input kind are kept. |
| InputManager.ValidStartForMouse | src/core/unified-input-manager.js:399-410 | A mouse start is valid on mac iff button 2, or button 0 with ctrl. On other platforms it is valid iff button 2 or 1. |
| InputManager.PointerAndTouchStarts | src/core/unified-input-manager.js:391-398 | A pointer start is valid iff button 2; a touch start iff exactly one touch. |
| InputManager.GetEventCoordinates | src/core/unified-input-manager.js:417-460 | Non-touch extraction always succeeds, with x = pageX or else clientX. Touch extraction uses the first touch or changed touch and fails without one. |
| InputManager.CreateUnifiedEvent | src/core/unified-input-manager.js:362-373 | The unified event carries the phase, platform and kind; missing coordinates become zeros. |
| InputManager.DefaultProfilesAlwaysPrevent | src/core/unified-input-manager.js:466-476 | With the built-in profiles the default action is always suppressed. |
| InputManager.HandleStart | src/core/unified-input-manager.js:284-311 | A start is forwarded iff it is a valid start with coordinates, and only a forwarded start may suppress the default action. |
| InputManager.HandleMove | src/core/unified-input-manager.js:317-329 | A move is forwarded iff it has coordinates. It suppresses the default iff forwarded, the tracker is recording, and the profile asks for it. |
| InputManager.HandleEnd | src/core/unified-input-manager.js:335-345 | An end is always forwarded, with zeros when it has no coordinates. |
| InputManager.TouchEndWithoutTouchesForwardedAtZero | src/core/unified-input-manager.js:335-345 | A touch end without touches is forwarded at (0,0). |
| InputManager.HandleContextMenu | src/core/unified-input-manager.js:351-356 | The context menu is suppressed iff the tracker is recording or wants it suppressed. |
| InputManager.DevicePixelRatio | src/core/unified-input-manager.js:481-483 | A zero ratio reads as 1; any other is kept. |
| InputManager.ViewportScale | src/core/unified-input-manager.js:488-493 | Non-touch input has scale 1; touch input uses the page zoom. |
| InputManager.ConstructedScaleIsOne | src/core/unified-input-manager.js:488-493 | A constructed manager always reports scale 1. |
| Coordinates.GetRealCoordinate | src/utils/coordinate-utils.js:15-29 | A non-number gives 0. Non-touch input is the identity. Touch input divides by the viewport scale. |
| Coordinates.RealCoordinateIgnoresRatioAndScale | src/utils/coordinate-utils.js:21-28 | For non-touch input the result does not depend on pixel ratio or scale. |
| Coordinates.TouchUnitScaleIsIdentity | src/utils/coordinate-utils.js:24-26 | Touch input at scale 1 is the identity. |
| Coordinates.ScreenToCanvas | src/utils/coordinate-utils.js:121-132 | Without a canvas the point is unchanged; otherwise adding the rect's left/top back gives the screen point. |
| Coordinates.WithinBoundsIffInsideCanvas | src/utils/coordinate-utils.js:141-147 | A point is within bounds iff it lies in the rect, all four edges included. |
| Coordinates.NothingWithinMissingElement | src/utils/coordinate-utils.js:141-147 | No point is within a missing element. |
| Coordinates.DistanceSymmetricAndDefinite | src/utils/coordinate-utils.js:157-161 | The squared distance is symmetric and zero exactly for identical points. |
| PathRenderer.Destroy | src/core/path-renderer.js:420-454 | After destroy the renderer is inactive, with no canvas, no context, no points and no pending frame. |
| PathRenderer.DestroyIdempotent | src/core/path-renderer.js:420-454 | Destroying twice equals destroying once, and every destroyed renderer is the initial one. |
| PathRenderer.Create | src/core/path-renderer.js:28-53 | Creation succeeds iff there is a body and a context, giving an active renderer with no points. An existing canvas is destroyed first, and validity is kept. |
| PathRenderer.Clear | src/core/path-renderer.js:487-492 | Clearing empties the points and changes nothing else. |
| PathRenderer.GetStatus | src/core/path-renderer.js:472-482 | The status reports activity, point count and canvas size. |
| PathRenderer.StatusAfterDestroy | src/core/path-renderer.js:472-482 | A destroyed renderer reports inactive, zero points and no canvas. |
| PathRenderer.StepCountBounds | src/core/path-renderer.js:285-307 | The step count is ⌊d/5⌋ for the segment length d, and at least 2 beyond 10 px. |
| PathRenderer.Interpolated | src/core/path-renderer.js:285-307 | Up to 10 px no point is inserted. Beyond that, exactly ⌊d/5⌋-1 fully opaque points are inserted, stamped now. |
| PathRenderer.InterpolatedOnSegment | src/core/path-renderer.js:285-307 | Every inserted point lies between the last point and the new one on both axes. |
| PathRenderer.AddPoint | src/core/path-renderer.js:252-279 | An inactive renderer is unchanged. Otherwise the old points stay a prefix and the new opaque point is last; an empty list gets no interpolation. |
| PathRenderer.AddPointCount | src/core/path-renderer.js:266-306 | On a non-empty list, the count grows by exactly the interpolated points plus one. |
| PathRenderer.Decay | src/core/path-renderer.js:362-367 | A fade step lowers every point's alpha by exactly the fade step and keeps the count. |
| PathRenderer.FadeOnce | src/core/path-renderer.js:354-376 | An active fade decays all points. It destroys the renderer once no point is visible or fewer than two remain, and otherwise stays active. |
| PathRenderer.StartFadeOut | src/core/path-renderer.js:344-348 | Starting a fade on an inactive renderer is a no-op; on an active one it runs the first fade step. |
| PathRenderer.OperationsKeepValid | src/core/path-renderer.js:252-492 | Every operation keeps the renderer's validity invariant. |
| PathRenderer.FadeOutTerminates | src/core/path-renderer.js:354-376 | From full opacity, whatever the point count, the trail is gone within 50 fade steps. |
| PathRenderer.OpaqueTrailFadesInFiftySteps | src/core/path-renderer.js:354-376 | An opaque trail of at least two points is still active after 49 steps and gone after 50. |
| Directions.CollapseShape | src/utils/pattern-analyzer.js:137-164 | The collapse is no longer than its input, keeps the first element, uses only input elements and has no equal neighbours. |
| Directions.CollapseOfDuplicateFree | src/utils/pattern-analyzer.js:137-164 | The collapse is the identity on a duplicate-free sequence. |
| Directions.CollapseIdempotent | src/utils/pattern-analyzer.js:137-164 | Collapsing twice equals collapsing once. |
| Directions.CollapseIsGesturePattern | src/utils/pattern-analyzer.js:102-105 | The collapse of a direction string is a gesture pattern. |
| PatternAnalyzer.AngleToDirection | src/utils/pattern-analyzer.js:116-130 | The mapping is total and partitions degrees into [-45,45)→R, [45,135)→D, ≥135 or <-135→L, [-135,-45)→U. |
| PatternAnalyzer.DiamondDegreesAtCompassPoints | src/utils/pattern-analyzer.js:91-99 | The exact angle measure agrees with atan2 at the eight compass directions. |
| PatternAnalyzer.SegmentDirectionSectors | src/utils/pattern-analyzer.js:91-99 | A segment's letter follows the four half-open sectors, and a zero segment reads as R. |
| PatternAnalyzer.SampleRate | src/utils/pattern-analyzer.js:82-85 | The stride is max(1, ⌊n/factor⌋), so at least 1. |
| PatternAnalyzer.ExtractLoopIsCollapse | src/utils/pattern-analyzer.js:78-109 | The sampling loop with its last-direction test equals the collapse of the sampled letters. |
| PatternAnalyzer.ExtractDirections | src/utils/pattern-analyzer.js:78-109 | The result is a gesture pattern and is the collapse of the letters of the sampled segments that are not noise. |
| PatternAnalyzer.CleanLoopIsCollapse | src/utils/pattern-analyzer.js:137-164 | The run-counting loop equals the collapse. |
| PatternAnalyzer.CleanDirections | src/utils/pattern-analyzer.js:137-164 | Cleaning is the run-length collapse. |
| PatternAnalyzer.CleanDirectionsProperties | src/utils/pattern-analyzer.js:137-164 | Cleaned output has no equal neighbours, cleaning is idempotent, and it is the identity on duplicate-free input. |
| PatternAnalyzer.AnalyzePattern | src/utils/pattern-analyzer.js:35-70 | A non-array or fewer than 5 points give null. A result is never empty and is a gesture pattern, and it is the cleaned extraction. |
| PatternAnalyzer.AnalyzePatternIsCollapseOfSamples | src/utils/pattern-analyzer.js:35-109 | The analysis is null or exactly the collapse of the sampled segment letters. |
| PatternAnalyzer.ShortPathsAreNoise | src/utils/pattern-analyzer.js:91-96 | A path whose sampled segments are all shorter than the minimum distance gives null. |
| PatternAnalyzer.StraightRightDragIsR | src/utils/pattern-analyzer.js:35-109 | A horizontal rightward drag gives null or "R". |
| PatternAnalyzer.LevenshteinDistance | src/utils/pattern-analyzer.js:193-219 | The two-row table method computes the recursive edit distance. |
| PatternAnalyzer.NextRow | src/utils/pattern-analyzer.js:204-216 | From a row holding the edit distances of every prefix of the first string to the first i - 1 letters of the second, the inner loop fills the row for the first i letters. |
| PatternAnalyzer.EditDistanceToSelf | src/utils/pattern-analyzer.js:193-219 | distance(s, s) = 0. |
| PatternAnalyzer.EditDistanceToEmpty | src/utils/pattern-analyzer.js:193-219 | distance(s, "") = distance("", s) = \|s\|. |
| PatternAnalyzer.EditDistanceBound | src/utils/pattern-analyzer.js:193-219 | The distance is at most the longer length. |
| PatternAnalyzer.CalculateSimilarity | src/utils/pattern-analyzer.js:172-185 | Similarity lies in [0,1] and is 0 if either pattern is empty. Otherwise it is one minus the edit distance over the longer length, so it is 1 exactly when the two patterns are equal and non-empty. |
| PatternAnalyzer.EditDistanceZeroOnlyForEqual | src/utils/pattern-analyzer.js:193-219 | Two strings at edit distance 0 are equal. |
| PatternAnalyzer.InvalidCharsOf | src/utils/pattern-analyzer.js:254-261 | The reported characters are exactly the pattern's non-direction characters. |
| PatternAnalyzer.ValidatePattern | src/utils/pattern-analyzer.js:227-270 | Valid iff a non-empty string within [minLength‖1, maxLength‖10] using only U/D/L/R. Valid iff there are no errors; warnings never affect validity. |
| PatternAnalyzer.ValidatorAcceptsRepeatedDirections | src/utils/pattern-analyzer.js:227-270 | "UU" is valid: adjacent duplicates are not checked. |
| PatternAnalyzer.DirectionWords | src/utils/pattern-analyzer.js:278-302 | There is one word per letter, from the language's table. |
| PatternAnalyzer.GetPatternDescription | src/utils/pattern-analyzer.js:278-302 | An empty pattern gives "" and Chinese gives one character per letter. A language other than Chinese or English uses the Chinese characters joined by "-". |
| PatternAnalyzer.MostCommonLoop | src/utils/pattern-analyzer.js:336-350 | The most common pattern is a non-empty input pattern occurring at least as often as any other non-empty one; none is chosen only when all patterns are empty. |
| PatternAnalyzer.GetPatternStats | src/utils/pattern-analyzer.js:309-353 | Total is the count and unique is the number of distinct patterns. A length is in the distribution exactly when some non-empty pattern has it, and it maps to the number of such patterns. The most common pattern is maximal. |
| GestureArrows.ArrowFor | src/js/gesture-arrows.js:10-15 | L, R, U and D map to ⬅, ➡, ⬆ and ⬇; other characters are unchanged. |
| GestureArrows.PatternCharFor | src/js/gesture-arrows.js:38-54 | ⬅, ➡, ⬆ and ⬇ map back to L, R, U and D; other characters are unchanged. |
| GestureArrows.GetArrowsForPattern | src/js/gesture-arrows.js:22-31 | A missing pattern gives "". Otherwise character `i` of the result is `ArrowFor` of character `i` of the pattern, and the length is kept. |
| GestureArrows.GetPatternForArrows | src/js/gesture-arrows.js:38-54 | A missing text gives "". Otherwise character `i` of the result is `PatternCharFor` of character `i` of the text, and the length is kept. |
| GestureArrows.ArrowsRoundTrip | src/js/gesture-arrows.js:10-54 | Converting a pattern without arrow glyphs to arrows and back gives the pattern. |
| GestureArrows.PatternRoundTrip | src/js/gesture-arrows.js:10-54 | Converting an arrow string without direction letters back and forth gives the arrows. |
| GestureArrows.GetPatternDescription | src/js/gesture-arrows.js:61-82 | A listed pattern gets its table entry, any other falls back to its arrows, and the result is empty only for an empty or missing pattern. |
| GestureArrows.DescriptionTableShape | src/js/gesture-arrows.js:61-82 | The description table lists only gesture patterns of length 1 to 3, including every single direction. |
| DirectionVisualizer.GetArrowForDirection | src/ui/components/direction-visualizer.js:53-56 | The `advanced` style agrees with the heavy-arrow helper `ArrowFor`. Any other style maps U, D, L and R to ↑, ↓, ← and →. Other characters are unchanged. |
| DirectionVisualizer.ArrowsAreDistinct | src/ui/components/direction-visualizer.js:8-38 | Within one style, different directions get different arrows. |
| DirectionVisualizer.GetArrowsForPattern | src/ui/components/direction-visualizer.js:65-74 | An empty or missing pattern gives "". Otherwise there is one arrow per letter joined by the separator; with no separator it is the plain arrow string. |
| DirectionVisualizer.AdvancedArrowsMatchGestureArrows | src/ui/components/direction-visualizer.js:32-74 | Advanced arrows without a separator agree with the standalone arrow helper. |
| DirectionVisualizer.GetPatternDescription | src/ui/components/direction-visualizer.js:209-220 | The Chinese description has exactly one direction character per letter, in order. |
| DirectionVisualizer.ValidityAgreesWithValidator | src/ui/components/direction-visualizer.js:364-371 | A pattern is valid here and at most 10 long iff the analyzer's validator accepts it with default criteria. |
| DirectionVisualizer.CountDirectionChanges | src/ui/components/direction-visualizer.js:406-414 | The number of changes is the number of strokes minus one, and 0 for the empty pattern. |
| DirectionVisualizer.ChangesOfGesturePattern | src/ui/components/direction-visualizer.js:406-414 | A gesture pattern has \|p\|-1 changes. |
| DirectionVisualizer.GetPatternComplexity | src/ui/components/direction-visualizer.js:378-400 | An invalid pattern gets score 0 and level invalid. Otherwise unique is the number of distinct letters and changes is the number of differing neighbours, one less than the stroke count. The score is length + 2·unique + changes: complex at ≥8, medium at ≥5, else simple. |
| DirectionVisualizer.CharSetBounds | src/ui/components/direction-visualizer.js:378-400 | A valid pattern uses between 1 and 4 distinct letters, no more than its length. |
| DirectionVisualizer.GestureComplexityLevels | src/ui/components/direction-visualizer.js:378-400 | Gesture patterns of length 1, 2 and ≥3 are simple, medium and complex. |
| DirectionVisualizer.Clamp | src/ui/components/direction-visualizer.js:305-320 | A preview coordinate is clamped to [5, grid-5] and kept when already inside. |
| DirectionVisualizer.PathPreviewPoints | src/ui/components/direction-visualizer.js:281-357 | The preview has length+1 points, the first at the grid centre and all within [5, grid-5]. |
| DirectionVisualizer.PreviewPointPosition | src/ui/components/direction-visualizer.js:305-320 | Point i+1 is the clamped pen position after the first i+1 letters' net displacement. |
| DirectionVisualizer.ReturningPathEndsAtCentre | src/ui/components/direction-visualizer.js:305-320 | "LR" returns to the centre. |
| Background.DefaultGestureMissing | src/background/background-main.js:94-112 | The merge needs a write iff some default pattern is missing from the stored mappings. |
| Background.Initialize | src/background/background-main.js:76-143 | The cache always holds every default key and exactly the default mappings. A failed read, a stored mapping value that makes `in` throw, or a first install leaves the defaults in the cache. Otherwise the cache holds the stored keys (except the mappings) and the defaults for keys the stored settings lack. Storage is written only on first install or when a default pattern is missing, and a failure keeps storage as it was. |
| Background.InitializeSettles | src/background/background-main.js:76-143 | After an initialisation that wrote storage, the next start reads back the same settings and writes nothing. |
| Background.StoredMappingsAreDiscarded | src/background/background-main.js:94-112 | A stored custom mapping does not survive initialisation. |
| Background.SaveSettings | src/background/background-main.js:181-192 | A successful save stores and caches the defaults overridden by the given keys; a failed one changes nothing. |
| Background.SaveIsIdempotent | src/background/background-main.js:181-192 | Saving the same settings twice equals saving them once. |
| Background.GetSettings | src/background/background-main.js:148-176 | A cached copy is returned as it is; otherwise initialisation runs and its result is cached. |
| Background.GetActionMapping | src/background/background-main.js:197-200 | The result is the pattern's mapped action, or null without one. |
| Background.UpdateActionMapping | src/background/background-main.js:155-209 | Mappings that are missing or a primitive make the assignment throw, because the class body is strict code. On an object the cache then holds the new entry and every other setting unchanged, even when the save fails, because `getSettings` returns a shallow copy that shares the mappings object. Storage follows the save, and the outcome is the save's. |
| Background.UpdateThenGet | src/background/background-main.js:155-209 | After an update, whether or not the save succeeded, the lookup returns the new action. |
| Background.ResetToDefaults | src/background/background-main.js:214-217 | The cache becomes the defaults, and storage does too when the write succeeds. |
| Background.PreviousTabIndex | src/background/background-main.js:302-307 | The previous index is in range and wraps from the first tab (or no active tab) to the last. |
| Background.NextTabIndex | src/background/background-main.js:309-314 | The next index is in range and wraps from the last tab (or no active tab) to the first. |
| Background.TabStepsAreInverse | src/background/background-main.js:302-314 | next(previous(i)) = i and previous(next(i)) = i for a valid index. |
| Background.ActionNamesRoundTrip | src/background/background-main.js:234-251 | Action names and actions are in one-to-one correspondence. |
| Background.DefaultMappingsAreKnownActions | src/background/background-main.js:10-55 | Every default mapping names a known action. |
| Background.ActiveIndex | src/background/background-main.js:302-314 | The active index is the first active tab's, or -1 when none is active. |
| Background.Issue | src/background/background-main.js:276-455 | Each action issues the command named after it: the target tab's back, forward, close, reload or duplicate; the previous or next tab of the window, wrapping; a session restore; a scroll message; a window state; or a pin toggle. It fails before issuing a command exactly for a tab switch in an empty window, a scroll without a target tab or an answering content script, or a pin toggle of an unknown tab. |
| Background.Handle | src/background/background-main.js:276-455 | A handler succeeds only with the commands it issues. It fails exactly when it fails before issuing a command, or when it issues a tab, window or session command that the browser rejects, and then with the browser's error. |
| Background.SwitchersWrapAround | src/background/background-main.js:302-314 | With the first tab active, previous activates the last tab and next the second, unless the browser rejects the activation. |
| Background.RejectedForwardFailsGesture | src/background/background-main.js:289-299 | Under the default settings, the "R" gesture on a tab whose forward navigation the browser rejects is reported as failed with the browser's error. |
| Background.ExecuteAction | src/background/background-main.js:256-273 | An unknown name fails with "Unknown action" and runs nothing. A known one succeeds with its handler's commands iff the handler does not fail. |
| Background.HandleMotionExecution | src/background/background-main.js:559-624 | Disabled execution gives "Execution disabled" and a falsy mapping "No mapping found". A failed read is reported. A non-string mapping is an unknown action. Otherwise the action's success gives the executed response with its commands, and its failure gives the failure with its error. |
| Background.ExecutesIffHandlerSucceeds | src/background/background-main.js:582-613 | When execution is on and the pattern maps to a non-empty name, the gesture executes exactly when the name is a known action whose handler does not throw. |
| Background.DefaultGesturesExecute | src/background/background-main.js:559-624 | Under the default settings every default pattern runs its action when the browser carries out the command. |
| Background.HandleMessage | src/background/background-main.js:467-554 | Unknown types give "Unknown message type". Settings requests go to the manager. The side-panel map changes only with a window id, and only a toggle messages tabs. |
| Background.SaveThenGet | src/background/background-main.js:467-554 | A save message followed by a get returns the saved merge. |
| Background.ResetThenGet | src/background/background-main.js:467-554 | A reset message followed by a get returns the defaults. |
| OptionsPage.AnalyzeGesture | src/ui/options/options.js:796-865 | The recorder is the analyzer run with minimum distance 40. It gives null below 5 points and otherwise a non-empty gesture pattern. |
| OptionsPage.MergePassIsIdentity | src/ui/options/options.js:832-864 | The second merge pass is the identity on the already-deduplicated directions. |
| OptionsPage.ValidateSensitivity | src/ui/options/options.js:1040-1054 | The result is in [10,50]. It is 30 for blank or unparsable input; otherwise it is the parsed integer, or 10 below the range and 50 above it. |
| OptionsPage.ValidateTrailDuration | src/ui/options/options.js:1057-1071 | The result is in [500,3000]. It is 1200 for blank or unparsable input; otherwise it is the parsed integer, or 500 below the range and 3000 above it. |
| OptionsPage.SliderTextRoundTrip | src/ui/options/options.js:1040-1071 | A slider's decimal text in range validates to its own value. Below the range it validates to the lower bound, and above it to the upper bound, for both sliders. |
| OptionsPage.ValidatorsAreIdempotent | src/ui/options/options.js:1040-1071 | Validating a validated value gives it back. |
| OptionsPage.DisplayName | src/ui/options/options.js:48-69 | A known action shows its display name; any other value is shown as it is. |
| OptionsPage.LoadSettings | src/ui/options/options.js:38-95 | A failed request keeps the page with the default motions, and no reply gives the initial settings. A reply gives enabled = enableExecution‖true, sensitivity = patternSensitivity‖30 and duration = trailDuration‖1200. Each mapping becomes an enabled preset motion with its pattern, action and display name, in order; with no mappings the defaults are used. |
| OptionsPage.DisabledReadsAsEnabled | src/ui/options/options.js:77 | A reply with execution disabled still loads as enabled. |
| OptionsPage.RenderSettings | src/ui/options/options.js:376-398 | Rendering keeps the motions and flag and replaces sensitivity and duration by their validated values, which lie in [10,50] and [500,3000]. |
| OptionsPage.RenderKeepsSliderValues | src/ui/options/options.js:376-398 | Whole slider values already in range are rendered unchanged. |
| OptionsPage.MissingSlidersRenderDefaults | src/ui/options/options.js:76-79 | A reply without sensitivity and duration is rendered as 30 and 1200. |
| OptionsPage.RenderSettingsIsIdempotent | src/ui/options/options.js:376-398 | Rendering twice equals rendering once. |
| OptionsPage.FindPattern | src/ui/options/options.js:900-901 | The index found is the first motion with the pattern; none is found only when no motion has it. |
| OptionsPage.RemoveAt | src/ui/options/options.js:909-911 | Removal drops exactly the indexed motion and keeps the order of the rest. |
| OptionsPage.SaveCustomGesture | src/ui/options/options.js:880-941 | A missing field or a declined overwrite changes nothing. A confirmed overwrite removes the first entry with the pattern and appends the new custom gesture. A new pattern is appended. |
| OptionsPage.SaveKeepsPatternUnique | src/ui/options/options.js:880-926 | After a save the pattern occurs exactly once. |
| OptionsPage.FinalizeGestureSave | src/ui/options/options.js:625-652 | A present pattern leaves the list unchanged; a new one is appended. |
| OptionsPage.FinalizeKeepsPatternUnique | src/ui/options/options.js:625-652 | On a list without duplicates, the pattern occurs exactly once afterwards. |
| OptionsPage.IndexOfMotion | src/ui/options/options.js:943-955 | A motion is found iff it is in the list. The index found holds it, and no earlier index does. |
| OptionsPage.DeleteCustomGesture | src/ui/options/options.js:943-955 | An unconfirmed delete or an absent motion changes nothing. Otherwise the first copy of the motion is removed and the other motions keep their order. |
| OptionsPage.SaveThenDelete | src/ui/options/options.js:880-955 | Deleting a gesture just saved for a new pattern restores the list. |
| OptionsManager.SettingKeyOf | src/ui/options/options-manager.js:651-672 | A control id has a key iff it is mapped, and the key maps back to the id. |
| OptionsManager.ControlIdOf | src/ui/options/options-manager.js:892-914 | A key has a control iff it is mapped, and the control maps back to the key. |
| OptionsManager.ControlTablesAreInverse | src/ui/options/options-manager.js:651-914 | The two tables are mutual inverses. |
| OptionsManager.SettingKeyRoundTrip | src/ui/options/options-manager.js:651-914 | id→key→id and key→id→key are identities. |
| OptionsManager.ValidateSetting | src/ui/options/options-manager.js:677-690 | Keys without a validator accept anything. The seven validated keys accept a number within their inclusive range and reject NaN, undefined, strings and objects. |
| OptionsManager.DefaultsAreValid | src/ui/options/options-manager.js:1044-1073 | Every default passes validation, every control's key has a default, and the defaults pass import validation. |
| OptionsManager.LoadExtensionSettings | src/ui/options/options-manager.js:60-77 | An object reply becomes both current and original settings. A missing reply gives the defaults. Pending changes and dirtiness are kept. |
| OptionsManager.UpdateSetting | src/ui/options/options-manager.js:695-702 | An equal value changes nothing. Otherwise the value is stored and recorded as pending. The page is dirty iff it was or the value changed. |
| OptionsManager.UpdateIsIdempotent | src/ui/options/options-manager.js:695-702 | Updating twice with the same value equals updating once. |
| OptionsManager.HandleSettingChange | src/ui/options/options-manager.js:616-646 | Unmapped ids are ignored, invalid values are rejected without an update, and valid ones are stored. |
| OptionsManager.OutOfRangeIsRejected | src/ui/options/options-manager.js:616-646 | A sensitivity above 50 or a blank one is rejected; one in [5,50] is stored. |
| OptionsManager.HandleSave | src/ui/options/options-manager.js:718-743 | A successful save makes original equal current, clears pending and dirtiness; a failed one changes nothing. |
| OptionsManager.HandleReset | src/ui/options/options-manager.js:748-774 | An unconfirmed or failed reset changes nothing. Otherwise the reloaded settings become current and original, and the pending changes are kept. |
| OptionsManager.Export | src/ui/options/options-manager.js:779-805 | The export file carries the current settings. |
| OptionsManager.HandleImport | src/ui/options/options-manager.js:810-847 | Only a confirmed file with valid settings is imported. Then every imported key takes the imported value, every other current key keeps its value, and the page is dirty with the same original and pending settings. |
| OptionsManager.ImportIsIdempotent | src/ui/options/options-manager.js:826-833 | Importing the same file twice equals importing it once. |
| OptionsManager.ExportImportRoundTrip | src/ui/options/options-manager.js:779-867 | An exported file always imports, and importing a page's own export leaves its settings unchanged. |
| Sidepanel.PatternToArrows | src/ui/sidepanel/sidepanel.js:43-52 | Directions become heavy arrows, others are kept, and the length is kept. |
| Sidepanel.PanelArrowsAgreeWithHelper | src/ui/sidepanel/sidepanel.js:43-52 | The panel's mapping agrees with the standalone arrow helper and is inverted by it on gesture patterns. |
| Sidepanel.GetPageType | src/ui/sidepanel/sidepanel.js:311-321 | Each page class holds iff the URL starts with its prefix; otherwise the type is unknown. |
| Sidepanel.PageTypePrefixesAreExclusive | src/ui/sidepanel/sidepanel.js:311-321 | No URL starts with two of the classifying prefixes. |
| Sidepanel.PageTypeAndSupport | src/ui/sidepanel/sidepanel.js:296-321 | Web and file pages are supported; browser and extension pages are not. |
| Sidepanel.UpdateCurrentPageInfo | src/ui/sidepanel/sidepanel.js:272-294 | A failed query shows the extensions page as unsupported, and a missing tab keeps the info. Otherwise the URL is the tab's, the title is the tab's or `Unknown` when it is empty, and support and type come from the URL. A supported tab is never a browser or extension page. |
| Sidepanel.UpdateVisibility | src/ui/sidepanel/sidepanel.js:487-526 | Exactly one pane is shown, in priority unsupported, then disabled, then main. |
| Sidepanel.DescribeAction | src/ui/sidepanel/sidepanel.js:25-40 | A known action gets its description; any other is named by itself with category "other". |
| Sidepanel.GesturesOf | src/ui/sidepanel/sidepanel.js:202-223 | There is one enabled gesture per mapping entry, in order. Each has the entry's pattern and action, and the name and category that DescribeAction gives the action. |
| Sidepanel.OtherCategoryIffUndescribed | src/ui/sidepanel/sidepanel.js:208-211 | A gesture's category is "other" exactly when its action has no description. |
| Sidepanel.LoadExtensionState | src/ui/sidepanel/sidepanel.js:190-239 | A reply's entries become the gestures, enabled becomes enableExecution‖false, and the custom gestures become customGestures‖[]. Failures keep or clear the state as the source does, and stats and page info are untouched. |
| Sidepanel.MappingsOf | src/ui/sidepanel/sidepanel.js:244-251 | Each gesture's pattern is a key, and for duplicate patterns the later gesture wins. |
| Sidepanel.SaveExtensionState | src/ui/sidepanel/sidepanel.js:241-270 | The saved object holds exactly the flag, the gestures' mappings and the custom gestures. |
| Sidepanel.LoadThenSaveKeepsMappings | src/ui/sidepanel/sidepanel.js:205-249 | Loading then saving reproduces the original mappings. |
| Sidepanel.SavedMappingsAgree | src/ui/sidepanel/sidepanel.js:205-249 | Mappings rebuilt from loaded entries equal the mappings the entries came from. |
| Sidepanel.HandlePanelMessage | src/ui/sidepanel/sidepanel.js:733-761 | A gesture report increments both counters by one. A status change sets the flag, and other messages change nothing. |
| Sidepanel.ExecuteQuickAction | src/ui/sidepanel/sidepanel.js:577-620 | A successful quick action increments today's usage only; a failed one changes nothing. |
| Sidepanel.TotalCountsReports | src/ui/sidepanel/sidepanel.js:736-745 | Over any message sequence the counters grow by exactly the number of gesture reports. |
| MessageUtils.ValidTargets | src/utils/message-utils.js:167-180 | Web pages may be messaged; file and browser pages, missing tabs and missing URLs may not. |
| MessageUtils.EligibilityDiffersFromPanelSupport | src/utils/message-utils.js:167-180 | chrome-search pages may be messaged but the panel calls them unsupported, and file pages the other way round. |
| MessageUtils.OutcomeOf | src/utils/message-utils.js:129-145 | Ineligible tabs are skipped. An eligible tab fails iff sending is rejected, and a null answer is skipped. |
| MessageUtils.BroadcastSettingsUpdate | src/utils/message-utils.js:116-160 | Each tab bumps exactly one counter, so success+failed+skipped = total = tabs. Exactly the eligible tabs are messaged. |
| MessageUtils.AllIneligibleAreSkipped | src/utils/message-utils.js:129-133 | When no tab is eligible, all are skipped and none succeeds. |
| MessageUtils.FilterChoosesActionFirst | src/utils/message-utils.js:266-268 | Without a filter everything passes. With one, a truthy action decides, else the type; an empty filter passes nothing. |
| MessageUtils.ScrollPage | src/utils/message-utils.js:308-326 | A failed query or ineligible tab gives false with nothing sent. Otherwise "top" sends scrollTop and anything else scrollBottom, and the result is true unless rejected. |
| MessageUtils.LoadSettings | src/utils/message-utils.js:186-196 | A truthy reply is passed on and a falsy one becomes `{}`; errors propagate. |
| I18n.DetectBrowserLanguage | src/utils/i18n-manager.js:63-80 | The result is always supported: zh→zh_CN, then de, ja, ru by prefix, and en exactly when none matches. |
| I18n.LoadMessages | src/utils/i18n-manager.js:115-137 | The locale's catalog is used, else English's, else the previous messages. |
| I18n.SavedLocale | src/utils/i18n-manager.js:86-94 | The saved locale is the stored value exactly when that is a non-empty string; otherwise nothing is saved. |
| I18n.Initialize | src/utils/i18n-manager.js:31-57 | An initialised manager is unchanged. Otherwise a saved supported locale wins over the detected one, and that locale's messages are loaded. |
| I18n.InitializeIsIdempotent | src/utils/i18n-manager.js:31-57 | Initialising twice equals initialising once. |
| I18n.ChangeLocale | src/utils/i18n-manager.js:168-201 | It succeeds iff the locale is supported. Unsupported or current locales change nothing and store nothing; a new supported one is set, stored and loaded. |
| I18n.ChosenLocaleSurvivesRestart | src/utils/i18n-manager.js:31-201 | After a change, a fresh manager initialised from the stored locale picks that locale. |
| I18n.ChangeLocaleIsIdempotent | src/utils/i18n-manager.js:168-201 | Changing to the same locale twice equals changing once. |
| I18n.GetHtmlLangCode | src/utils/i18n-manager.js:208-217 | zh_CN gives zh-CN, other supported locales themselves, and unknown locales en. |
| I18n.HtmlLangCodeRoundTrip | src/utils/i18n-manager.js:63-217 | Detecting the language of a locale's HTML code gives back the locale. |
| I18n.DetectionIsIdempotent | src/utils/i18n-manager.js:63-80 | Detecting from a detected locale gives it back. |
| I18n.GetLocaleName | src/utils/i18n-manager.js:315-317 | A supported locale gets its native name, different from its code; any other is shown as it is. |
| I18n.LocaleNamesAreDistinct | src/utils/i18n-manager.js:315-317 | Different supported locales have different names. |
| I18n.ExpandLiteral | src/utils/i18n-manager.js:153-158 | A replacement without `$` is inserted literally; `$$` gives `$` and `$&` the matched text. |
| I18n.ReplaceFirstAfterPlain | src/utils/i18n-manager.js:153-158 | Replacing the first occurrence in x+pat+y, with pat absent from x, gives x+rep+y. |
| I18n.ReplaceAllIsSplitJoin | src/utils/i18n-manager.js:363-366 | A global literal replace equals split-then-join with the replacement. |
| I18n.SplitJoinFrom | src/utils/i18n-manager.js:363-366 | Joining the split pieces with the pattern gives the text back. |
| I18n.SplitPiecesAreFree | src/utils/i18n-manager.js:363-366 | No split piece contains the pattern. |
| I18n.ReplaceAllAbsent | src/utils/i18n-manager.js:363-366 | Replacing an absent pattern changes nothing. |
| I18n.GetMessage | src/utils/i18n-manager.js:145-161 | A missing or falsy entry gives the key. Without substitutions the message is unchanged. With them, a string message has each `$n` replaced in order (`Substitute`), and a non-string message throws. |
| I18n.PlainMessageIgnoresSubstitutions | src/utils/i18n-manager.js:151-158 | An entry whose text has no `$` reads back unchanged whatever substitutions are given. |
| I18n.SubstitutionsFillInOrder | src/utils/i18n-manager.js:151-158 | In a+"$1"+b+"$2"+c, the two substitutions fill $1 and $2 in order. |
| I18n.FormatMessage | src/utils/i18n-manager.js:360-369 | Without parameters it is the plain message. With parameters, a string message has every `{name}` replaced by its value in key order (`FormatAll`), and a non-string message throws. |
| I18n.FormatWithoutMarkers | src/utils/i18n-manager.js:360-369 | A message without `{` is unchanged by formatting. |
| I18n.FormatOneParameter | src/utils/i18n-manager.js:360-369 | Every `{name}` is replaced by the value, and no marker is left between the pieces. |
| DomUtils.LayerOffset | src/utils/dom-utils.js:28-35 | The offset is one of 1000/800/600/100, and an unknown layer gets the default 100. |
| DomUtils.MaxZIndex | src/utils/dom-utils.js:13-25 | The maximum is at least 999999 and bounds every parsed z-index. It is either 999999 or attained by some element; unparsable ones are ignored. |
| DomUtils.GetDynamicZIndex | src/utils/dom-utils.js:12-39 | The result is min(max + offset, 2147483647): never above the cap, at least 1000099, and above every element z-index that leaves room. |
| DomUtils.LayersAreOrdered | src/utils/dom-utils.js:28-33 | Below the cap, canvas > hint > cancel > default, and no layer is below default. |
| DomUtils.PlainPageValues | src/utils/dom-utils.js:12-39 | On a page of auto z-indices the canvas gets 1000999 and other layers 1000099. |
| Numerals.ParseIntOfNumeral | src/utils/dom-utils.js:18 | `parseInt` reads a decimal numeral followed by anything non-numeric as its value, and a negated one as the negative. |
| Values.Or | src/background/background-main.js:88 | `a ‖ b` is a when a is truthy, else b, and is truthy iff either is. |
| Values.Spread | src/background/background-main.js:183 | The spread has the keys of both objects, the second's values winning. |
| Values.SpreadAbsorbs | src/background/background-main.js:108-112 | Spreading the same object again changes nothing. |

## Left out

- Everything that draws or styles is left out: canvas stroking (`renderPath`, `_drawPath`,
  `_drawFadingPath`), hint and cancel-zone elements, notifications, `innerHTML` templates and
  `updatePageTexts`/`createLanguageSelector`. These are side effects on the page; the trail's
  point list and the state they read are modelled.
- Browser calls are outcomes given as parameters: storage, tabs, windows, runtime messaging,
  `chrome.i18n` and the locale file fetch. The tab handlers are reduced to the one command each
  issues. `getAllTabs` throwing during a broadcast is not modelled.
- Timers are events in the tracker's state. `requestAnimationFrame` is one `FrameTick`, and the
  resize debounce, send time-outs and the single-flight initialisation promise are left out. A
  send that times out is a rejected reply.
- Asynchrony: every handler runs to completion before the next event, so interleavings of
  awaited calls are not modelled.
- `atan2` and `sqrt` are replaced by an exact angle measure and squared comparisons. Page and
  element zoom parsing and the average of `getPatternStats` are left out, as are
  the floating-point trail coordinates.
- PathRenderer.Interpolated: the interpolated points use the exact step count ⌊d/5⌋; the
  floating-point rounding of `Math.floor(distance / 5)` is not modelled.
- PathRenderer.AddPoint: the `options` argument of `addPoint` (colour and width per point) is
  not modelled.
- Coordinates.GetRealCoordinate: a viewport scale of 0 (a division by zero in the source) is
  outside the contract.
- DirectionVisualizer.PathPreviewPoints: preview steps are whole grid units, so sizes where the
  source's step is fractional are covered only through the real-valued step argument.
- InputManager.HandleEnd: end events are forwarded with zero coordinates, as in the source; the
  tracker's use of them is not modelled further.
- MotionTracker.Commit: `minDistance` is the fixed 30 px of the source; a configurable value is
  not modelled.
- DirectionVisualizer.GetPatternDescription: the contract covers only the Chinese description. The
  source's two description functions agree on string patterns, which are all the model
  represents, so the model defines this one as the analyzer's, whose contract covers the other
  languages. The visualizer's extra `typeof` test matters only for non-strings.
- PatternAnalyzer.GetPatternDescription: the English word list is not stated in the contract.
- PatternAnalyzer.ValidatePattern: adjacent duplicate letters are accepted, as in the source.
- PatternAnalyzer.GetPatternStats: the average length is not modelled (floating point).
- PatternAnalyzer.CalculateSimilarity: the result is the exact quotient `1 - e/m`. The source's
  double division `1 - (editDistance / maxLength)` rounds it, for example 2/3 for e=1 and m=3,
  and that rounding is not modelled. The bounds, the 0 for an empty pattern and the 1 for
  equal patterns hold either way.
- JavaScript values are modelled only as far as the settings need them. Object-key order,
  prototype keys such as `constructor`, and `Object.entries` order are not modelled; the side
  panel and options page take entries as a sequence. Non-string and non-number values read as
  NaN. Only ASCII and the common Unicode spaces count as whitespace for `parseInt`, and
  exponent notation is not read.
- OptionsManager.ValidateSetting: string values are rejected instead of converted to numbers.
- Background.UpdateActionMapping: a property written onto an array `actionMappings` is not kept,
  because arrays are modelled by their elements only.
- Background.GetActionMapping: reading a pattern from a non-object `actionMappings` gives `null`;
  index keys and built-in properties such as `length` of strings and arrays are not modelled.
- Background.HandleMotionExecution: a truthy mapping that is not a string is an unknown action.
  The source converts it to a property key, so an array holding one action name would run it.
- Background.Handle: only the command a handler awaits can be rejected. The queries before it
  (`tabs.query`, `sessions.getRecentlyClosed`, `windows.getCurrent`) are taken to answer. One
  rejection error stands for all the browser's reasons.
- MotionTracker.ApplySettings: a `reloadSettings` message always carries settings. One without
  them makes the source throw when it reads `enableExecution`; that path is not modelled.
- Background.SaveSettings: the sent settings are an object value; array keys and non-object
  values are not coerced.
- The export file's version and timestamp are left out, and so are the ids and creation dates
  `finalizeGestureSave` assigns.
- Object identity is value equality: `indexOf` and `===` on objects compare by value.
- `defaultConfig.actionMappings` is shared with the cache in the source, so an update also
  changes the defaults. The model keeps the defaults constant.
- I18n.GetMessage: catalog entries that are not objects, `$<name>` groups and the `$1`/`$10`
  overlap with ten or more substitutions are not modelled.
- I18n.FormatMessage: parameter values are strings, so the `String()` conversion is not modelled,
  and keys are matched literally; regular-expression metacharacters in a key are not modelled.
- I18n.Initialize: the branch where `chrome.i18n` throws is not modelled.
- I18n.ChangeLocale: the branch where updating the page throws after the locale is set is not
  modelled, and errors from saving the locale are swallowed as in the source.
- DomUtils.GetDynamicZIndex: a throwing style query (leaving a partial maximum) is not modelled.
  Layer names equal to `Object.prototype` keys are not modelled. The elements' z-index texts are
  a parameter.
- The Android listeners `_addAndroidSpecificListeners` of src/core/unified-input-manager.js, the
  interactive-element observer, `_performScroll` fallbacks,
  the popup, the content bootstrap, the browser polyfill, the store helper and the build
  scripts are not part of this model.

=== FILE: background.dfy ===
/** The background service worker: the settings manager with its
    initialisation merge, the tab actions a gesture can trigger, and the
    message dispatcher. Storage success, the browser's tabs and windows and
    the sender's tab are parameters; the Chrome calls an action would make
    are returned as commands. */
module Background {
  import opened Common
  import opened Values

  // ---------------------------------------------------------------------
  // Settings manager

  /** The fourteen default gestures of `defaultConfig.actionMappings`. */
  const DefaultMappings: map<string, Value> := map[
    "L" := Str("goBack"), "R" := Str("goForward"),
    "U" := Str("scrollToTop"), "D" := Str("scrollToBottom"),
    "UD" := Str("refreshTab"),
    "DL" := Str("newTab"), "DR" := Str("closeTab"), "RL" := Str("reopenTab"), "URD" := Str("duplicateTab"),
    "UL" := Str("previousTab"), "UR" := Str("nextTab"),
    "RUL" := Str("togglePinTab"),
    "DLU" := Str("minimizeWindow"), "ULD" := Str("toggleFullscreen")]

  /** `defaultConfig` */
  const DefaultConfig: map<string, Value> := map[
    "patternSensitivity" := Num(10.0),
    "enableTrail" := Bool(true),
    "trailDuration" := Num(500.0),
    "enableHints" := Bool(true),
    "enableSounds" := Bool(false),
    "enableExecution" := Bool(true),
    "customGestures" := Arr([]),
    "actionMappings" := Obj(DefaultMappings)]

  /** The manager's cache and the `extensionSettings` entry of synced
      storage (`Undefined` when there is none). */
  datatype Manager = Manager(cached: Option<map<string, Value>>, stored: Value)

  /** A property read `v.key` on a value known to be truthy. */
  function Prop(v: Value, key: string): Value {
    if v.Obj? then Get(v.fields, key) else Undefined
  }

  /** Whether some default gesture is missing from the stored mappings;
      `None` when looking throws. */
  function DefaultGestureMissing(storedMappings: Value): (r: Option<bool>)
    ensures storedMappings.Obj? ==>
      r == Some(exists p :: p in DefaultMappings && p !in storedMappings.fields)
    ensures storedMappings.Arr? ==> r == Some(true)
    ensures !storedMappings.Obj? && !storedMappings.Arr? ==> r.None?
  {
    match storedMappings
    case Obj(fields) =>
      if "L" !in fields then Some(true)
      else Some(exists p :: p in DefaultMappings && p !in fields)
    case Arr(_) =>
      assert "L" in DefaultMappings;
      Some(true)
    case _ => None
  }

  /** `saveSettings`: the defaults overlaid with the given settings are
      written and cached when the storage write succeeds (`writeOk`). */
  function SaveSettings(m: Manager, settings: Value, writeOk: bool): (result: (Manager, bool))
    ensures result.1 == writeOk
    ensures !writeOk ==> result.0 == m
    ensures writeOk ==>
      result.0.cached.Some? && result.0.stored == Obj(result.0.cached.value) &&
      var merged := result.0.cached.value;
      (forall k :: k in merged <==> k in DefaultConfig || k in Own(settings)) &&
      (forall k :: k in Own(settings) ==> merged[k] == Own(settings)[k]) &&
      (forall k :: k in DefaultConfig && k !in Own(settings) ==> merged[k] == DefaultConfig[k])
  {
    if writeOk then
      var merged := Spread(DefaultConfig, Own(settings));
      (Manager(Some(merged), Obj(merged)), true)
    else (m, false)
  }

  /** `_doInitialize`, given whether reading and writing storage succeed. The
      merge keeps every stored setting except the gesture mappings, which are
      replaced by the defaults; storage is written only on first install or
      when a default gesture is missing from the stored mappings. The
      boolean says whether storage was written. */
  function Initialize(m: Manager, readOk: bool, writeOk: bool): (result: (Manager, bool))
    ensures result.0.cached.Some?
    ensures Get(result.0.cached.value, "actionMappings") == Obj(DefaultMappings)
    ensures forall k :: k in DefaultConfig ==> k in result.0.cached.value
    ensures !readOk || !Truthy(m.stored) || DefaultGestureMissing(Or(Prop(m.stored, "actionMappings"), Obj(map[]))).None? ==>
      result.0.cached == Some(DefaultConfig)
    ensures readOk && Truthy(m.stored) && DefaultGestureMissing(Or(Prop(m.stored, "actionMappings"), Obj(map[]))).Some? ==>
      var merged := result.0.cached.value;
      (forall k :: k in merged <==> k in DefaultConfig || k in Own(m.stored)) &&
      (forall k :: k in Own(m.stored) && k != "actionMappings" ==> merged[k] == Own(m.stored)[k]) &&
      (forall k :: k in DefaultConfig && k !in Own(m.stored) ==> merged[k] == DefaultConfig[k])
    ensures result.1 <==>
      readOk && writeOk &&
      (!Truthy(m.stored) || DefaultGestureMissing(Or(Prop(m.stored, "actionMappings"), Obj(map[]))) == Some(true))
    ensures !result.1 ==> result.0.stored == m.stored
    ensures result.1 ==> result.0.stored == Obj(result.0.cached.value)
  {
    if !readOk then (Manager(Some(DefaultConfig), m.stored), false)
    else if Truthy(m.stored) then
      var storedMappings := Or(Prop(m.stored, "actionMappings"), Obj(map[]));
      var missing := DefaultGestureMissing(storedMappings);
      if missing.None? then (Manager(Some(DefaultConfig), m.stored), false)
      else
        var merged := Spread(Spread(DefaultConfig, Own(m.stored)), map["actionMappings" := Obj(DefaultMappings)]);
        if missing.value then
          var (saved, ok) := SaveSettings(m, Obj(merged), writeOk);
          (Manager(Some(merged), saved.stored), ok)
        else (Manager(Some(merged), m.stored), false)
    else
      var (saved, ok) := SaveSettings(m, Obj(DefaultConfig), writeOk);
      (Manager(Some(DefaultConfig), saved.stored), ok)
  }

  /** After an initialisation that wrote storage, the next start of the
      worker reads back the same settings and writes nothing. */
  lemma InitializeSettles(m: Manager, writeOk: bool)
    requires Initialize(m, true, true).1
    ensures var m1 := Initialize(m, true, true).0;
      Initialize(Manager(None, m1.stored), true, writeOk) == (Manager(m1.cached, m1.stored), false)
  {
    var m1 := Initialize(m, true, true).0;
    var c := m1.cached.value;
    assert m1.stored == Obj(c);
    assert Prop(m1.stored, "actionMappings") == Obj(DefaultMappings);
    assert DefaultGestureMissing(Obj(DefaultMappings)) == Some(false);
    var merged := Spread(Spread(DefaultConfig, c), map["actionMappings" := Obj(DefaultMappings)]);
    assert merged == c;
  }

  /** However the stored settings set the gesture mappings, the merge
      replaces them with the defaults: a user's changed mapping does not
      survive an initialisation. */
  lemma StoredMappingsAreDiscarded(m: Manager, readOk: bool, writeOk: bool, pattern: string, action: string)
    requires m.stored == Obj(map["actionMappings" := Obj(map[pattern := Str(action)])])
    requires pattern in DefaultMappings && DefaultMappings[pattern] != Str(action)
    ensures var s := Initialize(m, readOk, writeOk).0.cached.value;
      Get(s, "actionMappings").fields[pattern] != Str(action)
    ensures readOk && writeOk ==> Initialize(m, readOk, writeOk).1
  {
    var stored := Obj(map[pattern := Str(action)]);
    assert Prop(m.stored, "actionMappings") == stored;
    if pattern != "L" {
      assert "L" in DefaultMappings && "L" !in stored.fields;
    } else {
      assert "R" in DefaultMappings && "R" !in stored.fields;
    }
  }

  /** `getSettings`: initialise on first use, then answer from the cache. */
  function GetSettings(m: Manager, readOk: bool, writeOk: bool): (result: (map<string, Value>, Manager))
    ensures result.1.cached == Some(result.0)
    ensures m.cached.Some? ==> result == (m.cached.value, m)
    ensures m.cached.None? ==> result.1 == Initialize(m, readOk, writeOk).0
  {
    if m.cached.Some? then (m.cached.value, m)
    else
      var m1 := Initialize(m, readOk, writeOk).0;
      (m1.cached.value, m1)
  }

  /** `getActionMapping`: the mapped action, or `null` for a falsy one;
      reading a property of missing mappings throws. */
  function GetActionMapping(m: Manager, pattern: string, readOk: bool, writeOk: bool): (result: (Completion<Value>, Manager))
    ensures var mappings := Get(GetSettings(m, readOk, writeOk).0, "actionMappings");
      (mappings.Undefined? || mappings.Null? <==> result.0.Throw?) &&
      (mappings.Obj? ==> result.0 == Normal(Or(Get(mappings.fields, pattern), Null))) &&
      (result.0.Normal? ==> Truthy(result.0.value) || result.0.value == Null)
    ensures result.1 == GetSettings(m, readOk, writeOk).1
  {
    var (settings, m1) := GetSettings(m, readOk, writeOk);
    var mappings := Get(settings, "actionMappings");
    if mappings.Undefined? || mappings.Null? then (Throw("Cannot read properties of " + (if mappings.Null? then "null" else "undefined")), m1)
    else if mappings.Obj? then (Normal(Or(Get(mappings.fields, pattern), Null)), m1)
    else (Normal(Null), m1)
  }

  /** `updateActionMapping`: set one mapping and save the settings. The
      class body is strict code, so the assignment throws on missing
      mappings and on any other primitive; on an array it adds a property
      that arrays, as modelled, do not keep. The copy `getSettings` returns
      is shallow, so the assignment writes into the cached mappings object
      itself: the cache holds the new mapping even when the save fails. */
  function UpdateActionMapping(m: Manager, pattern: string, action: Value, readOk: bool, writeOk: bool): (result: (Completion<bool>, Manager))
    ensures var settings := GetSettings(m, readOk, writeOk).0;
      var mappings := Get(settings, "actionMappings");
      (!(mappings.Obj? || mappings.Arr?) <==> result.0.Throw?) &&
      (result.0.Normal? ==> result.0.value == writeOk) &&
      (result.0.Throw? ==> result.1 == GetSettings(m, readOk, writeOk).1) &&
      (mappings.Obj? ==>
        result.1.cached.Some? &&
        Get(result.1.cached.value, "actionMappings") == Obj(mappings.fields[pattern := action]) &&
        forall k :: k in settings && k != "actionMappings" ==> Get(result.1.cached.value, k) == settings[k]) &&
      (result.0.Normal? && !writeOk ==> result.1.stored == GetSettings(m, readOk, writeOk).1.stored) &&
      (result.0.Normal? && writeOk ==> result.1.cached.Some? && result.1.stored == Obj(result.1.cached.value))
  {
    var (settings, m1) := GetSettings(m, readOk, writeOk);
    var mappings := Get(settings, "actionMappings");
    if mappings.Undefined? || mappings.Null? then
      (Throw("Cannot set properties of " + (if mappings.Null? then "null" else "undefined")), m1)
    else if !(mappings.Obj? || mappings.Arr?) then
      (Throw("Cannot create property '" + pattern + "' on a primitive"), m1)
    else
      var updated := if mappings.Obj? then settings["actionMappings" := Obj(mappings.fields[pattern := action])] else settings;
      var mutated := Manager(Some(updated), m1.stored);
      var (m2, ok) := SaveSettings(mutated, Obj(updated), writeOk);
      (Normal(ok), m2)
  }

  /** Reading back a mapping just written gives the written action (or
      `null` for a falsy one), whether or not the save succeeded. */
  lemma UpdateThenGet(m: Manager, pattern: string, action: Value, readOk: bool, writeOk: bool)
    requires Get(GetSettings(m, readOk, writeOk).0, "actionMappings").Obj?
    ensures var m2 := UpdateActionMapping(m, pattern, action, readOk, writeOk).1;
      GetActionMapping(m2, pattern, readOk, writeOk).0 == Normal(Or(action, Null))
  {
    var m2 := UpdateActionMapping(m, pattern, action, readOk, writeOk).1;
    var mappings := Get(GetSettings(m, readOk, writeOk).0, "actionMappings");
    assert Get(m2.cached.value, "actionMappings") == Obj(mappings.fields[pattern := action]);
  }

  /** `resetToDefaults`: the cache becomes the defaults and they are saved. */
  function ResetToDefaults(m: Manager, writeOk: bool): (result: (Manager, bool))
    ensures result.0.cached == Some(DefaultConfig)
    ensures result.1 == writeOk
    ensures writeOk ==> result.0.stored == Obj(DefaultConfig)
    ensures !writeOk ==> result.0.stored == m.stored
  {
    var reset := Manager(Some(DefaultConfig), m.stored);
    assert Spread(DefaultConfig, DefaultConfig) == DefaultConfig;
    SaveSettings(reset, Obj(DefaultConfig), writeOk)
  }

  /** A save of the settings just saved changes nothing. */
  lemma SaveIsIdempotent(m: Manager, settings: Value)
    ensures var m1 := SaveSettings(m, settings, true).0;
      SaveSettings(m1, Obj(m1.cached.value), true).0 == m1
  {
    var m1 := SaveSettings(m, settings, true).0;
    SpreadAbsorbs(DefaultConfig, Own(settings));
  }

  // ---------------------------------------------------------------------
  // Tab actions

  /** The previous tab of the window, wrapping from the first (or from no
      active tab, index -1) to the last. */
  function PreviousTabIndex(current: int, count: nat): (i: int)
    ensures count > 0 && -1 <= current < count ==> 0 <= i < count
    ensures current > 0 ==> i == current - 1
    ensures current <= 0 ==> i == count - 1
  {
    if current > 0 then current - 1 else count - 1
  }

  /** The next tab of the window, wrapping from the last to the first. */
  function NextTabIndex(current: int, count: nat): (i: int)
    ensures count > 0 && -1 <= current < count ==> 0 <= i < count
    ensures current < count - 1 ==> i == current + 1
    ensures current >= count - 1 ==> i == 0
  {
    if current < count - 1 then current + 1 else 0
  }

  /** Stepping back and then forward, or forward and then back, returns to
      the same tab, and `count` steps forward visit every tab once. */
  lemma TabStepsAreInverse(current: int, count: nat)
    requires 0 <= current < count
    ensures NextTabIndex(PreviousTabIndex(current, count), count) == current
    ensures PreviousTabIndex(NextTabIndex(current, count), count) == current
  {
  }

  /** The fourteen actions of the tab action handler. */
  datatype Action =
    | GoBack | GoForward | PreviousTab | NextTab | NewTab | CloseTab | RefreshTab | ReopenTab
    | ScrollToTop | ScrollToBottom | DuplicateTab | MinimizeWindow | ToggleFullscreen | TogglePinTab

  function ActionName(a: Action): string {
    match a
    case GoBack => "goBack"
    case GoForward => "goForward"
    case PreviousTab => "previousTab"
    case NextTab => "nextTab"
    case NewTab => "newTab"
    case CloseTab => "closeTab"
    case RefreshTab => "refreshTab"
    case ReopenTab => "reopenTab"
    case ScrollToTop => "scrollToTop"
    case ScrollToBottom => "scrollToBottom"
    case DuplicateTab => "duplicateTab"
    case MinimizeWindow => "minimizeWindow"
    case ToggleFullscreen => "toggleFullscreen"
    case TogglePinTab => "togglePinTab"
  }

  /** The lookup in `actionMap`. */
  function ActionNamed(name: string): (a: Option<Action>) {
    if name == "goBack" then Some(GoBack)
    else if name == "goForward" then Some(GoForward)
    else if name == "previousTab" then Some(PreviousTab)
    else if name == "nextTab" then Some(NextTab)
    else if name == "newTab" then Some(NewTab)
    else if name == "closeTab" then Some(CloseTab)
    else if name == "refreshTab" then Some(RefreshTab)
    else if name == "reopenTab" then Some(ReopenTab)
    else if name == "scrollToTop" then Some(ScrollToTop)
    else if name == "scrollToBottom" then Some(ScrollToBottom)
    else if name == "duplicateTab" then Some(DuplicateTab)
    else if name == "minimizeWindow" then Some(MinimizeWindow)
    else if name == "toggleFullscreen" then Some(ToggleFullscreen)
    else if name == "togglePinTab" then Some(TogglePinTab)
    else None
  }

  /** The action table is a bijection between the fourteen actions and
      their names. */
  lemma ActionNamesRoundTrip(a: Action, name: string)
    ensures ActionNamed(ActionName(a)) == Some(a)
    ensures ActionNamed(name) == Some(a) ==> ActionName(a) == name
  {
  }

  /** Every default gesture is bound to an action the handler knows. */
  lemma DefaultMappingsAreKnownActions(pattern: string)
    requires pattern in DefaultMappings
    ensures DefaultMappings[pattern].Str? && ActionNamed(DefaultMappings[pattern].s).Some?
  {
  }

  datatype Tab = Tab(id: int, active: bool, pinned: bool)

  /** What the handlers ask the browser for: the active tab of the current
      window, the window's tabs in order, a tab by id, the most recently
      closed session's tab, the current window, and whether a content script
      answers a scroll command. `commandRejection` is the error with which
      the browser rejects the tab, window or session command a handler
      issues (going forward with no forward history, say); `None` when it
      carries the command out. */
  datatype Browser = Browser(
    activeTab: Option<Tab>,
    windowTabs: seq<Tab>,
    tabsById: map<int, Tab>,
    recentlyClosedTab: Option<string>,
    windowId: int,
    windowState: string,
    contentScriptAnswers: bool,
    commandRejection: Option<string>)

  /** The Chrome call an action makes. */
  datatype Command =
    | GoBackIn(tabId: int) | GoForwardIn(tabId: int) | ActivateTab(tabId: int) | CreateTab
    | RemoveTab(tabId: int) | ReloadTab(tabId: int) | DuplicateTabOf(tabId: int)
    | SetPinned(tabId: int, pinned: bool) | RestoreSession(sessionId: string)
    | SendScroll(tabId: int, action: string) | SetWindowState(windowId: int, state: string)

  /** `targetTabId`: the given tab id when truthy, otherwise the active
      tab's; `None` when neither is a truthy id. */
  function TargetTab(tabId: Option<int>, b: Browser): (t: Option<int>)
    ensures t.Some? ==> t.value != 0
    ensures tabId.Some? && tabId.value != 0 ==> t == tabId
  {
    var id := if tabId.Some? && tabId.value != 0 then tabId
              else if b.activeTab.Some? then Some(b.activeTab.value.id) else None;
    if id.Some? && id.value != 0 then id else None
  }

  /** The index of the first active tab, or -1. */
  function ActiveIndex(tabs: seq<Tab>): (i: int)
    ensures -1 <= i < |tabs|
    ensures i >= 0 ==> tabs[i].active && forall j :: 0 <= j < i ==> !tabs[j].active
    ensures i == -1 ==> forall j :: 0 <= j < |tabs| ==> !tabs[j].active
  {
    if |tabs| == 0 then -1
    else if tabs[0].active then 0
    else
      var k := ActiveIndex(tabs[1..]);
      if k == -1 then -1 else k + 1
  }

  /** The command of an action that works on the target tab `id`. */
  function TargetTabCommand(a: Action, id: int): Command
    requires a.GoBack? || a.GoForward? || a.CloseTab? || a.RefreshTab? || a.DuplicateTab?
  {
    match a
    case GoBack => GoBackIn(id)
    case GoForward => GoForwardIn(id)
    case CloseTab => RemoveTab(id)
    case RefreshTab => ReloadTab(id)
    case _ => DuplicateTabOf(id)
  }

  /** The errors the tab handlers throw: no tab at the computed index, no
      target tab, no content script listening, and an unknown tab id. */
  const NoTabAtIndex := "Cannot read properties of undefined (reading 'id')"
  const NoValidTab := "No valid tab found"
  const NoReceiver := "Could not establish connection. Receiving end does not exist."
  const NoTabWithId := "No tab with id"

  /** One handler of `TabActionHandler` up to the command it issues: that
      command, or the error it throws before issuing any. */
  function Issue(a: Action, tabId: Option<int>, b: Browser): (r: Completion<seq<Command>>)
    ensures r.Normal? ==> |r.value| <= 1
    ensures r.Throw? <==>
      ((a == PreviousTab || a == NextTab) && |b.windowTabs| == 0) ||
      ((a == ScrollToTop || a == ScrollToBottom) && (TargetTab(tabId, b).None? || !b.contentScriptAnswers)) ||
      (a == TogglePinTab && tabId.Some? && tabId.value != 0 && tabId.value !in b.tabsById)
    ensures var target := TargetTab(tabId, b);
      (a == GoBack ==> r == Normal(if target.Some? then [GoBackIn(target.value)] else [])) &&
      (a == GoForward ==> r == Normal(if target.Some? then [GoForwardIn(target.value)] else [])) &&
      (a == CloseTab ==> r == Normal(if target.Some? then [RemoveTab(target.value)] else [])) &&
      (a == RefreshTab ==> r == Normal(if target.Some? then [ReloadTab(target.value)] else [])) &&
      (a == DuplicateTab ==> r == Normal(if target.Some? then [DuplicateTabOf(target.value)] else []))
    ensures a == NewTab ==> r == Normal([CreateTab])
    ensures var n := |b.windowTabs|;
      n > 0 ==>
        (a == PreviousTab ==> r == Normal([ActivateTab(b.windowTabs[PreviousTabIndex(ActiveIndex(b.windowTabs), n)].id)])) &&
        (a == NextTab ==> r == Normal([ActivateTab(b.windowTabs[NextTabIndex(ActiveIndex(b.windowTabs), n)].id)]))
    ensures a == ReopenTab ==>
      r == Normal(if b.recentlyClosedTab.Some? then [RestoreSession(b.recentlyClosedTab.value)] else [])
    ensures a == ScrollToTop && r.Normal? ==> r.value == [SendScroll(TargetTab(tabId, b).value, "scrollToTop")]
    ensures a == ScrollToBottom && r.Normal? ==> r.value == [SendScroll(TargetTab(tabId, b).value, "scrollToBottom")]
    ensures a == MinimizeWindow ==> r == Normal([SetWindowState(b.windowId, "minimized")])
    ensures a == ToggleFullscreen ==>
      r == Normal([SetWindowState(b.windowId, if b.windowState == "fullscreen" then "normal" else "fullscreen")])
    ensures a == TogglePinTab && tabId.Some? && tabId.value in b.tabsById && tabId.value != 0 ==>
      r == Normal([SetPinned(tabId.value, !b.tabsById[tabId.value].pinned)])
    ensures a == TogglePinTab && !(tabId.Some? && tabId.value != 0) ==>
      r == Normal(if b.activeTab.Some? && b.activeTab.value.id != 0
                  then [SetPinned(b.activeTab.value.id, !b.activeTab.value.pinned)] else [])
  {
    var target := TargetTab(tabId, b);
    match a
    case GoBack | GoForward | CloseTab | RefreshTab | DuplicateTab =>
      if target.Some? then Normal([TargetTabCommand(a, target.value)]) else Normal([])
    case NewTab => Normal([CreateTab])
    case PreviousTab =>
      var n := |b.windowTabs|;
      if n == 0 then Throw(NoTabAtIndex)
      else Normal([ActivateTab(b.windowTabs[PreviousTabIndex(ActiveIndex(b.windowTabs), n)].id)])
    case NextTab =>
      var n := |b.windowTabs|;
      if n == 0 then Throw(NoTabAtIndex)
      else Normal([ActivateTab(b.windowTabs[NextTabIndex(ActiveIndex(b.windowTabs), n)].id)])
    case ReopenTab =>
      if b.recentlyClosedTab.Some? then Normal([RestoreSession(b.recentlyClosedTab.value)]) else Normal([])
    case ScrollToTop =>
      if target.None? then Throw(NoValidTab)
      else if !b.contentScriptAnswers then Throw(NoReceiver)
      else Normal([SendScroll(target.value, "scrollToTop")])
    case ScrollToBottom =>
      if target.None? then Throw(NoValidTab)
      else if !b.contentScriptAnswers then Throw(NoReceiver)
      else Normal([SendScroll(target.value, "scrollToBottom")])
    case MinimizeWindow => Normal([SetWindowState(b.windowId, "minimized")])
    case ToggleFullscreen =>
      Normal([SetWindowState(b.windowId, if b.windowState == "fullscreen" then "normal" else "fullscreen")])
    case TogglePinTab =>
      if tabId.Some? && tabId.value != 0 then
        if tabId.value in b.tabsById then Normal([SetPinned(tabId.value, !b.tabsById[tabId.value].pinned)])
        else Throw(NoTabWithId)
      else if b.activeTab.Some? && b.activeTab.value.id != 0 then
        Normal([SetPinned(b.activeTab.value.id, !b.activeTab.value.pinned)])
      else Normal([])
  }

  /** Whether a command goes to the browser's tab, window or session API,
      which may reject it; the scroll message goes to the content script. */
  predicate Rejectable(c: Command)
  {
    !c.SendScroll?
  }

  /** One handler of `TabActionHandler`: the commands it issues, or the
      error it throws, either before issuing a command or because the
      browser rejects the command it awaits. */
  function Handle(a: Action, tabId: Option<int>, b: Browser): (r: Completion<seq<Command>>)
    ensures r.Normal? ==> r == Issue(a, tabId, b)
    ensures r.Throw? <==>
      Issue(a, tabId, b).Throw? ||
      (b.commandRejection.Some? && Issue(a, tabId, b).Normal? &&
       exists c :: c in Issue(a, tabId, b).value && Rejectable(c))
    ensures Issue(a, tabId, b).Throw? ==> r == Issue(a, tabId, b)
    ensures r.Throw? && Issue(a, tabId, b).Normal? ==> r.message == b.commandRejection.value
  {
    var issued := Issue(a, tabId, b);
    match issued
    case Throw(_) => issued
    case Normal(cs) =>
      if b.commandRejection.Some? && |cs| == 1 && Rejectable(cs[0]) then Throw(b.commandRejection.value)
      else issued
  }

  /** The tab switchers activate a tab of the window, wrapping around, and
      fail with the browser's error when it refuses the activation. */
  lemma SwitchersWrapAround(b: Browser)
    requires |b.windowTabs| > 0 && b.windowTabs[0].active
    ensures Handle(PreviousTab, None, b) ==
      if b.commandRejection.Some? then Throw(b.commandRejection.value)
      else Normal([ActivateTab(b.windowTabs[|b.windowTabs| - 1].id)])
    ensures |b.windowTabs| > 1 ==>
      Handle(NextTab, None, b) ==
        if b.commandRejection.Some? then Throw(b.commandRejection.value)
        else Normal([ActivateTab(b.windowTabs[1].id)])
  {
  }

  /** The result of `executeAction`. */
  datatype ActionResult = Performed(action: string, commands: seq<Command>) | ActionFailed(error: string)

  /** `executeAction`: unknown names fail with "Unknown action", a handler's
      error is reported with its message. */
  function ExecuteAction(name: string, tabId: Option<int>, b: Browser): (r: ActionResult)
    ensures ActionNamed(name).None? ==> r == ActionFailed("Unknown action")
    ensures ActionNamed(name).Some? && Handle(ActionNamed(name).value, tabId, b).Normal? ==> r.Performed?
    ensures r.Performed? ==> r.action == name && Handle(ActionNamed(name).value, tabId, b) == Normal(r.commands)
    ensures ActionNamed(name).Some? && Handle(ActionNamed(name).value, tabId, b).Throw? ==>
      r == ActionFailed(Handle(ActionNamed(name).value, tabId, b).message)
  {
    match ActionNamed(name)
    case None => ActionFailed("Unknown action")
    case Some(a) =>
      match Handle(a, tabId, b)
      case Normal(cs) => Performed(name, cs)
      case Throw(e) => ActionFailed(e)
  }

  // ---------------------------------------------------------------------
  // Motion execution and messages

  datatype MotionResponse =
    | MotionExecuted(pattern: string, action: string, commands: seq<Command>)
    | ExecutionDisabled
    | NoMappingFound(pattern: string)
    | MotionFailed(pattern: string, mapped: Value, error: string)
    | HandlingFailed(pattern: string, error: string)

  /** Storage and browser conditions while a message is handled. */
  datatype World = World(readOk: bool, writeOk: bool, browser: Browser)

  /** `handleMotionExecution` for a pattern sent from a tab. */
  function HandleMotionExecution(m: Manager, pattern: string, senderTab: Option<int>, w: World): (result: (MotionResponse, Manager))
    ensures var settings := GetSettings(m, w.readOk, w.writeOk).0;
      (!Truthy(Get(settings, "enableExecution")) <==> result.0 == ExecutionDisabled)
    ensures result.0.MotionExecuted? ==>
      result.0.pattern == pattern &&
      var settings := GetSettings(m, w.readOk, w.writeOk).0;
      Truthy(Get(settings, "enableExecution")) &&
      Get(settings, "actionMappings").Obj? &&
      Get(Get(settings, "actionMappings").fields, pattern) == Str(result.0.action) &&
      ActionNamed(result.0.action).Some?
    ensures var (settings, m1) := GetSettings(m, w.readOk, w.writeOk);
      var mapping := GetActionMapping(m1, pattern, w.readOk, w.writeOk).0;
      Truthy(Get(settings, "enableExecution")) ==>
        (mapping.Throw? ==> result.0 == HandlingFailed(pattern, mapping.message)) &&
        (mapping.Normal? && !Truthy(mapping.value) ==> result.0 == NoMappingFound(pattern)) &&
        (mapping.Normal? && Truthy(mapping.value) && !mapping.value.Str? ==>
          result.0 == MotionFailed(pattern, mapping.value, "Unknown action"))
    ensures var (settings, m1) := GetSettings(m, w.readOk, w.writeOk);
      var mapping := GetActionMapping(m1, pattern, w.readOk, w.writeOk).0;
      Truthy(Get(settings, "enableExecution")) && mapping.Normal? && mapping.value.Str? && mapping.value.s != "" ==>
        var outcome := ExecuteAction(mapping.value.s, senderTab, w.browser);
        (outcome.Performed? ==> result.0 == MotionExecuted(pattern, mapping.value.s, outcome.commands)) &&
        (outcome.ActionFailed? ==> result.0 == MotionFailed(pattern, mapping.value, outcome.error))
    ensures result.1 == GetSettings(m, w.readOk, w.writeOk).1
  {
    var (settings, m1) := GetSettings(m, w.readOk, w.writeOk);
    if !Truthy(Get(settings, "enableExecution")) then (ExecutionDisabled, m1)
    else
      var (mapping, m2) := GetActionMapping(m1, pattern, w.readOk, w.writeOk);
      match mapping
      case Throw(e) => (HandlingFailed(pattern, e), m2)
      case Normal(actionName) =>
        if !Truthy(actionName) then (NoMappingFound(pattern), m2)
        else if !actionName.Str? then (MotionFailed(pattern, actionName, "Unknown action"), m2)
        else
          match ExecuteAction(actionName.s, senderTab, w.browser)
          case Performed(_, cs) => (MotionExecuted(pattern, actionName.s, cs), m2)
          case ActionFailed(e) => (MotionFailed(pattern, actionName, e), m2)
  }

  /** A gesture bound to a non-empty action name executes exactly when the
      name is a known action whose handler does not throw. */
  lemma ExecutesIffHandlerSucceeds(m: Manager, pattern: string, senderTab: Option<int>, w: World, name: string)
    requires Truthy(Get(GetSettings(m, w.readOk, w.writeOk).0, "enableExecution"))
    requires GetActionMapping(GetSettings(m, w.readOk, w.writeOk).1, pattern, w.readOk, w.writeOk).0 ==
      Normal(Str(name))
    requires name != ""
    ensures HandleMotionExecution(m, pattern, senderTab, w).0.MotionExecuted? <==>
      ActionNamed(name).Some? && Handle(ActionNamed(name).value, senderTab, w.browser).Normal?
  {
  }

  /** With the defaults in force, every default gesture executes its action
      when the browser carries out the command. */
  lemma DefaultGesturesExecute(pattern: string, senderTab: Option<int>, w: World)
    requires pattern in DefaultMappings
    requires w.browser.commandRejection.None?
    requires var a := ActionNamed(DefaultMappings[pattern].s).value;
      a != PreviousTab && a != NextTab && a != ScrollToTop && a != ScrollToBottom && a != TogglePinTab
    ensures var m := Manager(Some(DefaultConfig), Undefined);
      HandleMotionExecution(m, pattern, senderTab, w).0.MotionExecuted? &&
      HandleMotionExecution(m, pattern, senderTab, w).0.action == DefaultMappings[pattern].s
  {
    DefaultMappingsAreKnownActions(pattern);
  }

  /** Under the defaults, the "R" gesture on a tab whose forward navigation
      the browser rejects is reported as failed with the browser's error. */
  lemma RejectedForwardFailsGesture(senderTab: Option<int>, w: World)
    requires TargetTab(senderTab, w.browser).Some? && w.browser.commandRejection.Some?
    ensures var m := Manager(Some(DefaultConfig), Undefined);
      HandleMotionExecution(m, "R", senderTab, w).0 ==
        MotionFailed("R", Str("goForward"), w.browser.commandRejection.value)
  {
  }

  /** The messages `handleMessage` understands. */
  datatype Request =
    | ExecuteMotion(pattern: string)
    | SidepanelOpened(windowId: Option<int>)
    | SidepanelClosed(windowId: Option<int>)
    | GetSettingsRequest
    | SaveSettingsRequest(settings: Value)
    | ToggleExtension(enabled: Value)
    | GetActionMappingRequest(pattern: string)
    | UpdateActionMappingRequest(pattern: string, action: Value)
    | ResetSettingsRequest
    | GetExtensionStatus
    | UnknownRequest(requestType: string)

  datatype Reply =
    | Success(success: bool)
    | Settings(settings: map<string, Value>)
    | Mapping(action: Value)
    | Status(settings: map<string, Value>, activeTab: Option<int>)
    | Motion(response: MotionResponse)
    | Failure(error: string)

  /** The worker's state: the settings manager and the side panel state per window. */
  datatype Worker = Worker(manager: Manager, sidePanels: map<int, bool>)

  /** `handleMessage`: the reply, the new state, and the tabs sent a
      `reloadSettings` message. `tabs` lists the ids of all open tabs. */
  function HandleMessage(s: Worker, request: Request, senderTab: Option<int>, tabs: seq<int>, w: World): (result: (Reply, Worker, seq<int>))
    ensures request.UnknownRequest? ==> result == (Failure("Unknown message type"), s, [])
    ensures request.GetSettingsRequest? ==>
      result.0 == Settings(GetSettings(s.manager, w.readOk, w.writeOk).0)
    ensures request.SaveSettingsRequest? ==>
      result.0 == Success(w.writeOk) && result.1.manager == SaveSettings(s.manager, request.settings, w.writeOk).0
    ensures request.ResetSettingsRequest? ==>
      result.0 == Success(w.writeOk) && result.1.manager.cached == Some(DefaultConfig)
    ensures request.ToggleExtension? ==>
      result.0 == Success(w.writeOk) &&
      (w.writeOk ==>
         result.1.manager.cached.Some? &&
         Get(result.1.manager.cached.value, "enableExecution") == request.enabled && result.2 == tabs) &&
      (!w.writeOk ==> result.2 == [])
    ensures (request.SidepanelOpened? || request.SidepanelClosed?) ==>
      result.0 == Success(true) &&
      var id := request.windowId;
      (id.Some? && id.value != 0 ==> result.1.sidePanels == s.sidePanels[id.value := request.SidepanelOpened?]) &&
      (!(id.Some? && id.value != 0) ==> result.1 == s)
    ensures !request.ToggleExtension? ==> result.2 == []
  {
    var m := s.manager;
    match request
    case ExecuteMotion(pattern) =>
      var (r, m1) := HandleMotionExecution(m, pattern, senderTab, w);
      (Motion(r), s.(manager := m1), [])
    case SidepanelOpened(id) =>
      if id.Some? && id.value != 0 then (Success(true), s.(sidePanels := s.sidePanels[id.value := true]), [])
      else (Success(true), s, [])
    case SidepanelClosed(id) =>
      if id.Some? && id.value != 0 then (Success(true), s.(sidePanels := s.sidePanels[id.value := false]), [])
      else (Success(true), s, [])
    case GetSettingsRequest =>
      var (settings, m1) := GetSettings(m, w.readOk, w.writeOk);
      (Settings(settings), s.(manager := m1), [])
    case SaveSettingsRequest(settings) =>
      var (m1, ok) := SaveSettings(m, settings, w.writeOk);
      (Success(ok), s.(manager := m1), [])
    case ToggleExtension(enabled) =>
      var (current, m1) := GetSettings(m, w.readOk, w.writeOk);
      var (m2, ok) := SaveSettings(m1, Obj(current["enableExecution" := enabled]), w.writeOk);
      (Success(ok), s.(manager := m2), if ok then tabs else [])
    case GetActionMappingRequest(pattern) =>
      var (r, m1) := GetActionMapping(m, pattern, w.readOk, w.writeOk);
      if r.Normal? then (Mapping(r.value), s.(manager := m1), []) else (Failure(r.message), s, [])
    case UpdateActionMappingRequest(pattern, action) =>
      var (r, m1) := UpdateActionMapping(m, pattern, action, w.readOk, w.writeOk);
      if r.Normal? then (Success(r.value), s.(manager := m1), []) else (Failure(r.message), s, [])
    case ResetSettingsRequest =>
      var (m1, ok) := ResetToDefaults(m, w.writeOk);
      (Success(ok), s.(manager := m1), [])
    case GetExtensionStatus =>
      var (settings, m1) := GetSettings(m, w.readOk, w.writeOk);
      (Status(settings, if senderTab.Some? && senderTab.value != 0 then senderTab else None), s.(manager := m1), [])
    case UnknownRequest(_) => (Failure("Unknown message type"), s, [])
  }

  /** A saved settings object is what the next settings request returns,
      overlaid on the defaults. */
  lemma SaveThenGet(s: Worker, settings: Value, senderTab: Option<int>, tabs: seq<int>, w: World)
    requires w.writeOk
    ensures var s1 := HandleMessage(s, SaveSettingsRequest(settings), senderTab, tabs, w).1;
      HandleMessage(s1, GetSettingsRequest, senderTab, tabs, w).0 == Settings(Spread(DefaultConfig, Own(settings)))
  {
  }

  /** After a reset the next settings request returns the defaults. */
  lemma ResetThenGet(s: Worker, senderTab: Option<int>, tabs: seq<int>, w: World)
    ensures var s1 := HandleMessage(s, ResetSettingsRequest, senderTab, tabs, w).1;
      HandleMessage(s1, GetSettingsRequest, senderTab, tabs, w).0 == Settings(DefaultConfig)
  {
  }
}

=== FILE: common.dfy ===
/** Shared building blocks: the optional value that stands in for JavaScript's
    `null`/`undefined`, and the string helpers the extension relies on
    (`startsWith`, `indexOf`, `includes`, `join`, ASCII `toLowerCase`). */
module Common {

  /** `None` models a missing, `null` or `undefined` value. */
  datatype Option<+T> = None | Some(value: T)

  /** The three input kinds the extension distinguishes ('mouse', 'touch', 'pointer'). */
  datatype InputKind = Mouse | Touch | Pointer

  /** `s.startsWith(prefix)` */
  predicate StartsWith(s: string, prefix: string) {
    |prefix| <= |s| && s[..|prefix|] == prefix
  }

  /** A string does not start with a prefix whose first character it lacks. */
  lemma FirstCharDiffers(u: string, p: string)
    requires |u| > 0 && |p| > 0 && u[0] != p[0]
    ensures !StartsWith(u, p)
  {
    PrefixesDiffer(u, p, u[..1], 0);
    assert StartsWith(u, u[..1]);
  }

  /** Two prefixes that differ at some position cannot both start `u`. */
  lemma PrefixesDiffer(u: string, p: string, q: string, k: nat)
    requires k < |p| && k < |q| && p[k] != q[k]
    ensures !(StartsWith(u, p) && StartsWith(u, q))
  {
    assert StartsWith(u, p) ==> u[..|p|][k] == u[k];
    assert StartsWith(u, q) ==> u[..|q|][k] == u[k];
  }

  /** `pat` occurs in `s` starting at index `i`. */
  predicate OccursAt(s: string, pat: string, i: nat) {
    i + |pat| <= |s| && s[i..i + |pat|] == pat
  }

  /** An occurrence starts with the pattern's first character. */
  lemma OccursAtFirstChar(s: string, pat: string, i: nat)
    requires |pat| > 0
    ensures OccursAt(s, pat, i) ==> s[i] == pat[0]
  {
    assert OccursAt(s, pat, i) ==> s[i..i + |pat|][0] == s[i];
  }

  /** The first occurrence of `pat` in `s` at or after index `k`. */
  function IndexFrom(s: string, pat: string, k: nat): (r: Option<nat>)
    ensures r.Some? ==> k <= r.value && OccursAt(s, pat, r.value)
    ensures r.Some? ==> forall j: nat :: k <= j < r.value ==> !OccursAt(s, pat, j)
    ensures r.None? ==> forall j: nat :: k <= j ==> !OccursAt(s, pat, j)
    decreases |s| - k
  {
    if k + |pat| > |s| then None
    else if s[k..k + |pat|] == pat then Some(k)
    else IndexFrom(s, pat, k + 1)
  }

  /** `s.indexOf(pat)`, with `None` for -1. */
  function IndexOf(s: string, pat: string): (r: Option<nat>)
    ensures r.Some? ==> OccursAt(s, pat, r.value)
    ensures r.Some? ==> forall j: nat :: j < r.value ==> !OccursAt(s, pat, j)
    ensures r.None? ==> forall j: nat :: !OccursAt(s, pat, j)
  {
    IndexFrom(s, pat, 0)
  }

  /** `s.includes(pat)` */
  predicate Contains(s: string, pat: string) {
    IndexOf(s, pat).Some?
  }

  /** `parts.join(sep)` */
  function Join(parts: seq<string>, sep: string): string
  {
    if |parts| == 0 then ""
    else if |parts| == 1 then parts[0]
    else parts[0] + sep + Join(parts[1..], sep)
  }

  /** ASCII part of `toLowerCase`. */
  function LowerChar(c: char): char {
    if 'A' <= c <= 'Z' then (c as int + 32) as char else c
  }

  function Lower(s: string): (r: string)
    ensures |r| == |s|
    ensures forall i :: 0 <= i < |s| ==> r[i] == LowerChar(s[i])
  {
    seq(|s|, i requires 0 <= i < |s| => LowerChar(s[i]))
  }

  /** Every character of `s` belongs to `chars`. */
  predicate AllIn(s: string, chars: set<char>) {
    forall i :: 0 <= i < |s| ==> s[i] in chars
  }

  /** No two neighbouring elements are equal. */
  predicate NoAdjacentDuplicates<T(==)>(s: seq<T>) {
    forall i :: 0 < i < |s| ==> s[i - 1] != s[i]
  }

  /** Joining one-character parts without a separator spells them out. */
  lemma {:induction false} JoinOfSinglesNoSeparator(parts: seq<string>)
    requires forall i :: 0 <= i < |parts| ==> |parts[i]| == 1
    ensures |Join(parts, "")| == |parts|
    ensures forall i :: 0 <= i < |parts| ==> Join(parts, "")[i] == parts[i][0]
    decreases |parts|
  {
    if |parts| >= 2 {
      JoinOfSinglesNoSeparator(parts[1..]);
      assert Join(parts, "") == parts[0] + Join(parts[1..], "");
    }
  }

  /** Joining `n` one-character parts puts `n - 1` separators between them. */
  lemma {:induction false} JoinOfSinglesLength(parts: seq<string>, sep: string)
    requires forall i :: 0 <= i < |parts| ==> |parts[i]| == 1
    requires |parts| > 0
    ensures |Join(parts, sep)| == |parts| + (|parts| - 1) * |sep|
    decreases |parts|
  {
    if |parts| >= 2 {
      JoinOfSinglesLength(parts[1..], sep);
      assert (|parts| - 1) * |sep| == (|parts| - 2) * |sep| + |sep|;
    }
  }

  /** Joining one-character parts with a one-character separator puts
      part `i` at position `2 * i` and the separator between parts. */
  lemma {:induction false} JoinOfSinglesWithSeparator(parts: seq<string>, sep: string)
    requires forall i :: 0 <= i < |parts| ==> |parts[i]| == 1
    requires |sep| == 1 && |parts| > 0
    ensures |Join(parts, sep)| == 2 * |parts| - 1
    ensures forall i :: 0 <= i < |parts| ==> Join(parts, sep)[2 * i] == parts[i][0]
    ensures forall i :: 0 <= i < |parts| - 1 ==> Join(parts, sep)[2 * i + 1] == sep[0]
    decreases |parts|
  {
    if |parts| >= 2 {
      JoinOfSinglesWithSeparator(parts[1..], sep);
      var rest := Join(parts[1..], sep);
      assert Join(parts, sep) == parts[0] + sep + rest;
      forall i | 1 <= i < |parts|
        ensures Join(parts, sep)[2 * i] == parts[i][0]
      {
        assert Join(parts, sep)[2 * i] == rest[2 * (i - 1)];
      }
      forall i | 1 <= i < |parts| - 1
        ensures Join(parts, sep)[2 * i + 1] == sep[0]
      {
        assert Join(parts, sep)[2 * i + 1] == rest[2 * (i - 1) + 1];
      }
    }
  }

  lemma PositiveProduct(a: real, b: real)
    requires a > 0.0 && b > 0.0
    ensures a * b > 0.0
  {
  }

  lemma NonNegativeProduct(a: real, b: real)
    requires a >= 0.0 && b > 0.0
    ensures a * b >= 0.0
  {
    if a > 0.0 {
      PositiveProduct(a, b);
    }
  }

  /** Facts about a ratio `a / s` of integers with `0 <= a <= s`, used to
      compare such ratios with constants without non-linear reasoning. */
  lemma Ratio(a: int, s: int)
    requires 0 <= a <= s && s > 0
    ensures 0.0 <= (a as real) / (s as real) <= 1.0
    ensures (a as real) / (s as real) == 0.0 <==> a == 0
    ensures (a as real) / (s as real) == 1.0 <==> a == s
    ensures (a as real) / (s as real) < 0.5 <==> 2 * a < s
    ensures (a as real) / (s as real) == 0.5 <==> 2 * a == s
  {
    var sr := s as real;
    var ar := a as real;
    var q := ar / sr;
    assert q * sr == ar;
    RatioFacts(q, sr, ar);
  }

  /** The same facts for a quotient `q` given by `q * s == a`. */
  lemma RatioFacts(q: real, s: real, a: real)
    requires s > 0.0 && 0.0 <= a <= s && q * s == a
    ensures 0.0 <= q <= 1.0
    ensures q == 0.0 <==> a == 0.0
    ensures q == 1.0 <==> a == s
    ensures q < 0.5 <==> 2.0 * a < s
    ensures q == 0.5 <==> 2.0 * a == s
  {
    SignOfProduct(q, s);
    var above := q - 1.0;
    SignOfProduct(above, s);
    assert above * s == a - s;
    var half := q - 0.5;
    SignOfProduct(half, s);
    assert half * s == a - 0.5 * s;
    assert half == 0.0 <==> half * s == 0.0;
  }

  /** Multiplying by a positive number keeps the sign. */
  lemma SignOfProduct(d: real, s: real)
    requires s > 0.0
    ensures d > 0.0 ==> d * s > 0.0
    ensures d < 0.0 ==> d * s < 0.0
    ensures d == 0.0 ==> d * s == 0.0
  {
    if d > 0.0 {
      PositiveProduct(d, s);
    } else if d < 0.0 {
      PositiveProduct(-d, s);
      assert (-d) * s == -(d * s);
    }
  }
}

=== FILE: coordinates.dfy ===
/** Coordinate correction and geometry helpers of the content script
    (`CoordinateUtils`). Square roots are avoided: distances are compared
    through their squares. */
module Coordinates {
  import opened Common

  /** A coordinate as delivered by an event; `NotANumber` stands for any
      value whose `typeof` is not 'number'. */
  datatype RawCoordinate = Number(n: real) | NotANumber

  /** A bounding client rectangle. */
  datatype Rect = Rect(left: real, top: real, right: real, bottom: real)

  /** `getRealCoordinate`: touch coordinates are divided by the viewport
      scale, everything else is passed through; the device pixel ratio is
      read by the source but never used. */
  function GetRealCoordinate(c: RawCoordinate, kind: InputKind, devicePixelRatio: real, viewportScale: real): (r: real)
    requires kind == Touch ==> viewportScale != 0.0
    ensures c.NotANumber? ==> r == 0.0
    ensures c.Number? && kind != Touch ==> r == c.n
    ensures c.Number? && kind == Touch ==> r * viewportScale == c.n
  {
    match c
    case NotANumber => 0.0
    case Number(n) => if kind == Touch then n / viewportScale else n
  }

  /** For non-touch input the correction ignores both the pixel ratio and the scale. */
  lemma RealCoordinateIgnoresRatioAndScale(c: RawCoordinate, kind: InputKind, d1: real, s1: real, d2: real, s2: real)
    requires kind != Touch
    ensures GetRealCoordinate(c, kind, d1, s1) == GetRealCoordinate(c, kind, d2, s2)
  {
  }

  /** A touch correction with scale 1 is the identity. */
  lemma TouchUnitScaleIsIdentity(n: real, dpr: real)
    ensures GetRealCoordinate(Number(n), Touch, dpr, 1.0) == n
  {
  }

  /** `screenToCanvas`: translate by the canvas rectangle's top-left corner,
      or return the point unchanged when there is no canvas. */
  function ScreenToCanvas(x: real, y: real, canvas: Option<Rect>): (r: (real, real))
    ensures canvas.None? ==> r == (x, y)
    ensures canvas.Some? ==> r.0 + canvas.value.left == x && r.1 + canvas.value.top == y
  {
    match canvas
    case None => (x, y)
    case Some(rect) => (x - rect.left, y - rect.top)
  }

  /** `isWithinBounds`: inclusive on all four edges, false without an element. */
  predicate IsWithinBounds(x: real, y: real, element: Option<Rect>) {
    element.Some? &&
    element.value.left <= x <= element.value.right &&
    element.value.top <= y <= element.value.bottom
  }

  /** A point is within an element exactly when its canvas-relative position
      lies in the rectangle `[0, width] x [0, height]`. */
  lemma WithinBoundsIffInsideCanvas(x: real, y: real, rect: Rect)
    ensures IsWithinBounds(x, y, Some(rect)) <==>
      var p := ScreenToCanvas(x, y, Some(rect));
      0.0 <= p.0 <= rect.right - rect.left && 0.0 <= p.1 <= rect.bottom - rect.top
  {
  }

  /** No point is within a missing element. */
  lemma NothingWithinMissingElement(x: real, y: real)
    ensures !IsWithinBounds(x, y, None)
  {
  }

  /** `getDistance`, squared; pixel coordinates are taken as integers so
      that the comparison `d > k` becomes the exact `d * d > k * k`. */
  function DistanceSquared(x1: int, y1: int, x2: int, y2: int): (r: nat)
  {
    (x2 - x1) * (x2 - x1) + (y2 - y1) * (y2 - y1)
  }

  /** The distance is symmetric, and zero exactly for identical points. */
  lemma DistanceSymmetricAndDefinite(x1: int, y1: int, x2: int, y2: int)
    ensures DistanceSquared(x1, y1, x2, y2) == DistanceSquared(x2, y2, x1, y1)
    ensures DistanceSquared(x1, y1, x2, y2) == 0 <==> x1 == x2 && y1 == y2
  {
  }
}

=== FILE: direction_visualizer.dfy ===
/** The pattern-string helpers of `DirectionVisualizer`: arrow rendering,
    descriptions, validity, complexity scoring and the points of the small
    path preview. */
module DirectionVisualizer {
  import opened Common
  import opened Directions
  import PatternAnalyzer
  import GestureArrows

  /** The thin arrows of `DIRECTION_MAP`. */
  const SimpleArrows: set<char> := {'↑', '↓', '←', '→'}

  /** `getArrowForDirection`: `style === 'advanced'` selects the heavy
      arrows of `ADVANCED_ARROWS`, any other style the thin ones; a
      character that is not a direction comes back unchanged. */
  function GetArrowForDirection(c: char, style: string): (a: char)
    ensures IsDirection(c) && style == "advanced" ==> a in GestureArrows.HeavyArrows
    ensures IsDirection(c) && style != "advanced" ==> a in SimpleArrows
    ensures style == "advanced" ==> a == GestureArrows.ArrowFor(c)
    ensures style != "advanced" && c == 'U' ==> a == '↑'
    ensures style != "advanced" && c == 'D' ==> a == '↓'
    ensures style != "advanced" && c == 'L' ==> a == '←'
    ensures style != "advanced" && c == 'R' ==> a == '→'
    ensures !IsDirection(c) ==> a == c
  {
    if style == "advanced" then
      match c
      case 'U' => '⬆'
      case 'D' => '⬇'
      case 'L' => '⬅'
      case 'R' => '➡'
      case _ => c
    else
      match c
      case 'U' => '↑'
      case 'D' => '↓'
      case 'L' => '←'
      case 'R' => '→'
      case _ => c
  }

  /** Each direction has its own arrow in either style. */
  lemma ArrowsAreDistinct(c: char, d: char, style: string)
    requires IsDirection(c) && IsDirection(d) && c != d
    ensures GetArrowForDirection(c, style) != GetArrowForDirection(d, style)
  {
  }

  function ArrowParts(p: string, style: string): (parts: seq<string>)
    ensures |parts| == |p|
    ensures forall i :: 0 <= i < |p| ==> parts[i] == [GetArrowForDirection(p[i], style)]
  {
    seq(|p|, i requires 0 <= i < |p| => [GetArrowForDirection(p[i], style)])
  }

  /** `getArrowsForPattern`: "" for a missing or empty pattern; otherwise one
      arrow per character, with the separator between neighbours. */
  function GetArrowsForPattern(pattern: Option<string>, style: string, separator: string): (r: string)
    ensures pattern.None? || pattern.value == "" ==> r == ""
    ensures pattern.Some? && pattern.value != "" ==>
      |r| == |pattern.value| + (|pattern.value| - 1) * |separator|
    ensures pattern.Some? && separator == "" ==>
      forall i :: 0 <= i < |pattern.value| ==> r[i] == GetArrowForDirection(pattern.value[i], style)
    ensures pattern.Some? && pattern.value != "" && |separator| == 1 ==>
      forall i :: 0 <= i < |pattern.value| ==>
        r[2 * i] == GetArrowForDirection(pattern.value[i], style) &&
        (i + 1 < |pattern.value| ==> r[2 * i + 1] == separator[0])
  {
    if pattern.None? || pattern.value == "" then ""
    else
      var parts := ArrowParts(pattern.value, style);
      JoinOfSinglesLength(parts, separator);
      if separator == "" then
        JoinOfSinglesNoSeparator(parts);
        Join(parts, separator)
      else if |separator| == 1 then
        JoinOfSinglesWithSeparator(parts, separator);
        Join(parts, separator)
      else Join(parts, separator)
  }

  /** The advanced style without a separator is exactly the heavy-arrow
      rendering of `gesture-arrows.js`. */
  lemma AdvancedArrowsMatchGestureArrows(p: string)
    ensures GetArrowsForPattern(Some(p), "advanced", "") == GestureArrows.GetArrowsForPattern(Some(p))
  {
    var a := GetArrowsForPattern(Some(p), "advanced", "");
    var b := GestureArrows.GetArrowsForPattern(Some(p));
    if p != "" {
      assert |a| == |b|;
      forall i | 0 <= i < |p| ensures a[i] == b[i] {
        assert b[i] == GestureArrows.ArrowFor(p[i]);
      }
    }
  }

  /** `getPatternDescription` is the same computation as the pattern
      analyser's: per-character names, joined with '' for `zh` and with '-'
      otherwise; the `zh` form spells one name per stroke. */
  function GetPatternDescription(pattern: Option<string>, language: string): (r: string)
    ensures pattern.Some? && language == "zh" ==>
      |r| == |pattern.value| &&
      forall i :: 0 <= i < |r| ==> r[i] == PatternAnalyzer.DirectionWord("zh", pattern.value[i])[0]
  {
    if pattern.Some? && language == "zh" then
      JoinOfSinglesNoSeparator(PatternAnalyzer.DirectionWords(language, pattern.value));
      PatternAnalyzer.GetPatternDescription(pattern, language)
    else PatternAnalyzer.GetPatternDescription(pattern, language)
  }

  /** `isValidPattern`: a non-empty string of direction letters. */
  predicate IsValidPattern(pattern: Option<string>) {
    pattern.Some? && pattern.value != "" && AllIn(pattern.value, DirectionChars)
  }

  /** Within the analyser's default length bounds the two validity checks
      agree; longer patterns pass here but fail there. */
  lemma ValidityAgreesWithValidator(pattern: Option<string>)
    ensures IsValidPattern(pattern) && |pattern.value| <= 10 <==>
      PatternAnalyzer.ValidatePattern(pattern, PatternAnalyzer.Criteria(None, None)).isValid
  {
  }

  /** Reference count of direction changes: neighbouring pairs that differ. */
  function Changes(p: string): nat
    decreases |p|
  {
    if |p| <= 1 then 0
    else (if p[0] != p[1] then 1 else 0) + Changes(p[1..])
  }

  /** A pattern changes direction one time fewer than it has strokes. */
  lemma {:induction false} ChangesAreStrokesMinusOne(p: string)
    requires |p| > 0
    ensures Changes(p) + 1 == |Directions.Collapse(p)|
    decreases |p|
  {
    if |p| >= 2 {
      ChangesAreStrokesMinusOne(p[1..]);
    }
  }

  /** `_countDirectionChanges`: the loop over neighbouring pairs. */
  method CountDirectionChanges(p: string) returns (changes: nat)
    ensures |p| > 0 ==> changes + 1 == |Directions.Collapse(p)|
    ensures |p| == 0 ==> changes == 0
    ensures changes == Changes(p)
  {
    changes := 0;
    if |p| == 0 {
      return;
    }
    var i := 1;
    while i < |p|
      invariant 1 <= i <= |p|
      invariant changes + Changes(p[i - 1..]) == Changes(p)
    {
      assert p[i - 1..][1..] == p[i..];
      if p[i] != p[i - 1] {
        changes := changes + 1;
      }
      i := i + 1;
    }
    ChangesAreStrokesMinusOne(p);
  }

  /** A gesture pattern changes direction at every step. */
  lemma {:induction false} ChangesOfGesturePattern(p: string)
    requires NoAdjacentDuplicates(p) && |p| > 0
    ensures Changes(p) == |p| - 1
    decreases |p|
  {
    if |p| >= 2 {
      ChangesOfGesturePattern(p[1..]);
    }
  }

  datatype Level = Invalid | Simple | Medium | Complex

  datatype Complexity = Complexity(score: nat, level: Level, length: nat, uniqueDirections: nat, directionChanges: nat)

  /** `getPatternComplexity`: score = length + 2 * distinct directions +
      changes, graded complex from 8 and medium from 5. */
  function GetPatternComplexity(pattern: Option<string>): (c: Complexity)
    ensures !IsValidPattern(pattern) <==> c.level == Invalid
    ensures !IsValidPattern(pattern) ==> c.score == 0
    ensures IsValidPattern(pattern) ==>
      c.length == |pattern.value| &&
      1 <= c.uniqueDirections <= 4 && c.uniqueDirections <= c.length &&
      c.directionChanges < c.length &&
      c.uniqueDirections == |PatternAnalyzer.CharSet(pattern.value)| &&
      c.directionChanges == Changes(pattern.value) &&
      c.directionChanges + 1 == |Directions.Collapse(pattern.value)| &&
      c.score == c.length + 2 * c.uniqueDirections + c.directionChanges &&
      (c.level == Complex <==> c.score >= 8) &&
      (c.level == Medium <==> 5 <= c.score < 8)
  {
    if !IsValidPattern(pattern) then Complexity(0, Invalid, 0, 0, 0)
    else
      var p := pattern.value;
      var unique := PatternAnalyzer.CharSet(p);
      CharSetBounds(p);
      ChangesAreStrokesMinusOne(p);
      CollapseShape(p);
      var changes := Changes(p);
      var score := |p| + 2 * |unique| + changes;
      var level := if score >= 8 then Complex else if score >= 5 then Medium else Simple;
      Complexity(score, level, |p|, |unique|, changes)
  }

  lemma CharSetBounds(p: string)
    requires |p| > 0 && AllIn(p, DirectionChars)
    ensures 1 <= |PatternAnalyzer.CharSet(p)| <= 4
    ensures |PatternAnalyzer.CharSet(p)| <= |p|
    ensures |p| >= 2 && p[0] != p[1] ==> |PatternAnalyzer.CharSet(p)| >= 2
  {
    var s := PatternAnalyzer.CharSet(p);
    assert p[0] in s;
    assert s <= DirectionChars;
    SubsetSize(s, DirectionChars);
    SetOfSequenceSize(p);
    if |p| >= 2 && p[0] != p[1] {
      SubsetSize({p[0], p[1]}, s);
    }
  }

  lemma {:induction false} SubsetSize<T>(a: set<T>, b: set<T>)
    requires a <= b
    ensures |a| <= |b|
    decreases b
  {
    if a != {} {
      var x :| x in a;
      SubsetSize(a - {x}, b - {x});
    }
  }

  lemma {:induction false} SetOfSequenceSize(p: string)
    ensures |PatternAnalyzer.CharSet(p)| <= |p|
    decreases |p|
  {
    if |p| > 0 {
      SetOfSequenceSize(p[1..]);
      assert PatternAnalyzer.CharSet(p) == {p[0]} + PatternAnalyzer.CharSet(p[1..]);
    }
  }

  /** Grading of well-formed gestures: one stroke is simple, two strokes
      medium, and three or more complex. */
  lemma GestureComplexityLevels(p: string)
    requires IsGesturePattern(p) && p != ""
    ensures |p| == 1 ==> GetPatternComplexity(Some(p)).level == Simple
    ensures |p| == 2 ==> GetPatternComplexity(Some(p)).level == Medium
    ensures |p| >= 3 ==> GetPatternComplexity(Some(p)).level == Complex
  {
    var c := GetPatternComplexity(Some(p));
    ChangesOfGesturePattern(p);
    CharSetBounds(p);
    if |p| == 1 {
      assert PatternAnalyzer.CharSet(p) == {p[0]};
    }
  }

  // ---------------------------------------------------------------------
  // Path preview

  datatype Point = Point(x: real, y: real)

  function Clamp(v: real, gridSize: real): (r: real)
    ensures r >= 5.0
    ensures gridSize >= 10.0 ==> r <= gridSize - 5.0
    ensures gridSize >= 10.0 && 5.0 <= v <= gridSize - 5.0 ==> r == v
  {
    var upper := if gridSize - 5.0 < v then gridSize - 5.0 else v;
    if upper < 5.0 then 5.0 else upper
  }

  /** Horizontal and vertical pen movement of one character, in steps
      (right and down positive); other characters do not move the pen. */
  function StepX(c: char): int {
    match c case 'R' => 1 case 'L' => -1 case _ => 0
  }

  function StepY(c: char): int {
    match c case 'D' => 1 case 'U' => -1 case _ => 0
  }

  /** Net strokes of a pattern along each axis. */
  function NetX(p: string): int
    decreases |p|
  {
    if |p| == 0 then 0 else StepX(p[0]) + NetX(p[1..])
  }

  function NetY(p: string): int
    decreases |p|
  {
    if |p| == 0 then 0 else StepY(p[0]) + NetY(p[1..])
  }

  /** The pen coordinate `k` whole steps away from the centre. */
  function PenAt(centre: real, step: real, k: int): real {
    centre + step * (k as real)
  }

  /** The `forEach` of `createPathPreview`. The pen starts at the centre
      and moves one `step` per stroke; it is tracked here as whole steps
      `(kx, ky)` away from the centre, and each recorded point is the pen
      position clamped into the grid. */
  function Walk(p: string, kx: int, ky: int, centre: real, step: real, gridSize: real): (points: seq<Point>)
    ensures |points| == |p|
    ensures forall i :: 0 <= i < |p| ==> points[i].x >= 5.0 && points[i].y >= 5.0
    ensures gridSize >= 10.0 ==> forall i :: 0 <= i < |p| ==>
      points[i].x <= gridSize - 5.0 && points[i].y <= gridSize - 5.0
    decreases |p|
  {
    if |p| == 0 then []
    else
      var nkx, nky := kx + StepX(p[0]), ky + StepY(p[0]);
      [Point(Clamp(PenAt(centre, step, nkx), gridSize), Clamp(PenAt(centre, step, nky), gridSize))] +
      Walk(p[1..], nkx, nky, centre, step, gridSize)
  }

  /** The point list of `createPathPreview` for a grid of `gridSize` pixels
      (100 by default): the centre, then one clamped point per character. */
  function PathPreviewPoints(pattern: string, gridSize: real): (points: seq<Point>)
    ensures |points| == |pattern| + 1
    ensures points[0] == Point(gridSize / 2.0, gridSize / 2.0)
    ensures forall i :: 1 <= i < |points| ==> points[i].x >= 5.0 && points[i].y >= 5.0
    ensures gridSize >= 10.0 ==> forall i :: 0 <= i < |points| ==>
      5.0 <= points[i].x <= gridSize - 5.0 && 5.0 <= points[i].y <= gridSize - 5.0
  {
    [Point(gridSize / 2.0, gridSize / 2.0)] + Walk(pattern, 0, 0, gridSize / 2.0, gridSize / 6.0, gridSize)
  }

  /** Point `i` of the walk sits at the net strokes of the first `i + 1`
      characters, clamped. */
  lemma {:induction false} WalkPositions(p: string, kx: int, ky: int, centre: real, step: real, gridSize: real, i: nat)
    requires i < |p|
    ensures Walk(p, kx, ky, centre, step, gridSize)[i] ==
      Point(Clamp(PenAt(centre, step, kx + NetX(p[..i + 1])), gridSize),
            Clamp(PenAt(centre, step, ky + NetY(p[..i + 1])), gridSize))
    decreases |p|
  {
    var nkx, nky := kx + StepX(p[0]), ky + StepY(p[0]);
    assert NetX(p[..i + 1]) == StepX(p[0]) + NetX(p[..i + 1][1..]);
    assert NetY(p[..i + 1]) == StepY(p[0]) + NetY(p[..i + 1][1..]);
    if i > 0 {
      WalkPositions(p[1..], nkx, nky, centre, step, gridSize, i - 1);
      assert p[..i + 1][1..] == p[1..][..i];
    } else {
      assert p[..1][1..] == [];
    }
  }

  /** Point `i + 1` of the preview is the centre moved `gridSize / 6` per net
      stroke of the first `i + 1` characters, then clamped into the grid. */
  lemma PreviewPointPosition(pattern: string, gridSize: real, i: nat)
    requires i < |pattern|
    ensures PathPreviewPoints(pattern, gridSize)[i + 1] ==
      Point(Clamp(PenAt(gridSize / 2.0, gridSize / 6.0, NetX(pattern[..i + 1])), gridSize),
            Clamp(PenAt(gridSize / 2.0, gridSize / 6.0, NetY(pattern[..i + 1])), gridSize))
  {
    var walk := Walk(pattern, 0, 0, gridSize / 2.0, gridSize / 6.0, gridSize);
    WalkPositions(pattern, 0, 0, gridSize / 2.0, gridSize / 6.0, gridSize, i);
    assert PathPreviewPoints(pattern, gridSize)[i + 1] == walk[i];
  }

  /** Opposite strokes cancel: "LR" ends back at the centre of the grid. */
  lemma ReturningPathEndsAtCentre(gridSize: real)
    requires gridSize >= 10.0
    ensures PathPreviewPoints("LR", gridSize)[2] == Point(gridSize / 2.0, gridSize / 2.0)
  {
    PreviewPointPosition("LR", gridSize, 1);
    assert "LR"[..2] == "LR";
  }
}

=== FILE: directions.dfy ===
/** The four gesture directions and the run-length collapse that every
    recogniser in the extension applies to its direction stream. */
module Directions {
  import opened Common

  /** 'U', 'D', 'L', 'R': up, down, left and right in screen coordinates
      (y grows downwards). */
  const DirectionChars: set<char> := {'U', 'D', 'L', 'R'}

  predicate IsDirection(c: char) {
    c in DirectionChars
  }

  /** A well-formed gesture pattern: direction letters only, and no two
      equal neighbours. */
  predicate IsGesturePattern(s: string) {
    AllIn(s, DirectionChars) && NoAdjacentDuplicates(s)
  }

  /** Reference definition of the run-length collapse: every maximal run of
      equal elements is replaced by a single element. */
  function Collapse<T(==)>(s: seq<T>): seq<T>
    decreases |s|
  {
    if |s| <= 1 then s
    else if s[0] == s[1] then Collapse(s[1..])
    else [s[0]] + Collapse(s[1..])
  }

  /** The collapse keeps the first element, never grows, only uses elements
      of its input, and leaves no equal neighbours. */
  lemma {:induction false} CollapseShape<T>(s: seq<T>)
    ensures |Collapse(s)| <= |s|
    ensures |s| > 0 ==> |Collapse(s)| > 0 && Collapse(s)[0] == s[0]
    ensures forall x :: x in Collapse(s) ==> x in s
    ensures NoAdjacentDuplicates(Collapse(s))
    decreases |s|
  {
    if |s| >= 2 {
      CollapseShape(s[1..]);
      if s[0] != s[1] {
        var r := Collapse(s[1..]);
        assert Collapse(s) == [s[0]] + r;
        forall i | 0 < i < |Collapse(s)|
          ensures Collapse(s)[i - 1] != Collapse(s)[i]
        {
          if i > 1 {
            assert Collapse(s)[i - 1] == r[i - 2] && Collapse(s)[i] == r[i - 1];
          }
        }
        forall x | x in Collapse(s)
          ensures x in s
        {
          if x != s[0] {
            assert x in r;
          }
        }
      }
    }
  }

  /** A sequence without equal neighbours is its own collapse. */
  lemma {:induction false} CollapseOfDuplicateFree<T>(s: seq<T>)
    requires NoAdjacentDuplicates(s)
    ensures Collapse(s) == s
    decreases |s|
  {
    if |s| >= 2 {
      assert s[0] != s[1];
      CollapseOfDuplicateFree(s[1..]);
      assert [s[0]] + s[1..] == s;
    }
  }

  /** A run of one repeated element collapses to that single element. */
  lemma {:induction false} CollapseOfConstant<T>(s: seq<T>, x: T)
    requires forall i :: 0 <= i < |s| ==> s[i] == x
    ensures Collapse(s) == if |s| == 0 then [] else [x]
    decreases |s|
  {
    if |s| >= 2 {
      CollapseOfConstant(s[1..], x);
    }
  }

  /** Collapsing twice is collapsing once. */
  lemma CollapseIdempotent<T>(s: seq<T>)
    ensures Collapse(Collapse(s)) == Collapse(s)
  {
    CollapseShape(s);
    CollapseOfDuplicateFree(Collapse(s));
  }

  /** Collapsing a string of direction letters yields a gesture pattern. */
  lemma CollapseIsGesturePattern(s: string)
    requires AllIn(s, DirectionChars)
    ensures IsGesturePattern(Collapse(s))
  {
    CollapseShape(s);
    forall i | 0 <= i < |Collapse(s)|
      ensures Collapse(s)[i] in DirectionChars
    {
      assert Collapse(s)[i] in Collapse(s);
    }
  }
}

=== FILE: dom_utils.dfy ===
/** `DomUtils`: the z-index the extension's overlays take so that they sit
    above everything on the page. The page's elements are given as the list
    of their computed `z-index` texts (`"auto"` or an integer). */
module DomUtils {
  import opened Common
  import opened Numerals

  /** The floor of the page's highest z-index. */
  const BaseZIndex: int := 999999

  /** The largest z-index browsers accept, a signed 32-bit maximum. */
  const MaxSafeZIndex: int := 2147483647

  /** The offset above the page's highest z-index for each overlay layer;
      any other layer name takes the default offset. */
  function LayerOffset(layer: string): (offset: int)
    ensures offset in {1000, 800, 600, 100}
    ensures layer !in {"canvas", "hint", "cancel"} ==> offset == 100
  {
    if layer == "canvas" then 1000
    else if layer == "hint" then 800
    else if layer == "cancel" then 600
    else 100
  }

  /** The values `parseInt` reads from the z-index texts, `None` for NaN. */
  function ZValues(zs: seq<string>): (vs: seq<Option<int>>)
    ensures |vs| == |zs|
    ensures forall i :: 0 <= i < |zs| ==> vs[i] == ParseInt(zs[i])
  {
    seq(|zs|, i requires 0 <= i < |zs| => ParseInt(zs[i]))
  }

  /** The highest of the read values, never below the floor; NaN is
      passed over. */
  function MaxOf(vs: seq<Option<int>>): (m: int)
    ensures m >= BaseZIndex
    ensures forall i :: 0 <= i < |vs| && vs[i].Some? ==> vs[i].value <= m
    ensures m == BaseZIndex || exists i :: 0 <= i < |vs| && vs[i] == Some(m)
  {
    if |vs| == 0 then BaseZIndex
    else
      var init := vs[..|vs| - 1];
      var m := MaxOf(init);
      var z := vs[|vs| - 1];
      assert forall i :: 0 <= i < |init| ==> init[i] == vs[i];
      if z.Some? && z.value > m then z.value else m
  }

  /** The highest z-index among the elements, never below the floor;
      texts `parseInt` reads as NaN are passed over. */
  function MaxZIndex(zs: seq<string>): (m: int)
    ensures m >= BaseZIndex
    ensures forall i :: 0 <= i < |zs| && ParseInt(zs[i]).Some? ==> ParseInt(zs[i]).value <= m
    ensures m == BaseZIndex || exists i :: 0 <= i < |zs| && ParseInt(zs[i]) == Some(m)
  {
    MaxOf(ZValues(zs))
  }

  /** `getDynamicZIndex`: the page's highest z-index (at least 999999)
      raised by the layer's offset, capped at the 32-bit maximum. */
  method GetDynamicZIndex(zs: seq<string>, layer: string) returns (z: int)
    ensures z == if MaxZIndex(zs) + LayerOffset(layer) < MaxSafeZIndex
                 then MaxZIndex(zs) + LayerOffset(layer) else MaxSafeZIndex
    ensures z <= MaxSafeZIndex
    ensures z >= BaseZIndex + 100
    ensures forall i :: 0 <= i < |zs| && ParseInt(zs[i]).Some? ==>
      (ParseInt(zs[i]).value < MaxSafeZIndex - LayerOffset(layer) ==> z > ParseInt(zs[i]).value)
  {
    var vs := ZValues(zs);
    var maxZ := BaseZIndex;
    var i := 0;
    while i < |zs|
      invariant 0 <= i <= |zs|
      invariant maxZ == MaxOf(vs[..i])
    {
      assert vs[..i + 1][..i] == vs[..i];
      var parsed := ParseInt(zs[i]);
      if parsed.Some? && parsed.value > maxZ {
        maxZ := parsed.value;
      }
      i := i + 1;
    }
    assert vs[..i] == vs;
    var offset := LayerOffset(layer);
    z := if maxZ + offset < MaxSafeZIndex then maxZ + offset else MaxSafeZIndex;
  }

  /** The z-index `GetDynamicZIndex` computes, as a function. */
  function DynamicZIndex(zs: seq<string>, layer: string): int {
    var raised := MaxZIndex(zs) + LayerOffset(layer);
    if raised < MaxSafeZIndex then raised else MaxSafeZIndex
  }

  /** Until the cap is reached the trail canvas sits above hints, hints
      above the cancel zone, and the cancel zone above default overlays. */
  lemma LayersAreOrdered(zs: seq<string>)
    requires MaxZIndex(zs) + 1000 < MaxSafeZIndex
    ensures DynamicZIndex(zs, "canvas") > DynamicZIndex(zs, "hint") > DynamicZIndex(zs, "cancel") >
      DynamicZIndex(zs, "default")
    ensures forall layer :: DynamicZIndex(zs, layer) >= DynamicZIndex(zs, "default")
  {
  }

  /** On a page without stacked elements the layers land at fixed values. */
  lemma PlainPageValues(zs: seq<string>)
    requires forall i :: 0 <= i < |zs| ==> zs[i] == "auto"
    ensures DynamicZIndex(zs, "canvas") == 1000999
    ensures DynamicZIndex(zs, "whatever") == 1000099
  {
    forall i | 0 <= i < |zs|
      ensures ParseInt(zs[i]).None?
    {
      AutoIsNaN();
    }
  }

  /** `parseInt("auto")` is NaN. */
  lemma AutoIsNaN()
    ensures ParseInt("auto").None?
  {
    assert !IsJsSpace('a');
    assert TrimStart("auto") == "auto";
    assert !IsDigitIn('a', 10);
    assert DigitRun("auto", 10) == 0;
  }
}

=== FILE: gesture_arrows.dfy ===
/** The heavy-arrow display helpers of `gesture-arrows.js`: pattern to
    arrows, arrows back to pattern, and the short Chinese descriptions. */
module GestureArrows {
  import opened Common
  import opened Directions

  /** The four heavy arrows of `ARROW_MAP`. */
  const HeavyArrows: set<char> := {'⬅', '➡', '⬆', '⬇'}

  /** `ARROW_MAP[char] || char` */
  function ArrowFor(c: char): (a: char)
    ensures IsDirection(c) ==> a in HeavyArrows
    ensures c == 'L' ==> a == '⬅'
    ensures c == 'R' ==> a == '➡'
    ensures c == 'U' ==> a == '⬆'
    ensures c == 'D' ==> a == '⬇'
    ensures !IsDirection(c) ==> a == c
  {
    match c
    case 'L' => '⬅'
    case 'R' => '➡'
    case 'U' => '⬆'
    case 'D' => '⬇'
    case _ => c
  }

  /** `reverseMap[char] || char` */
  function PatternCharFor(a: char): (c: char)
    ensures a in HeavyArrows ==> IsDirection(c)
    ensures a == '⬅' ==> c == 'L'
    ensures a == '➡' ==> c == 'R'
    ensures a == '⬆' ==> c == 'U'
    ensures a == '⬇' ==> c == 'D'
    ensures a !in HeavyArrows ==> c == a
  {
    match a
    case '⬅' => 'L'
    case '➡' => 'R'
    case '⬆' => 'U'
    case '⬇' => 'D'
    case _ => a
  }

  /** `getArrowsForPattern`: "" for a missing or empty pattern, otherwise
      one arrow per direction, every other character kept as it is. */
  function GetArrowsForPattern(pattern: Option<string>): (r: string)
    ensures pattern.None? ==> r == ""
    ensures pattern.Some? ==> |r| == |pattern.value|
    ensures pattern.Some? ==> forall i :: 0 <= i < |r| ==> r[i] == ArrowFor(pattern.value[i])
    ensures pattern.Some? ==> forall i :: 0 <= i < |r| && !IsDirection(pattern.value[i]) ==>
      r[i] == pattern.value[i]
  {
    if pattern.None? then ""
    else seq(|pattern.value|, i requires 0 <= i < |pattern.value| => ArrowFor(pattern.value[i]))
  }

  /** `getPatternForArrows`: the inverse character map. */
  function GetPatternForArrows(arrows: Option<string>): (r: string)
    ensures arrows.None? ==> r == ""
    ensures arrows.Some? ==> |r| == |arrows.value|
    ensures arrows.Some? ==> forall i :: 0 <= i < |r| ==> r[i] == PatternCharFor(arrows.value[i])
    ensures arrows.Some? ==> forall i :: 0 <= i < |r| && arrows.value[i] !in HeavyArrows ==>
      r[i] == arrows.value[i]
  {
    if arrows.None? then ""
    else seq(|arrows.value|, i requires 0 <= i < |arrows.value| => PatternCharFor(arrows.value[i]))
  }

  /** Converting to arrows and back gives the pattern again, for every
      pattern that does not itself contain one of the four arrows. */
  lemma ArrowsRoundTrip(p: string)
    requires forall i :: 0 <= i < |p| ==> p[i] !in HeavyArrows
    ensures GetPatternForArrows(Some(GetArrowsForPattern(Some(p)))) == p
  {
    var back := GetPatternForArrows(Some(GetArrowsForPattern(Some(p))));
    assert |back| == |p|;
    forall i | 0 <= i < |p| ensures back[i] == p[i] {
      var c := p[i];
      assert GetArrowsForPattern(Some(p))[i] == ArrowFor(c);
      match c
      case 'L' =>
      case 'R' =>
      case 'U' =>
      case 'D' =>
      case _ =>
    }
  }

  /** The other direction: arrows converted to a pattern and back are
      unchanged, provided the text holds no literal U, D, L or R. */
  lemma PatternRoundTrip(a: string)
    requires forall i :: 0 <= i < |a| ==> !IsDirection(a[i])
    ensures GetArrowsForPattern(Some(GetPatternForArrows(Some(a)))) == a
  {
    var back := GetArrowsForPattern(Some(GetPatternForArrows(Some(a))));
    forall i | 0 <= i < |a| ensures back[i] == a[i] {
      var c := a[i];
      assert GetPatternForArrows(Some(a))[i] == PatternCharFor(c);
      match c
      case '⬅' =>
      case '➡' =>
      case '⬆' =>
      case '⬇' =>
      case _ =>
    }
  }

  /** The sixteen entries of the `descriptions` table. */
  const Descriptions: map<string, string> := map[
    "L" := "向左", "R" := "向右", "U" := "向上", "D" := "向下",
    "LR" := "左右", "RL" := "右左", "UD" := "上下", "DU" := "下上",
    "UL" := "上左", "UR" := "上右", "DL" := "下左", "DR" := "下右",
    "URD" := "上右下", "DLU" := "下左上", "ULD" := "上左下", "RUL" := "右上左"]

  /** `getPatternDescription`: the table entry when there is one, otherwise
      the arrow string; the result is empty exactly when the pattern is. */
  function GetPatternDescription(pattern: Option<string>): (r: string)
    ensures pattern.Some? && pattern.value in Descriptions ==> r == Descriptions[pattern.value]
    ensures pattern.None? || pattern.value !in Descriptions ==> r == GetArrowsForPattern(pattern)
    ensures r == "" <==> pattern.None? || pattern.value == ""
  {
    if pattern.Some? && pattern.value in Descriptions then Descriptions[pattern.value]
    else GetArrowsForPattern(pattern)
  }

  /** The table is keyed by gesture patterns of one to three strokes, and
      every single stroke has an entry. */
  lemma DescriptionTableShape()
    ensures forall p :: p in Descriptions ==> IsGesturePattern(p) && 1 <= |p| <= 3
    ensures forall c :: IsDirection(c) ==> [c] in Descriptions
  {
  }
}

=== FILE: i18n.dfy ===
/** `I18n`: the extension's language manager — the choice of locale at
    start-up, switching locales, message lookup with `$n` substitutions,
    `{name}` formatting, and the locale code and name tables. Storage, the
    browser's UI language and the message files are parameters. */
module I18n {
  import opened Common
  import opened Values
  import opened Numerals

  /** The locales the extension ships, in the order of the language menu. */
  const SupportedLocales: seq<string> := ["en", "zh_CN", "de", "ja", "ru"]

  /** The name each locale is shown under in the language menu. */
  const LocaleNames: map<string, string> :=
    map["en" := "English", "zh_CN" := "简体中文", "de" := "Deutsch", "ja" := "日本語", "ru" := "Русский"]

  predicate IsSupported(locale: string) {
    locale in SupportedLocales
  }

  /** The manager's state. `messages` is the parsed `messages.json` of the
      current locale: message names to `{ "message": ... }` entries. */
  datatype Manager = Manager(currentLocale: string, messages: map<string, Value>, initialized: bool)

  /** A freshly constructed manager. */
  const Fresh: Manager := Manager("en", map[], false)

  // ---------------------------------------------------------------------
  // Choosing the locale

  /** `detectBrowserLanguage`: the browser UI language mapped onto a
      supported locale by its two-letter prefix, English otherwise. */
  function DetectBrowserLanguage(uiLanguage: string): (locale: string)
    ensures IsSupported(locale)
    ensures StartsWith(uiLanguage, "zh") ==> locale == "zh_CN"
    ensures !StartsWith(uiLanguage, "zh") && StartsWith(uiLanguage, "de") ==> locale == "de"
    ensures !StartsWith(uiLanguage, "zh") && !StartsWith(uiLanguage, "de") && StartsWith(uiLanguage, "ja") ==> locale == "ja"
    ensures !StartsWith(uiLanguage, "zh") && !StartsWith(uiLanguage, "de") && !StartsWith(uiLanguage, "ja") && StartsWith(uiLanguage, "ru") ==> locale == "ru"
    ensures locale == "en" <==> (!StartsWith(uiLanguage, "zh") && !StartsWith(uiLanguage, "de") && !StartsWith(uiLanguage, "ja") && !StartsWith(uiLanguage, "ru"))
  {
    if StartsWith(uiLanguage, "zh") then "zh_CN"
    else if StartsWith(uiLanguage, "de") then "de"
    else if StartsWith(uiLanguage, "ja") then "ja"
    else if StartsWith(uiLanguage, "ru") then "ru"
    else "en"
  }

  /** `loadMessages`: the catalog of `locale` when its file loads, else the
      English one; when neither loads the old messages stay. `catalogs`
      holds the locales whose `messages.json` can be fetched and parsed. */
  function LoadMessages(previous: map<string, Value>, locale: string,
                        catalogs: map<string, map<string, Value>>): (messages: map<string, Value>)
    ensures messages == previous || messages in catalogs.Values
    ensures locale in catalogs ==> messages == catalogs[locale]
    ensures locale !in catalogs && "en" in catalogs ==> messages == catalogs["en"]
    ensures locale !in catalogs && "en" !in catalogs ==> messages == previous
  {
    if locale in catalogs then catalogs[locale]
    else if locale != "en" && "en" in catalogs then catalogs["en"]
    else previous
  }

  /** What `loadSavedLocale` reads: the stored `selectedLocale` when it is
      a non-empty string (a storage error reads as nothing). A truthy value
      of another type is read as nothing too: no supported locale is one. */
  function SavedLocale(stored: Value): (saved: Option<string>)
    ensures saved.Some? ==> stored == Str(saved.value) && saved.value != ""
    ensures stored.Str? && stored.s != "" ==> saved == Some(stored.s)
  {
    if Truthy(stored) && stored.Str? then Some(stored.s) else None
  }

  /** `initialize`: nothing once initialised; otherwise a saved supported
      locale, or else the detected one, becomes current and its messages
      are loaded. */
  function Initialize(m: Manager, stored: Value, uiLanguage: string,
                      catalogs: map<string, map<string, Value>>): (r: Manager)
    ensures m.initialized ==> r == m
    ensures !m.initialized ==> r.initialized && IsSupported(r.currentLocale)
    ensures !m.initialized && stored.Str? && IsSupported(stored.s) ==> r.currentLocale == stored.s
    ensures !m.initialized && !(stored.Str? && IsSupported(stored.s)) ==>
      r.currentLocale == DetectBrowserLanguage(uiLanguage)
    ensures !m.initialized ==> r.messages == LoadMessages(m.messages, r.currentLocale, catalogs)
  {
    if m.initialized then m
    else
      var saved := SavedLocale(stored);
      var locale := if saved.Some? && IsSupported(saved.value) then saved.value
                    else DetectBrowserLanguage(uiLanguage);
      Manager(locale, LoadMessages(m.messages, locale, catalogs), true)
  }

  /** Initialising twice is initialising once. */
  lemma InitializeIsIdempotent(m: Manager, stored: Value, uiLanguage: string,
                               catalogs: map<string, map<string, Value>>,
                               stored': Value, uiLanguage': string)
    ensures var r := Initialize(m, stored, uiLanguage, catalogs);
      Initialize(r, stored', uiLanguage', catalogs) == r
  {
  }

  /** `changeLocale`: an unsupported locale is refused and nothing changes;
      the current one is accepted as is; any other supported locale has its
      messages loaded, becomes current and is written to storage (the third
      component). */
  function ChangeLocale(m: Manager, locale: string, catalogs: map<string, map<string, Value>>)
    : (r: (Manager, bool, Option<string>))
    ensures r.1 <==> IsSupported(locale)
    ensures !IsSupported(locale) ==> r.0 == m && r.2.None?
    ensures locale == m.currentLocale ==> r.0 == m && r.2.None?
    ensures IsSupported(locale) ==> r.0.currentLocale == locale && r.0.initialized == m.initialized
    ensures r.2.Some? ==> r.2.value == locale && locale != m.currentLocale
    ensures IsSupported(locale) && locale != m.currentLocale ==>
      r.2 == Some(locale) && r.0.messages == LoadMessages(m.messages, locale, catalogs)
  {
    if !IsSupported(locale) then (m, false, None)
    else if locale == m.currentLocale then (m, true, None)
    else (m.(currentLocale := locale, messages := LoadMessages(m.messages, locale, catalogs)), true, Some(locale))
  }

  /** A locale the user switched to is the one a fresh manager starts with
      after a restart, whatever the browser's language. */
  lemma ChosenLocaleSurvivesRestart(m: Manager, locale: string, catalogs: map<string, map<string, Value>>,
                                    uiLanguage: string)
    requires ChangeLocale(m, locale, catalogs).2.Some?
    ensures var stored := Str(ChangeLocale(m, locale, catalogs).2.value);
      Initialize(Fresh, stored, uiLanguage, catalogs).currentLocale == locale
  {
  }

  /** Switching to the same locale twice is switching once. */
  lemma ChangeLocaleIsIdempotent(m: Manager, locale: string, catalogs: map<string, map<string, Value>>)
    ensures var once := ChangeLocale(m, locale, catalogs).0;
      ChangeLocale(once, locale, catalogs).0 == once
  {
  }

  // ---------------------------------------------------------------------
  // Locale codes and names

  /** `getHtmlLangCode`: the BCP 47 tag for `lang`: `zh_CN` becomes
      `zh-CN`, the other supported locales are already tags, and anything
      else falls back to `en`. */
  function GetHtmlLangCode(locale: string): (code: string)
    ensures locale == "zh_CN" ==> code == "zh-CN"
    ensures IsSupported(locale) && locale != "zh_CN" ==> code == locale
    ensures !IsSupported(locale) ==> code == "en"
  {
    if locale == "zh_CN" then "zh-CN"
    else if locale in {"en", "de", "ja", "ru"} then locale
    else "en"
  }

  /** The page language tag leads back to its locale through browser
      language detection. */
  lemma HtmlLangCodeRoundTrip(locale: string)
    requires IsSupported(locale)
    ensures DetectBrowserLanguage(GetHtmlLangCode(locale)) == locale
  {
    assert StartsWith("zh-CN", "zh");
    LocaleCodePrefixes();
  }

  /** Detection maps every locale code it produces to itself. */
  lemma DetectionIsIdempotent(uiLanguage: string)
    ensures var l := DetectBrowserLanguage(uiLanguage); DetectBrowserLanguage(l) == l
  {
    var l := DetectBrowserLanguage(uiLanguage);
    assert StartsWith("zh_CN", "zh");
    LocaleCodePrefixes();
  }

  /** Which language prefixes the locale codes themselves carry. */
  lemma LocaleCodePrefixes()
    ensures StartsWith("zh_CN", "zh") && StartsWith("zh-CN", "zh")
    ensures !StartsWith("en", "zh") && !StartsWith("en", "de") && !StartsWith("en", "ja") && !StartsWith("en", "ru")
    ensures !StartsWith("de", "zh") && StartsWith("de", "de")
    ensures !StartsWith("ja", "zh") && !StartsWith("ja", "de") && StartsWith("ja", "ja")
    ensures !StartsWith("ru", "zh") && !StartsWith("ru", "de") && !StartsWith("ru", "ja") && StartsWith("ru", "ru")
  {
    FirstCharDiffers("en", "zh");
    FirstCharDiffers("en", "de");
    FirstCharDiffers("en", "ja");
    FirstCharDiffers("en", "ru");
    FirstCharDiffers("de", "zh");
    FirstCharDiffers("ja", "zh");
    FirstCharDiffers("ja", "de");
    FirstCharDiffers("ru", "zh");
    FirstCharDiffers("ru", "de");
    FirstCharDiffers("ru", "ja");
  }

  /** `getLocaleName`: the language's own name, or the code itself for a
      locale without one. */
  function GetLocaleName(locale: string): (name: string)
    ensures IsSupported(locale) ==> name == LocaleNames[locale] && name != locale
    ensures !IsSupported(locale) ==> name == locale
  {
    if locale in LocaleNames && LocaleNames[locale] != "" then LocaleNames[locale] else locale
  }

  /** No two supported locales share a display name. */
  lemma LocaleNamesAreDistinct(a: string, b: string)
    requires IsSupported(a) && IsSupported(b) && a != b
    ensures GetLocaleName(a) != GetLocaleName(b)
  {
  }

  // ---------------------------------------------------------------------
  // String replacement

  predicate NoDollar(s: string) {
    forall i :: 0 <= i < |s| ==> s[i] != '$'
  }

  /** The replacement text `String.prototype.replace` inserts for one match:
      `$$` is a dollar sign, `$&` the match, `` $` `` the text before it and
      `$'` the text after it; every other character, and `$n` when the
      pattern has no groups, is copied. */
  function Expand(rep: string, matched: string, before: string, after: string): string
    decreases |rep|
  {
    if |rep| == 0 then ""
    else if rep[0] == '$' && |rep| >= 2 && rep[1] == '$' then "$" + Expand(rep[2..], matched, before, after)
    else if rep[0] == '$' && |rep| >= 2 && rep[1] == '&' then matched + Expand(rep[2..], matched, before, after)
    else if rep[0] == '$' && |rep| >= 2 && rep[1] == '`' then before + Expand(rep[2..], matched, before, after)
    else if rep[0] == '$' && |rep| >= 2 && rep[1] == '\'' then after + Expand(rep[2..], matched, before, after)
    else [rep[0]] + Expand(rep[1..], matched, before, after)
  }

  /** A replacement without a dollar sign is inserted literally; the dollar
      patterns insert the dollar sign and the match. */
  lemma {:induction false} ExpandLiteral(rep: string, matched: string, before: string, after: string)
    ensures NoDollar(rep) ==> Expand(rep, matched, before, after) == rep
    ensures Expand("$$", matched, before, after) == "$"
    ensures Expand("$&", matched, before, after) == matched
    decreases |rep|
  {
    if |rep| > 0 {
      ExpandLiteral(rep[1..], matched, before, after);
      assert NoDollar(rep) ==> NoDollar(rep[1..]);
      assert rep == [rep[0]] + rep[1..];
    }
    assert "$$"[2..] == "" && "$&"[2..] == "";
  }

  /** `s.replace(pat, rep)` for a string pattern: the first occurrence only. */
  function ReplaceFirst(s: string, pat: string, rep: string): string {
    match IndexOf(s, pat)
    case None => s
    case Some(i) => s[..i] + Expand(rep, pat, s[..i], s[i + |pat|..]) + s[i + |pat|..]
  }

  /** When the text before a `$`-led pattern holds no dollar sign, the first
      occurrence is the one right after it. */
  lemma ReplaceFirstAfterPlain(x: string, pat: string, y: string, rep: string)
    requires NoDollar(x) && NoDollar(rep) && |pat| > 0 && pat[0] == '$'
    ensures ReplaceFirst(x + pat + y, pat, rep) == x + rep + y
  {
    var s := x + pat + y;
    assert OccursAt(s, pat, |x|) by {
      assert s[|x|..|x| + |pat|] == pat;
    }
    forall j: nat | j < |x|
      ensures !OccursAt(s, pat, j)
    {
      assert s[j] == x[j];
      OccursAtFirstChar(s, pat, j);
    }
    var i := IndexOf(s, pat);
    assert i == Some(|x|);
    assert s[..|x|] == x && s[|x| + |pat|..] == y;
    ExpandLiteral(rep, pat, x, y);
  }

  /** The result of a global regular-expression replace from index `k` on:
      every non-overlapping occurrence, left to right. */
  function ReplaceAllFrom(s: string, pat: string, rep: string, k: nat): string
    requires |pat| > 0 && k <= |s|
    decreases |s| - k
  {
    match IndexFrom(s, pat, k)
    case None => s[k..]
    case Some(i) => s[k..i] + Expand(rep, pat, s[..i], s[i + |pat|..]) + ReplaceAllFrom(s, pat, rep, i + |pat|)
  }

  function ReplaceAll(s: string, pat: string, rep: string): string
    requires |pat| > 0
  {
    ReplaceAllFrom(s, pat, rep, 0)
  }

  /** `s.split(pat)` from index `k` on: the pieces between occurrences. */
  function SplitFrom(s: string, pat: string, k: nat): (parts: seq<string>)
    requires |pat| > 0 && k <= |s|
    ensures |parts| >= 1
    decreases |s| - k
  {
    match IndexFrom(s, pat, k)
    case None => [s[k..]]
    case Some(i) => [s[k..i]] + SplitFrom(s, pat, i + |pat|)
  }

  function Split(s: string, pat: string): (parts: seq<string>)
    requires |pat| > 0
    ensures |parts| >= 1
  {
    SplitFrom(s, pat, 0)
  }

  /** Splitting at a pattern and joining with it again gives the string back. */
  lemma {:induction false} SplitJoinFrom(s: string, pat: string, k: nat)
    requires |pat| > 0 && k <= |s|
    ensures Join(SplitFrom(s, pat, k), pat) == s[k..]
    decreases |s| - k, 1
  {
    if IndexFrom(s, pat, k).None? {
      SplitJoinEnd(s, pat, k);
    } else {
      SplitJoinAtOccurrence(s, pat, k);
    }
  }

  /** The induction step of `SplitJoinFrom` when an occurrence follows `k`. */
  lemma SplitJoinAtOccurrence(s: string, pat: string, k: nat)
    requires |pat| > 0 && k <= |s|
    requires IndexFrom(s, pat, k).Some?
    ensures Join(SplitFrom(s, pat, k), pat) == s[k..]
    decreases |s| - k, 0
  {
    var i := IndexFrom(s, pat, k).value;
    SplitJoinFrom(s, pat, i + |pat|);
    SplitJoinStep(s, pat, k, i);
  }

  /** Without a further occurrence the single piece is the rest of `s`. */
  lemma SplitJoinEnd(s: string, pat: string, k: nat)
    requires |pat| > 0 && k <= |s|
    requires IndexFrom(s, pat, k).None?
    ensures Join(SplitFrom(s, pat, k), pat) == s[k..]
  {
    assert SplitFrom(s, pat, k) == [s[k..]];
  }

  /** Joining the piece before the occurrence at `i` to the rest. */
  lemma SplitJoinStep(s: string, pat: string, k: nat, i: nat)
    requires |pat| > 0 && k <= |s|
    requires IndexFrom(s, pat, k) == Some(i)
    requires Join(SplitFrom(s, pat, i + |pat|), pat) == s[i + |pat|..]
    ensures Join(SplitFrom(s, pat, k), pat) == s[k..]
  {
    var rest := SplitFrom(s, pat, i + |pat|);
    var parts := [s[k..i]] + rest;
    assert SplitFrom(s, pat, k) == parts;
    assert parts[0] == s[k..i] && parts[1..] == rest;
    assert Join(parts, pat) == s[k..i] + pat + Join(rest, pat);
    assert s[i..i + |pat|] == pat;
    assert s[k..] == s[k..i] + s[i..i + |pat|] + s[i + |pat|..];
  }

  /** None of the pieces contains the pattern. */
  lemma {:induction false} SplitPiecesAreFree(s: string, pat: string, k: nat)
    requires |pat| > 0 && k <= |s|
    ensures forall p :: p in SplitFrom(s, pat, k) ==> !Contains(p, pat)
    decreases |s| - k
  {
    match IndexFrom(s, pat, k)
    case None =>
      GapIsFree(s, pat, k, |s|);
      assert s[k..|s|] == s[k..];
    case Some(i) =>
      SplitPiecesAreFree(s, pat, i + |pat|);
      GapIsFree(s, pat, k, i);
  }

  /** A stretch of `s` in which no occurrence starts holds none. */
  lemma GapIsFree(s: string, pat: string, k: nat, e: nat)
    requires |pat| > 0 && k <= e <= |s|
    requires forall j: nat :: k <= j < e ==> !OccursAt(s, pat, j)
    ensures !Contains(s[k..e], pat)
  {
    var g := s[k..e];
    if IndexOf(g, pat).Some? {
      var j := IndexOf(g, pat).value;
      assert g[j..j + |pat|] == s[k + j..k + j + |pat|];
      assert OccursAt(s, pat, k + j);
    }
  }

  /** Replacing every occurrence with a dollar-free text is splitting at the
      pattern and joining with that text. */
  lemma {:induction false} ReplaceAllIsSplitJoin(s: string, pat: string, rep: string, k: nat)
    requires |pat| > 0 && k <= |s| && NoDollar(rep)
    ensures ReplaceAllFrom(s, pat, rep, k) == Join(SplitFrom(s, pat, k), rep)
    decreases |s| - k
  {
    match IndexFrom(s, pat, k)
    case None =>
    case Some(i) =>
      var rest := SplitFrom(s, pat, i + |pat|);
      ReplaceAllIsSplitJoin(s, pat, rep, i + |pat|);
      ExpandLiteral(rep, pat, s[..i], s[i + |pat|..]);
      assert ([s[k..i]] + rest)[1..] == rest;
  }

  /** A string without the pattern is left alone. */
  lemma ReplaceAllAbsent(s: string, pat: string, rep: string)
    requires |pat| > 0 && forall j: nat :: !OccursAt(s, pat, j)
    ensures ReplaceAll(s, pat, rep) == s
  {
    assert IndexFrom(s, pat, 0).None?;
  }

  // ---------------------------------------------------------------------
  // Messages

  /** The `$n` marker of the `n`-th substitution. */
  function Placeholder(n: nat): (p: string)
    ensures |p| >= 2 && p[0] == '$'
  {
    "$" + NatToString(n)
  }

  /** The substitutions from index `k` on, each replacing the first
      occurrence of its marker, in order. */
  function Substitute(message: string, subs: seq<string>, k: nat): string
    requires k <= |subs|
    decreases |subs| - k
  {
    if k == |subs| then message
    else Substitute(ReplaceFirst(message, Placeholder(k + 1), subs[k]), subs, k + 1)
  }

  /** The `message` property of a catalog entry; only objects have one. */
  function MessageText(entry: Value): Value {
    if entry.Obj? then Get(entry.fields, "message") else Undefined
  }

  /** `getMessage`: the key itself when the catalog has no truthy entry for
      it; otherwise the entry's message with the substitutions applied, which
      throws when there are substitutions but the message is not a string. */
  function GetMessage(messages: map<string, Value>, key: string, subs: seq<string>): (r: Completion<Value>)
    ensures !Truthy(Get(messages, key)) ==> r == Normal(Str(key))
    ensures key !in messages ==> r == Normal(Str(key))
    ensures Truthy(Get(messages, key)) && |subs| == 0 ==> r == Normal(MessageText(messages[key]))
    ensures r.Throw? <==> Truthy(Get(messages, key)) && |subs| > 0 && !MessageText(messages[key]).Str?
    ensures Truthy(Get(messages, key)) && |subs| > 0 && MessageText(messages[key]).Str? ==>
      r == Normal(Str(Substitute(MessageText(messages[key]).s, subs, 0)))
  {
    var entry := Get(messages, key);
    if !Truthy(entry) then Normal(Str(key))
    else
      var message := MessageText(entry);
      if |subs| == 0 then Normal(message)
      else if !message.Str? then Throw("TypeError: message.replace is not a function")
      else Normal(Str(Substitute(message.s, subs, 0)))
  }

  /** A message without a dollar sign is unchanged by any substitutions. */
  lemma {:induction false} SubstituteWithoutDollar(message: string, subs: seq<string>, k: nat)
    requires k <= |subs| && NoDollar(message)
    ensures Substitute(message, subs, k) == message
    decreases |subs| - k
  {
    if k < |subs| {
      var pat := Placeholder(k + 1);
      forall j: nat
        ensures !OccursAt(message, pat, j)
      {
        OccursAtFirstChar(message, pat, j);
      }
      assert ReplaceFirst(message, pat, subs[k]) == message;
      SubstituteWithoutDollar(message, subs, k + 1);
    }
  }

  /** A catalog entry as `messages.json` writes it. */
  function Entry(text: string): Value {
    Obj(map["message" := Str(text)])
  }

  /** Substitutions fill `$1` and then `$2`, each at its first occurrence. */
  lemma SubstitutionsFillInOrder(key: string, a: string, b: string, c: string, s1: string, s2: string)
    requires NoDollar(a) && NoDollar(b) && NoDollar(s1) && NoDollar(s2)
    ensures GetMessage(map[key := Entry(a + "$1" + b + "$2" + c)], key, [s1, s2]) ==
      Normal(Str(a + s1 + b + s2 + c))
  {
    var p1 := Placeholder(1);
    var p2 := Placeholder(2);
    assert p1 == "$1" && p2 == "$2";
    var m := a + "$1" + b + "$2" + c;
    assert m == a + p1 + (b + "$2" + c);
    ReplaceFirstAfterPlain(a, p1, b + "$2" + c, s1);
    var m1 := a + s1 + (b + "$2" + c);
    assert m1 == (a + s1 + b) + p2 + c;
    assert NoDollar(a + s1 + b);
    ReplaceFirstAfterPlain(a + s1 + b, p2, c, s2);
    var m2 := a + s1 + b + s2 + c;
    assert Substitute(m, [s1, s2], 0) == Substitute(m1, [s1, s2], 1);
    assert Substitute(m1, [s1, s2], 1) == Substitute(m2, [s1, s2], 2);
    MessageOfEntry(key, m, [s1, s2]);
  }

  /** A catalog entry's text goes through the substitutions. */
  lemma MessageOfEntry(key: string, text: string, subs: seq<string>)
    ensures GetMessage(map[key := Entry(text)], key, subs) ==
      Normal(Str(if |subs| == 0 then text else Substitute(text, subs, 0)))
  {
    var messages := map[key := Entry(text)];
    assert Get(messages, key) == Entry(text);
    assert MessageText(Entry(text)) == Str(text);
  }

  /** An entry whose text has no `$` reads the same whatever the
      substitutions. */
  lemma PlainMessageIgnoresSubstitutions(key: string, text: string, subs: seq<string>)
    requires NoDollar(text)
    ensures GetMessage(map[key := Entry(text)], key, subs) == Normal(Str(text))
  {
    MessageOfEntry(key, text, subs);
    if |subs| > 0 {
      SubstituteWithoutDollar(text, subs, 0);
    }
  }

  /** The braces marker `{name}` of a `formatMessage` parameter. */
  function Marker(name: string): (p: string)
    ensures |p| >= 2 && p[0] == '{'
  {
    "{" + name + "}"
  }

  /** The parameters from index `k` on, each replacing every occurrence of
      its marker, in key order. */
  function FormatAll(message: string, params: seq<(string, string)>, k: nat): string
    requires k <= |params|
    decreases |params| - k
  {
    if k == |params| then message
    else FormatAll(ReplaceAll(message, Marker(params[k].0), params[k].1), params, k + 1)
  }

  /** `formatMessage`: the message, then every `{name}` replaced by its
      parameter's value; throws when there are parameters and the message
      is not a string. */
  function FormatMessage(messages: map<string, Value>, key: string, params: seq<(string, string)>)
    : (r: Completion<Value>)
    ensures |params| == 0 ==> r == GetMessage(messages, key, [])
    ensures r.Normal? && |params| > 0 ==> r.value.Str?
    ensures r.Normal? && |params| > 0 ==>
      GetMessage(messages, key, []).value.Str? &&
      r.value == Str(FormatAll(GetMessage(messages, key, []).value.s, params, 0))
    ensures r.Throw? <==> |params| > 0 && !GetMessage(messages, key, []).value.Str?
  {
    var message := GetMessage(messages, key, []).value;
    if |params| == 0 then Normal(message)
    else if !message.Str? then Throw("TypeError: message.replace is not a function")
    else Normal(Str(FormatAll(message.s, params, 0)))
  }

  /** A message without braces is unchanged by any parameters. */
  lemma {:induction false} FormatWithoutMarkers(message: string, params: seq<(string, string)>, k: nat)
    requires k <= |params|
    requires forall i :: 0 <= i < |message| ==> message[i] != '{'
    ensures FormatAll(message, params, k) == message
    decreases |params| - k
  {
    if k < |params| {
      var pat := Marker(params[k].0);
      forall j: nat
        ensures !OccursAt(message, pat, j)
      {
        OccursAtFirstChar(message, pat, j);
      }
      ReplaceAllAbsent(message, pat, params[k].1);
      FormatWithoutMarkers(message, params, k + 1);
    }
  }

  /** With one parameter, the text between its markers is kept and every
      marker becomes the value. */
  lemma FormatOneParameter(key: string, text: string, name: string, value: string)
    requires NoDollar(value)
    ensures var pat := Marker(name);
      FormatMessage(map[key := Entry(text)], key, [(name, value)]) ==
      Normal(Str(Join(Split(text, pat), value))) &&
      Join(Split(text, pat), pat) == text &&
      forall p :: p in Split(text, pat) ==> !Contains(p, pat)
  {
    var pat := Marker(name);
    var ps := [(name, value)];
    MessageOfEntry(key, text, []);
    assert FormatAll(text, ps, 0) == FormatAll(ReplaceAll(text, pat, value), ps, 1);
    ReplaceAllIsSplitJoin(text, pat, value, 0);
    SplitJoinFrom(text, pat, 0);
    SplitPiecesAreFree(text, pat, 0);
    assert text[0..] == text;
  }
}

=== FILE: input_manager.dfy ===
/** The cross-platform input normaliser (`UnifiedInputManager`): it detects
    the platform and input kind once, picks an event profile, decides which
    native events start a gesture, extracts coordinates and builds the unified
    event handed to the gesture tracker. Browser globals (`navigator`,
    `window`) become an explicit `Environment`. */
module InputManager {
  import opened Common

  datatype Platform = Mac | Windows | Linux | Android | Ios | UnknownPlatform

  /** What the constructor reads from the browser. */
  datatype Environment = Environment(
    userAgent: string,
    platform: string,
    hasTouchStart: bool,    // 'ontouchstart' in window
    hasPointerDown: bool)   // 'onpointerdown' in window

  /** The button setting of a profile: one button, a list of buttons, or none. */
  datatype ButtonSpec = NoButton | OneButton(button: int) | AnyOf(buttons: seq<int>)

  datatype Profile = Profile(
    startEvents: seq<string>,
    moveEvents: seq<string>,
    endEvents: seq<string>,
    contextEvents: seq<string>,
    button: ButtonSpec,
    preventContext: bool,
    modifierKey: Option<string>,
    longPressDelay: Option<int>)

  /** The four named profiles of `_buildEventConfig`. */
  datatype EventConfig = EventConfig(windows: Profile, mac: Profile, mobile: Profile, pointer: Profile)

  datatype Manager = Manager(
    platform: Platform,
    inputType: InputKind,
    touchSupported: bool,
    pointerSupported: bool,
    config: EventConfig)

  /** A touch point of a touch event. */
  datatype TouchPoint = TouchPoint(pageX: int, pageY: int, clientX: int, clientY: int)

  /** The fields of a native mouse, pointer or touch event that the manager reads. */
  datatype NativeEvent = NativeEvent(
    button: int,
    ctrlKey: bool,
    touches: Option<seq<TouchPoint>>,
    changedTouches: Option<seq<TouchPoint>>,
    pageX: int, pageY: int,
    clientX: int, clientY: int)

  datatype Coords = Coords(x: int, y: int, clientX: int, clientY: int)

  datatype Phase = StartPhase | MovePhase | EndPhase

  /** The event object passed to the tracker. */
  datatype UnifiedEvent = UnifiedEvent(
    phase: Phase, x: int, y: int, clientX: int, clientY: int,
    platform: Platform, inputType: InputKind)

  predicate MacLike(ua: string, platform: string) {
    Contains(platform, "mac") || Contains(platform, "darwin") || Contains(ua, "mac os")
  }

  /** `_detectPlatform`: the tests run in the order mac, windows, linux,
      android, ios on the lower-cased strings; the first hit wins. */
  function DetectPlatform(userAgent: string, platform: string): (r: Platform)
    ensures var ua, p := Lower(userAgent), Lower(platform);
      (r == Mac <==> MacLike(ua, p)) &&
      (r == Windows <==> !MacLike(ua, p) && Contains(p, "win")) &&
      (r == Linux <==> !MacLike(ua, p) && !Contains(p, "win") && Contains(p, "linux")) &&
      (r == Android <==> !MacLike(ua, p) && !Contains(p, "win") && !Contains(p, "linux") &&
                         Contains(ua, "android")) &&
      (r == Ios <==> !MacLike(ua, p) && !Contains(p, "win") && !Contains(p, "linux") &&
                     !Contains(ua, "android") &&
                     (Contains(ua, "iphone") || Contains(ua, "ipad") || Contains(ua, "ipod")))
  {
    var ua := Lower(userAgent);
    var p := Lower(platform);
    if MacLike(ua, p) then Mac
    else if Contains(p, "win") then Windows
    else if Contains(p, "linux") then Linux
    else if Contains(ua, "android") then Android
    else if Contains(ua, "iphone") || Contains(ua, "ipad") || Contains(ua, "ipod") then Ios
    else UnknownPlatform
  }

  /** `_isMobileDevice`: a case-insensitive user-agent test, or a mobile platform. */
  predicate IsMobileDevice(userAgent: string, platform: Platform) {
    var ua := Lower(userAgent);
    Contains(ua, "android") || Contains(ua, "iphone") || Contains(ua, "ipad") ||
    Contains(ua, "ipod") || Contains(ua, "blackberry") || Contains(ua, "iemobile") ||
    Contains(ua, "opera mini") || platform == Android || platform == Ios
  }

  /** `_detectInputType` given the capability flags as they stand when it
      runs; `None` is a flag not yet assigned (`undefined`, falsy). */
  function DetectInputType(touchSupported: Option<bool>, pointerSupported: Option<bool>, mobile: bool): (r: InputKind)
    ensures r == Touch <==> touchSupported == Some(true) && mobile
    ensures r == Pointer <==> !(touchSupported == Some(true) && mobile) && pointerSupported == Some(true)
  {
    if touchSupported == Some(true) && mobile then Touch
    else if pointerSupported == Some(true) then Pointer
    else Mouse
  }

  /** `_buildEventConfig` */
  function DefaultEventConfig(): EventConfig {
    EventConfig(
      Profile(["mousedown"], ["mousemove"], ["mouseup"], ["contextmenu"], OneButton(2), true, None, None),
      Profile(["mousedown"], ["mousemove"], ["mouseup"], ["contextmenu"], AnyOf([0, 2]), true, Some("ctrlKey"), None),
      Profile(["touchstart"], ["touchmove"], ["touchend", "touchcancel"], [], NoButton, false, None, Some(500)),
      Profile(["pointerdown"], ["pointermove"], ["pointerup", "pointercancel"], ["contextmenu"], OneButton(2), true, None, None))
  }

  /** The constructor. The input type is detected BEFORE the capability
      flags are assigned, so it sees them as `undefined`. */
  function Construct(env: Environment): (m: Manager)
    ensures m.inputType == Mouse
    ensures m.platform == DetectPlatform(env.userAgent, env.platform)
    ensures m.touchSupported == env.hasTouchStart && m.pointerSupported == env.hasPointerDown
  {
    var platform := DetectPlatform(env.userAgent, env.platform);
    var inputType := DetectInputType(None, None, IsMobileDevice(env.userAgent, platform));
    Manager(platform, inputType, env.hasTouchStart, env.hasPointerDown, DefaultEventConfig())
  }

  /** Had the flags been assigned first, a touch-capable mobile browser would
      have been classified as touch; the constructor order makes it mouse. */
  lemma ConstructionOrderHidesTouch()
    ensures var env := Environment("Mozilla/5.0 (Linux; Android 14)", "Linux armv8l", true, true);
      DetectInputType(Some(env.hasTouchStart), Some(env.hasPointerDown),
                      IsMobileDevice(env.userAgent, DetectPlatform(env.userAgent, env.platform))) == Touch &&
      Construct(env).inputType == Mouse
  {
    var env := Environment("Mozilla/5.0 (Linux; Android 14)", "Linux armv8l", true, true);
    var ua := Lower(env.userAgent);
    assert OccursAt(ua, "android", 20);
  }

  /** `_getActiveConfig` */
  function ActiveProfile(m: Manager): (p: Profile)
    ensures m.inputType == Touch ==> p == m.config.mobile
    ensures m.inputType == Pointer ==> p == m.config.pointer
    ensures m.inputType == Mouse && m.platform == Mac ==> p == m.config.mac
    ensures m.inputType == Mouse && m.platform != Mac ==> p == m.config.windows
  {
    match m.inputType
    case Touch => m.config.mobile
    case Pointer => m.config.pointer
    case Mouse => if m.platform == Mac then m.config.mac else m.config.windows
  }

  /** `updateConfig`: replace some named profiles; the active profile is
      recomputed from the result. */
  function UpdateConfig(m: Manager, windows: Option<Profile>, mac: Option<Profile>,
                        mobile: Option<Profile>, pointer: Option<Profile>): (m': Manager)
    ensures m'.platform == m.platform && m'.inputType == m.inputType
    ensures m'.config.windows == (if windows.Some? then windows.value else m.config.windows)
    ensures m'.config.mac == (if mac.Some? then mac.value else m.config.mac)
    ensures m'.config.mobile == (if mobile.Some? then mobile.value else m.config.mobile)
    ensures m'.config.pointer == (if pointer.Some? then pointer.value else m.config.pointer)
  {
    var c := m.config;
    m.(config := EventConfig(
      if windows.Some? then windows.value else c.windows,
      if mac.Some? then mac.value else c.mac,
      if mobile.Some? then mobile.value else c.mobile,
      if pointer.Some? then pointer.value else c.pointer))
  }

  /** `event.button === config.button`: a list of buttons never equals a number. */
  predicate ButtonMatches(spec: ButtonSpec, button: int) {
    spec.OneButton? && spec.button == button
  }

  /** `_isValidStartEvent` */
  predicate IsValidStartEvent(m: Manager, e: NativeEvent) {
    match m.inputType
    case Touch => e.touches.Some? && |e.touches.value| == 1
    case Pointer => ButtonMatches(ActiveProfile(m).button, e.button)
    case Mouse =>
      if m.platform == Mac then e.button == 2 || (e.button == 0 && e.ctrlKey)
      else e.button == 2 || e.button == 1
  }

  /** Which starts the default profiles accept: on mac a right click or a
      ctrl-left click; elsewhere a right or a middle click (the middle button
      is accepted by the source as well). */
  lemma {:induction false} ValidStartForMouse(env: Environment, e: NativeEvent)
    ensures var m := Construct(env);
      IsValidStartEvent(m, e) <==>
        if m.platform == Mac then e.button == 2 || (e.button == 0 && e.ctrlKey)
        else e.button == 2 || e.button == 1
  {
  }

  /** With the default profiles, a pointer start is valid exactly for button 2
      and a touch start exactly for one touch. */
  lemma PointerAndTouchStarts(m: Manager, e: NativeEvent)
    requires m.config == DefaultEventConfig()
    ensures m.inputType == Pointer ==> (IsValidStartEvent(m, e) <==> e.button == 2)
    ensures m.inputType == Touch ==> (IsValidStartEvent(m, e) <==> e.touches.Some? && |e.touches.value| == 1)
  {
  }

  /** `_getEventCoordinates`: touch input reads the first current touch, then
      the first changed touch, and has no coordinates otherwise; other input
      always has coordinates, with the page position falling back to the
      client position when it is 0 (falsy). */
  function GetEventCoordinates(m: Manager, e: NativeEvent): (r: Option<Coords>)
    ensures m.inputType != Touch ==> r.Some?
    ensures m.inputType != Touch ==>
      r.value.clientX == e.clientX && r.value.clientY == e.clientY &&
      r.value.x == (if e.pageX != 0 then e.pageX else e.clientX) &&
      r.value.y == (if e.pageY != 0 then e.pageY else e.clientY)
    ensures m.inputType == Touch ==>
      (r.Some? <==> (e.touches.Some? && |e.touches.value| > 0) ||
                    (e.changedTouches.Some? && |e.changedTouches.value| > 0))
  {
    if m.inputType == Touch then
      if e.touches.Some? && |e.touches.value| > 0 then
        var t := e.touches.value[0];
        Some(Coords(t.pageX, t.pageY, t.clientX, t.clientY))
      else if e.changedTouches.Some? && |e.changedTouches.value| > 0 then
        var t := e.changedTouches.value[0];
        Some(Coords(t.pageX, t.pageY, t.clientX, t.clientY))
      else None
    else
      Some(Coords(if e.pageX != 0 then e.pageX else e.clientX,
                  if e.pageY != 0 then e.pageY else e.clientY,
                  e.clientX, e.clientY))
  }

  /** `_createUnifiedEvent`: missing coordinates become zeros. */
  function CreateUnifiedEvent(m: Manager, phase: Phase, coords: Option<Coords>): (u: UnifiedEvent)
    ensures u.phase == phase && u.platform == m.platform && u.inputType == m.inputType
    ensures coords.None? ==> u.x == 0 && u.y == 0 && u.clientX == 0 && u.clientY == 0
    ensures coords.Some? ==> u.x == coords.value.x && u.y == coords.value.y &&
                             u.clientX == coords.value.clientX && u.clientY == coords.value.clientY
  {
    match coords
    case None => UnifiedEvent(phase, 0, 0, 0, 0, m.platform, m.inputType)
    case Some(c) => UnifiedEvent(phase, c.x, c.y, c.clientX, c.clientY, m.platform, m.inputType)
  }

  /** `_shouldPreventDefault` */
  predicate ShouldPreventDefault(m: Manager, e: NativeEvent) {
    if m.inputType == Touch then true
    else if m.platform == Mac && e.ctrlKey then true
    else ActiveProfile(m).preventContext
  }

  /** With the default profiles the default action is always prevented:
      touch input prevents unconditionally, and every mouse or pointer
      profile has `preventContext` set. */
  lemma DefaultProfilesAlwaysPrevent(m: Manager, e: NativeEvent)
    requires m.config == DefaultEventConfig()
    ensures ShouldPreventDefault(m, e)
  {
  }

  /** What the manager does with one native event: the unified event it
      forwards to the tracker (if any) and whether it cancels the default. */
  datatype Dispatch = Dispatch(forwarded: Option<UnifiedEvent>, preventDefault: bool)

  /** `_handleStart`: invalid starts and starts without coordinates are dropped. */
  function HandleStart(m: Manager, e: NativeEvent): (d: Dispatch)
    ensures d.forwarded.Some? <==> IsValidStartEvent(m, e) && GetEventCoordinates(m, e).Some?
    ensures d.forwarded.None? ==> !d.preventDefault
    ensures d.forwarded.Some? ==>
      d.forwarded.value.phase == StartPhase && d.preventDefault == ShouldPreventDefault(m, e)
  {
    if !IsValidStartEvent(m, e) then Dispatch(None, false)
    else
      var coords := GetEventCoordinates(m, e);
      if coords.None? then Dispatch(None, false)
      else Dispatch(Some(CreateUnifiedEvent(m, StartPhase, coords)), ShouldPreventDefault(m, e))
  }

  /** `_handleMove`: moves without coordinates are dropped; the default is
      prevented only while the tracker (after handling the move) is recording. */
  function HandleMove(m: Manager, e: NativeEvent, recordingAfterMove: bool): (d: Dispatch)
    ensures d.forwarded.Some? <==> GetEventCoordinates(m, e).Some?
    ensures d.preventDefault <==> d.forwarded.Some? && recordingAfterMove && ShouldPreventDefault(m, e)
    ensures d.forwarded.Some? ==> d.forwarded.value.phase == MovePhase
  {
    var coords := GetEventCoordinates(m, e);
    if coords.None? then Dispatch(None, false)
    else Dispatch(Some(CreateUnifiedEvent(m, MovePhase, coords)), recordingAfterMove && ShouldPreventDefault(m, e))
  }

  /** `_handleEnd`: every end event is forwarded, with zero coordinates when
      none can be read. */
  function HandleEnd(m: Manager, e: NativeEvent): (d: Dispatch)
    ensures d.forwarded.Some? && d.forwarded.value.phase == EndPhase
    ensures GetEventCoordinates(m, e).None? ==>
      var u := d.forwarded.value; u.x == 0 && u.y == 0 && u.clientX == 0 && u.clientY == 0
    ensures d.preventDefault == ShouldPreventDefault(m, e)
  {
    Dispatch(Some(CreateUnifiedEvent(m, EndPhase, GetEventCoordinates(m, e))), ShouldPreventDefault(m, e))
  }

  /** A touch end whose touch lists are both empty is still forwarded, at the origin. */
  lemma TouchEndWithoutTouchesForwardedAtZero(m: Manager, e: NativeEvent)
    requires m.inputType == Touch && e.touches == Some([]) && e.changedTouches == Some([])
    ensures HandleEnd(m, e).forwarded == Some(UnifiedEvent(EndPhase, 0, 0, 0, 0, m.platform, Touch))
  {
  }

  /** `_handleContextMenu`: suppress the menu while recording or when the
      tracker's policy asks for it. */
  function HandleContextMenu(trackerRecording: bool, trackerWantsPrevention: bool): (prevent: bool)
    ensures prevent <==> trackerRecording || trackerWantsPrevention
  {
    trackerRecording || trackerWantsPrevention
  }

  /** `getDevicePixelRatio`: a missing (zero) ratio reads as 1. */
  function DevicePixelRatio(windowRatio: real): (r: real)
    ensures r != 0.0
    ensures windowRatio != 0.0 ==> r == windowRatio
  {
    if windowRatio != 0.0 then windowRatio else 1.0
  }

  /** `getViewportScale`: the viewport meta zoom (`metaZoom`, 1 without a
      meta tag) for touch input, 1 otherwise. */
  function ViewportScale(m: Manager, metaZoom: real): (r: real)
    ensures m.inputType != Touch ==> r == 1.0
    ensures m.inputType == Touch ==> r == metaZoom
  {
    if m.inputType == Touch then metaZoom else 1.0
  }

  /** Every constructed manager has viewport scale 1, whatever the page declares. */
  lemma ConstructedScaleIsOne(env: Environment, metaZoom: real)
    ensures ViewportScale(Construct(env), metaZoom) == 1.0
  {
  }
}

=== FILE: message_utils.dfy ===
/** `MessageUtils`: which tabs may receive messages, the counting of a
    settings broadcast, the filter of a message listener, the scroll command
    and the settings fallback. The browser's replies are parameters. */
module MessageUtils {
  import opened Common
  import opened Values
  import Sidepanel

  /** The message action names the utilities send. */
  const ReloadSettings: string := "reloadSettings"
  const ScrollToTop: string := "scrollTop"
  const ScrollToBottom: string := "scrollBottom"

  /** The URL prefixes of pages that cannot receive content messages. */
  const UnmessageablePrefixes: seq<string> :=
    ["chrome://", "chrome-extension://", "edge://", "about:", "moz-extension://", "file://"]

  /** A tab as far as the utilities look at it: its URL, if any. */
  datatype Tab = Tab(url: Option<string>)

  /** `isValidTabForMessage`: a tab with a non-empty URL outside the six
      refused protocols. */
  predicate IsValidTabForMessage(tab: Option<Tab>) {
    tab.Some? && tab.value.url.Some? && tab.value.url.value != "" &&
    forall i :: 0 <= i < |UnmessageablePrefixes| ==> !StartsWith(tab.value.url.value, UnmessageablePrefixes[i])
  }

  /** Web pages are valid targets; browser, extension and local pages are not. */
  lemma ValidTargets(host: string)
    ensures IsValidTabForMessage(Some(Tab(Some("https://" + host))))
    ensures IsValidTabForMessage(Some(Tab(Some("http://" + host))))
    ensures !IsValidTabForMessage(Some(Tab(Some("file://" + host))))
    ensures !IsValidTabForMessage(Some(Tab(Some("chrome://" + host))))
    ensures !IsValidTabForMessage(None) && !IsValidTabForMessage(Some(Tab(None)))
  {
    WebPageIsValid("https://" + host);
    WebPageIsValid("http://" + host);
    assert StartsWith("file://" + host, UnmessageablePrefixes[5]);
    assert StartsWith("chrome://" + host, UnmessageablePrefixes[0]);
  }

  lemma WebPageIsValid(u: string)
    requires |u| > 0 && u[0] == 'h'
    ensures IsValidTabForMessage(Some(Tab(Some(u))))
  {
    forall i | 0 <= i < |UnmessageablePrefixes|
      ensures !StartsWith(u, UnmessageablePrefixes[i])
    {
      FirstCharDiffers(u, UnmessageablePrefixes[i]);
    }
  }

  /** The message utilities and the side panel draw the line differently:
      a `chrome-search://` page may be messaged but the panel calls it
      unsupported, and a `file://` page the other way round. */
  lemma EligibilityDiffersFromPanelSupport(rest: string)
    ensures var u := "chrome-search://" + rest;
      IsValidTabForMessage(Some(Tab(Some(u)))) && !Sidepanel.IsSupportedUrl(Some(u))
    ensures var u := "file://" + rest;
      !IsValidTabForMessage(Some(Tab(Some(u)))) && Sidepanel.IsSupportedUrl(Some(u))
  {
    var u := "chrome-search://" + rest;
    forall i | 0 <= i < |UnmessageablePrefixes|
      ensures !StartsWith(u, UnmessageablePrefixes[i])
    {
      var p := UnmessageablePrefixes[i];
      if p[0] != 'c' {
        FirstCharDiffers(u, p);
      } else {
        PrefixesDiffer(u, p, "chrome-search://", if p == "chrome://" then 6 else 7);
        assert StartsWith(u, "chrome-search://");
      }
    }
    assert StartsWith(u, Sidepanel.UnsupportedProtocols[2]);
    var f := "file://" + rest;
    assert StartsWith(f, UnmessageablePrefixes[5]);
    forall i | 0 <= i < |Sidepanel.UnsupportedProtocols|
      ensures !StartsWith(f, Sidepanel.UnsupportedProtocols[i])
    {
      FirstCharDiffers(f, Sidepanel.UnsupportedProtocols[i]);
    }
  }

  // ---------------------------------------------------------------------
  // Broadcast

  /** What `sendToTab` gives back: a response (`Null` when the tab could
      not be reached), or a rejection (time-out or a throwing send). */
  datatype TabReply = Answer(response: Value) | Rejected

  datatype TabOutcome = Succeeded | Failed | Skipped

  /** How one tab of a broadcast is counted. An undefined response counts
      as a success: only `null` is compared against. */
  function OutcomeOf(tab: Option<Tab>, reply: TabReply): (o: TabOutcome)
    ensures !IsValidTabForMessage(tab) ==> o == Skipped
    ensures IsValidTabForMessage(tab) ==> (o == Failed <==> reply.Rejected?)
    ensures IsValidTabForMessage(tab) && reply == Answer(Null) ==> o == Skipped
  {
    if !IsValidTabForMessage(tab) then Skipped
    else if reply.Rejected? then Failed
    else if reply.response.Null? then Skipped
    else Succeeded
  }

  /** How many of the tabs have outcome `o`. */
  function CountOutcome(tabs: seq<Option<Tab>>, replies: seq<TabReply>, o: TabOutcome): nat
    requires |replies| == |tabs|
  {
    if |tabs| == 0 then 0
    else CountOutcome(tabs[..|tabs| - 1], replies[..|tabs| - 1], o) +
         (if OutcomeOf(tabs[|tabs| - 1], replies[|tabs| - 1]) == o then 1 else 0)
  }

  datatype BroadcastResults = BroadcastResults(total: nat, success: nat, failed: nat, skipped: nat)

  /** `broadcastSettingsUpdate` over the tab list, `replies[i]` being what
      tab `i` would answer. Every tab bumps exactly one counter, and only
      valid tabs are sent the reload message. */
  method BroadcastSettingsUpdate(tabs: seq<Option<Tab>>, replies: seq<TabReply>)
    returns (results: BroadcastResults, messaged: seq<nat>)
    requires |replies| == |tabs|
    ensures results.total == |tabs|
    ensures results.success + results.failed + results.skipped == results.total
    ensures results.success == CountOutcome(tabs, replies, Succeeded)
    ensures results.failed == CountOutcome(tabs, replies, Failed)
    ensures results.skipped == CountOutcome(tabs, replies, Skipped)
    ensures forall k :: 0 <= k < |messaged| ==> messaged[k] < |tabs| && IsValidTabForMessage(tabs[messaged[k]])
    ensures forall i :: 0 <= i < |tabs| && IsValidTabForMessage(tabs[i]) ==> i in messaged
  {
    results := BroadcastResults(|tabs|, 0, 0, 0);
    messaged := [];
    var i := 0;
    while i < |tabs|
      invariant 0 <= i <= |tabs|
      invariant results.total == |tabs|
      invariant results.success + results.failed + results.skipped == i
      invariant results.success == CountOutcome(tabs[..i], replies[..i], Succeeded)
      invariant results.failed == CountOutcome(tabs[..i], replies[..i], Failed)
      invariant results.skipped == CountOutcome(tabs[..i], replies[..i], Skipped)
      invariant forall k :: 0 <= k < |messaged| ==> messaged[k] < i && IsValidTabForMessage(tabs[messaged[k]])
      invariant forall j :: 0 <= j < i && IsValidTabForMessage(tabs[j]) ==> j in messaged
    {
      assert tabs[..i + 1][..i] == tabs[..i] && replies[..i + 1][..i] == replies[..i];
      if IsValidTabForMessage(tabs[i]) {
        messaged := messaged + [i];
        match replies[i]
        case Rejected =>
          results := results.(failed := results.failed + 1);
        case Answer(response) =>
          if response != Null {
            results := results.(success := results.success + 1);
          } else {
            results := results.(skipped := results.skipped + 1);
          }
      } else {
        results := results.(skipped := results.skipped + 1);
      }
      i := i + 1;
    }
    assert tabs[..i] == tabs && replies[..i] == replies;
  }

  /** A broadcast over tabs none of which may be messaged skips them all. */
  lemma {:induction false} AllIneligibleAreSkipped(tabs: seq<Option<Tab>>, replies: seq<TabReply>)
    requires |replies| == |tabs|
    requires forall i :: 0 <= i < |tabs| ==> !IsValidTabForMessage(tabs[i])
    ensures CountOutcome(tabs, replies, Skipped) == |tabs|
    ensures CountOutcome(tabs, replies, Succeeded) == 0
    decreases |tabs|
  {
    if |tabs| > 0 {
      AllIneligibleAreSkipped(tabs[..|tabs| - 1], replies[..|tabs| - 1]);
    }
  }

  // ---------------------------------------------------------------------
  // Listener filter, scrolling, settings

  /** The filter of `setMessageListener`: with a type list, a request is
      handled only when `request.action || request.type` is one of them. */
  predicate PassesFilter(messageTypes: Option<seq<string>>, request: map<string, Value>) {
    messageTypes.None? ||
    (var key := Or(Get(request, "action"), Get(request, "type"));
     key.Str? && key.s in messageTypes.value)
  }

  /** Without a filter everything passes; with one, a truthy `action` decides
      and `type` is only consulted when `action` is falsy. */
  lemma FilterChoosesActionFirst(types: seq<string>, request: map<string, Value>, a: string, t: string)
    ensures PassesFilter(None, request)
    ensures PassesFilter(Some(types), request["action" := Str(a)]["type" := Str(t)]) <==>
      if a != "" then a in types else t in types
    ensures PassesFilter(Some([]), request) == false
  {
  }

  /** `scrollPage`: the active-tab query may throw; an ineligible tab gets
      nothing; otherwise `'top'` sends `scrollTop` and anything else
      `scrollBottom`, and the answer is true unless sending is rejected. */
  function ScrollPage(direction: string, activeTab: Completion<Option<Tab>>, send: TabReply)
    : (result: (bool, Option<string>))
    ensures activeTab.Throw? || !IsValidTabForMessage(activeTab.value) ==> result == (false, None)
    ensures activeTab.Normal? && IsValidTabForMessage(activeTab.value) ==>
      result.1 == Some(if direction == "top" then ScrollToTop else ScrollToBottom) &&
      (result.0 <==> !send.Rejected?)
  {
    if activeTab.Throw? || !IsValidTabForMessage(activeTab.value) then (false, None)
    else
      var action := if direction == "top" then ScrollToTop else ScrollToBottom;
      (!send.Rejected?, Some(action))
  }

  /** `loadSettings`: the background's reply, or `{}` when it is falsy;
      errors are passed on. */
  function LoadSettings(reply: Completion<Value>): (r: Completion<Value>)
    ensures reply.Throw? ==> r == reply
    ensures reply.Normal? ==> r.Normal? && Truthy(r.value)
    ensures reply.Normal? && Truthy(reply.value) ==> r == reply
    ensures reply.Normal? && !Truthy(reply.value) ==> r == Normal(Obj(map[]))
  {
    match reply
    case Throw(m) => Throw(m)
    case Normal(v) => Normal(Or(v, Obj(map[])))
  }
}

=== FILE: motion_tracker.dfy ===
/** The gesture session of `MotionTracker`: a state record advanced by
    press, move, release, timer, visibility and settings events. Time is the
    `now` argument of every event (milliseconds), the viewport and the page
    capabilities are an explicit environment, and the timers the source
    schedules are queued in the state and fired by their own events. */
module MotionTracker {
  import opened Common
  import opened Directions
  import Coordinates
  import InputManager
  import PathRenderer
  import PatternAnalyzer

  /** `moveThreshold`: activation needs strictly more than 5 px (25 squared). */
  const MoveThresholdSquared: int := 25
  /** `trackingActivationDelay` */
  const ActivationDelay: int := 150
  /** `minDistance` (30 px) squared, and 1.5 times it (45 px) squared for touch. */
  const MinDistanceSquared: int := 900
  const TouchMinDistanceSquared: int := 2025
  /** Width of the cancel band along every viewport edge. */
  const CancelMargin: int := 25
  /** `disabledHintCooldown` */
  const DisabledHintCooldown: int := 5000
  /** How long after a prevention mark the context menu stays suppressed. */
  const PreventDuration: int := 500
  const TabSwitchPreventDuration: int := 2000

  /** The part of the settings object the tracker reads. */
  datatype Settings = Settings(enableExecution: bool, actionMappings: Option<map<string, string>>)

  /** The built-in settings `_loadSettings` falls back to. */
  const FallbackSettings: Settings := Settings(true, Some(map[
    "L" := "goBack", "R" := "goForward", "U" := "scrollToTop", "D" := "scrollToBottom",
    "UD" := "refreshTab", "DL" := "newTab", "DR" := "closeTab", "RL" := "reopenTab"]))

  datatype Point = Point(x: int, y: int)

  /** The visible viewport, and what `PathRenderer.create` finds on the page. */
  datatype Env = Env(viewportWidth: int, viewportHeight: int, hasBody: bool, contextAvailable: bool)

  /** The tracker's fields. `start` and `last` are the origin and the anchor
      of the current segment; `preventMark` is `contextMenuPreventTimer`;
      `activationTimers` holds the start points captured by the pending
      activation timers, oldest first, and `tabSwitchClears` counts the
      pending three-second timers that clear `tabSwitchDetected`. */
  datatype Tracker = Tracker(
    isRecording: bool,
    start: Point,
    last: Point,
    pattern: string,
    cancelled: bool,
    startTime: int,
    rightClickStartTime: int,
    hasMoved: bool,
    isRightClickOnly: bool,
    tabSwitchDetected: bool,
    preventMark: Option<int>,
    lastVisibilityHidden: bool,
    lastDisabledHintTime: int,
    settings: Option<Settings>,
    renderer: PathRenderer.Renderer,
    activationTimers: seq<Point>,
    tabSwitchClears: nat)

  /** The constructor; `hidden` is the page's visibility at that moment. */
  function Init(hidden: bool): (t: Tracker)
    ensures forall now :: Inv(t, now)
    ensures !t.isRecording && t.settings.None?
  {
    Tracker(false, Point(0, 0), Point(0, 0), "", false, 0, 0, false, false, false, None,
      hidden, 0, None, PathRenderer.Initial, [], 0)
  }

  /** What holds between events up to time `now`: the pattern is a gesture
      pattern, only a recording session has one, and only after movement;
      the anchor leaves the origin only after movement; a press that has not
      turned into a gesture is recording and unmoved, and one that turned
      into a gesture without movement (by the activation timer) is at least
      150 ms old; a cancelled session has stopped; and the trail renderer is
      consistent. */
  predicate Inv(t: Tracker, now: int) {
    IsGesturePattern(t.pattern) &&
    (!t.isRecording ==> t.pattern == "") &&
    (t.pattern != "" ==> t.hasMoved) &&
    (!t.hasMoved ==> t.last == t.start) &&
    (t.isRightClickOnly ==> t.isRecording && !t.hasMoved) &&
    (t.isRecording && !t.isRightClickOnly && !t.hasMoved ==> now - t.rightClickStartTime >= ActivationDelay) &&
    (t.cancelled ==> !t.isRecording) &&
    PathRenderer.Valid(t.renderer)
  }

  // ---------------------------------------------------------------------
  // Helpers of the handlers

  /** `_resetTrackingState`: the session fields are cleared, a timer to
      clear `tabSwitchDetected` is scheduled, and the trail is destroyed if
      it has a canvas. The prevention mark, the press time and the settings
      are kept. */
  function Reset(t: Tracker): (r: Tracker)
    ensures !r.isRecording && !r.cancelled && r.pattern == "" && !r.hasMoved && !r.isRightClickOnly
    ensures r.start == Point(0, 0) && r.last == Point(0, 0) && r.startTime == 0
    ensures r.tabSwitchClears == t.tabSwitchClears + 1
    ensures r.preventMark == t.preventMark && r.rightClickStartTime == t.rightClickStartTime
    ensures r.settings == t.settings && r.tabSwitchDetected == t.tabSwitchDetected
    ensures PathRenderer.Valid(t.renderer) ==> !r.renderer.isActive && PathRenderer.Valid(r.renderer)
  {
    t.(isRecording := false, cancelled := false, start := Point(0, 0), last := Point(0, 0),
       pattern := "", startTime := 0, hasMoved := false, isRightClickOnly := false,
       tabSwitchClears := t.tabSwitchClears + 1,
       renderer := if t.renderer.canvas.Some? then PathRenderer.Destroy(t.renderer) else t.renderer)
  }

  /** `_showDisabledHintWithCooldown`: the hint is shown, and its time
      recorded, only when more than 5 seconds have passed since the last one. */
  function ShowDisabledHint(t: Tracker, now: int): (result: (Tracker, bool))
    ensures result.1 <==> now - t.lastDisabledHintTime > DisabledHintCooldown
    ensures result.1 ==> result.0 == t.(lastDisabledHintTime := now)
    ensures !result.1 ==> result.0 == t
  {
    if now - t.lastDisabledHintTime > DisabledHintCooldown then (t.(lastDisabledHintTime := now), true)
    else (t, false)
  }

  /** `_loadSettings`: the background's answer, or the built-in settings
      when there is none. */
  function LoadSettings(response: Option<Settings>): (s: Settings)
    ensures response.Some? ==> s == response.value
    ensures response.None? ==> s.enableExecution && s.actionMappings.Some? && |s.actionMappings.value| == 8
    ensures response.None? ==>
      var m := s.actionMappings.value;
      m.Keys == {"L", "R", "U", "D", "UD", "DL", "DR", "RL"} &&
      m["L"] == "goBack" && m["R"] == "goForward" && m["U"] == "scrollToTop" &&
      m["D"] == "scrollToBottom" && m["UD"] == "refreshTab" && m["DL"] == "newTab" &&
      m["DR"] == "closeTab" && m["RL"] == "reopenTab"
  {
    if response.Some? then response.value else FallbackSettings
  }

  /** `_isInCancelZone`: strictly within 25 px of an edge of the viewport. */
  predicate InCancelZone(x: int, y: int, env: Env) {
    x < CancelMargin || x > env.viewportWidth - CancelMargin ||
    y < CancelMargin || y > env.viewportHeight - CancelMargin
  }

  /** The commit threshold, squared: 30 px, or 45 px for touch input. */
  function ThresholdSquared(kind: InputKind): int {
    if kind == Touch then TouchMinDistanceSquared else MinDistanceSquared
  }

  /** The symbol of a segment: horizontal iff `|dx| > |dy|`, ties vertical. */
  function TrackerDirection(dx: int, dy: int): (c: char)
    ensures IsDirection(c)
    ensures c == 'R' <==> dx > dy && dx > -dy
    ensures c == 'L' <==> dx < dy && dx < -dy
    ensures c == 'D' <==> dy > 0 && -dy <= dx <= dy
    ensures c == 'U' <==> dy <= 0 && dy <= dx <= -dy
  {
    var ax := if dx < 0 then -dx else dx;
    var ay := if dy < 0 then -dy else dy;
    if ax > ay then (if dx > 0 then 'R' else 'L')
    else (if dy > 0 then 'D' else 'U')
  }

  /** Adding a symbol unless it repeats the last one. */
  function AppendDirection(pattern: string, dir: char): (p: string)
    ensures |pattern| > 0 && pattern[|pattern| - 1] == dir ==> p == pattern
    ensures |pattern| == 0 || pattern[|pattern| - 1] != dir ==> p == pattern + [dir]
  {
    if |pattern| > 0 && pattern[|pattern| - 1] == dir then pattern else pattern + [dir]
  }

  /** Appending is the run-length collapse of the extended stroke list, so
      the tracker's pattern is always the collapse of the symbols it saw. */
  lemma {:induction false} AppendIsCollapse(pattern: string, dir: char)
    requires NoAdjacentDuplicates(pattern)
    ensures AppendDirection(pattern, dir) == Collapse(pattern + [dir])
    decreases |pattern|
  {
    CollapseOfDuplicateFree(pattern);
    if |pattern| == 0 {
    } else if |pattern| == 1 {
      assert pattern + [dir] == [pattern[0], dir];
    } else {
      var rest := pattern[1..];
      AppendIsCollapse(rest, dir);
      assert (pattern + [dir])[1..] == rest + [dir];
      assert pattern[0] != pattern[1];
      assert Collapse(pattern + [dir]) == [pattern[0]] + Collapse(rest + [dir]);
      if pattern[|pattern| - 1] == dir {
        assert rest[|rest| - 1] == dir;
        assert [pattern[0]] + rest == pattern;
      } else {
        assert rest[|rest| - 1] != dir;
        assert [pattern[0]] + (rest + [dir]) == pattern + [dir];
      }
    }
  }

  lemma AppendKeepsGesturePattern(pattern: string, dir: char)
    requires IsGesturePattern(pattern) && IsDirection(dir)
    ensures IsGesturePattern(AppendDirection(pattern, dir))
  {
  }

  // ---------------------------------------------------------------------
  // Press

  /** `handleTrackingStart` for the event's client point at time `now`.
      `loaded` is what loading the settings yields when none are held yet.
      With execution disabled only the cooldown hint may change the state;
      otherwise the session is reset and started at the point. The boolean
      says whether the disabled hint was shown. */
  function Start(t: Tracker, e: InputManager.UnifiedEvent, now: int, loaded: Option<Settings>): (result: (Tracker, bool))
    ensures var s := if t.settings.Some? then t.settings.value else LoadSettings(loaded);
      result.0.settings == Some(s) &&
      (!s.enableExecution ==>
        result.0 == ShowDisabledHint(t.(settings := Some(s)), now).0 &&
        result.0.isRecording == t.isRecording && result.0.pattern == t.pattern)
    ensures result.1 ==> result.0 == t.(settings := result.0.settings, lastDisabledHintTime := now)
    ensures result.0.settings.value.enableExecution ==>
      !result.1 &&
      result.0.isRecording && result.0.isRightClickOnly && !result.0.hasMoved && !result.0.cancelled &&
      result.0.pattern == "" &&
      result.0.start == Point(e.clientX, e.clientY) && result.0.last == result.0.start &&
      result.0.rightClickStartTime == now && !result.0.tabSwitchDetected &&
      result.0.activationTimers == t.activationTimers + [result.0.start]
  {
    var s := if t.settings.Some? then t.settings.value else LoadSettings(loaded);
    var t1 := t.(settings := Some(s));
    if !s.enableExecution then ShowDisabledHint(t1, now)
    else
      var p := Point(e.clientX, e.clientY);
      var r := Reset(t1);
      (r.(isRecording := true, cancelled := false, startTime := now, rightClickStartTime := now,
          tabSwitchDetected := false, hasMoved := false, isRightClickOnly := true,
          start := p, last := p, pattern := "",
          activationTimers := t.activationTimers + [p]), false)
  }

  // ---------------------------------------------------------------------
  // Move

  /** The activation test: more than 5 px from the origin, or 150 ms since the press. */
  predicate Activates(t: Tracker, p: Point, now: int) {
    Coordinates.DistanceSquared(p.x, p.y, t.start.x, t.start.y) > MoveThresholdSquared ||
    now - t.rightClickStartTime >= ActivationDelay
  }

  /** Creating the trail and seeding it with the origin, as the activation
      code and the activation timer do. */
  function StartTrail(r: PathRenderer.Renderer, env: Env, origin: Point, now: int): PathRenderer.Renderer {
    var created := PathRenderer.Create(r, env.hasBody, env.contextAvailable,
      PathRenderer.Size(env.viewportWidth as real, env.viewportHeight as real)).0;
    PathRenderer.AddPoint(created, origin.x as real, origin.y as real, now)
  }

  /** The activation step of a move: the first move past the threshold or
      the delay turns the press into a gesture, starts the trail if there is
      none, and marks the context menu for prevention. */
  function Activate(t: Tracker, env: Env, p: Point, now: int): (a: Tracker)
    ensures !t.hasMoved && Activates(t, p, now) ==>
      a.hasMoved && !a.isRightClickOnly && a.preventMark == Some(now) &&
      a.(hasMoved := t.hasMoved, isRightClickOnly := t.isRightClickOnly, preventMark := t.preventMark,
         renderer := t.renderer) == t
    ensures t.hasMoved || !Activates(t, p, now) ==> a == t
    ensures PathRenderer.Valid(t.renderer) ==> PathRenderer.Valid(a.renderer)
  {
    if !t.hasMoved && Activates(t, p, now) then
      var r := if t.renderer.canvas.None? then StartTrail(t.renderer, env, t.start, now) else t.renderer;
      assert PathRenderer.Valid(t.renderer) ==> PathRenderer.Valid(r) by {
        if PathRenderer.Valid(t.renderer) && t.renderer.canvas.None? {
          var created := PathRenderer.Create(t.renderer, env.hasBody, env.contextAvailable,
            PathRenderer.Size(env.viewportWidth as real, env.viewportHeight as real)).0;
          PathRenderer.OperationsKeepValid(created, t.start.x as real, t.start.y as real, now);
        }
      }
      t.(hasMoved := true, isRightClickOnly := false, preventMark := Some(now), renderer := r)
    else t
  }

  /** The segment rule: a segment longer than the threshold moves the anchor
      and offers its symbol, which is kept unless it repeats the last one. */
  function Commit(t: Tracker, p: Point, kind: InputKind): (c: Tracker)
    ensures Coordinates.DistanceSquared(p.x, p.y, t.last.x, t.last.y) > ThresholdSquared(kind) ==>
      c == t.(pattern := AppendDirection(t.pattern, TrackerDirection(p.x - t.last.x, p.y - t.last.y)), last := p)
    ensures Coordinates.DistanceSquared(p.x, p.y, t.last.x, t.last.y) <= ThresholdSquared(kind) ==> c == t
  {
    if Coordinates.DistanceSquared(p.x, p.y, t.last.x, t.last.y) > ThresholdSquared(kind) then
      t.(pattern := AppendDirection(t.pattern, TrackerDirection(p.x - t.last.x, p.y - t.last.y)), last := p)
    else t
  }

  /** Whether a move reaches the tracking part of the handler: the press has
      turned into a gesture before or by this move. */
  predicate Tracking(t: Tracker, p: Point, now: int) {
    t.isRecording && (!t.isRightClickOnly || (!t.hasMoved && Activates(t, p, now)))
  }

  /** `handleTrackingMove`. The coordinate correction is the identity for the
      mouse input the manager always reports, so the client point is used. */
  function Move(t: Tracker, env: Env, e: InputManager.UnifiedEvent, now: int): (m: Tracker)
    // nothing happens outside a session
    ensures !t.isRecording ==> m == t
    // activation
    ensures t.isRecording && !t.hasMoved ==>
      (m.hasMoved <==> Activates(t, Point(e.clientX, e.clientY), now))
    ensures t.hasMoved ==> m.hasMoved
    ensures t.isRecording && !Tracking(t, Point(e.clientX, e.clientY), now) ==> m == t
    // the cancel band
    ensures Tracking(t, Point(e.clientX, e.clientY), now) && InCancelZone(e.clientX, e.clientY, env) ==>
      !m.isRecording && m.cancelled && m.pattern == ""
    // the segment rule
    ensures Tracking(t, Point(e.clientX, e.clientY), now) && !InCancelZone(e.clientX, e.clientY, env) ==>
      var p := Point(e.clientX, e.clientY);
      var long := Coordinates.DistanceSquared(p.x, p.y, t.last.x, t.last.y) > ThresholdSquared(e.inputType);
      m.isRecording && m.cancelled == t.cancelled &&
      (long ==> m.last == p && m.pattern == AppendDirection(t.pattern, TrackerDirection(p.x - t.last.x, p.y - t.last.y))) &&
      (!long ==> m.last == t.last && m.pattern == t.pattern)
  {
    if !t.isRecording then t
    else
      var p := Point(e.clientX, e.clientY);
      var a := Activate(t, env, p, now);
      if a.isRightClickOnly then a
      else if InCancelZone(e.clientX, e.clientY, env) then
        a.(isRecording := false, cancelled := true, pattern := "",
           renderer := PathRenderer.StartFadeOut(a.renderer))
      else
        Commit(a.(renderer := PathRenderer.AddPoint(a.renderer, p.x as real, p.y as real, now)), p, e.inputType)
  }

  // ---------------------------------------------------------------------
  // Release

  /** The gate of `_executeMotion`: settings present, execution enabled and
      a non-empty action mapped to the pattern. */
  predicate HasMapping(settings: Option<Settings>, pattern: string) {
    settings.Some? && settings.value.enableExecution &&
    settings.value.actionMappings.Some? &&
    pattern in settings.value.actionMappings.value &&
    settings.value.actionMappings.value[pattern] != ""
  }

  /** `handleTrackingEnd` at time `now`: the pattern sent for execution, if
      any, and the tracker, which is always reset. */
  function End(t: Tracker, now: int): (result: (Tracker, Option<string>))
    ensures var r := result.0;
      !r.isRecording && r.pattern == "" && !r.cancelled && !r.hasMoved && !r.isRightClickOnly
    ensures PathRenderer.Valid(t.renderer) ==> !result.0.renderer.isActive
    ensures result.1.Some? <==>
      t.isRecording && t.pattern != "" && t.hasMoved && !t.cancelled && !t.isRightClickOnly &&
      HasMapping(t.settings, t.pattern)
    ensures result.1.Some? ==> result.1.value == t.pattern
    ensures t.tabSwitchDetected ==> result.0.preventMark == Some(now)
    ensures !t.cancelled && !t.isRightClickOnly && t.hasMoved ==> result.0.preventMark == Some(now)
    ensures !t.tabSwitchDetected && (t.cancelled || t.isRightClickOnly || !t.hasMoved) ==>
      result.0.preventMark == t.preventMark
  {
    var t1 := if t.tabSwitchDetected then t.(preventMark := Some(now)) else t;
    if t1.cancelled || t1.isRightClickOnly then (Reset(t1), None)
    else if t1.isRecording && |t1.pattern| > 0 && t1.hasMoved then
      var t2 := t1.(preventMark := Some(now));
      (Reset(t2), if HasMapping(t2.settings, t2.pattern) then Some(t2.pattern) else None)
    else
      var t2 := if t1.hasMoved then t1.(preventMark := Some(now)) else t1;
      (Reset(t2), None)
  }

  // ---------------------------------------------------------------------
  // Timers

  /** The oldest pending activation timer fires: if a session is recording
      and 150 ms have passed since its press, the press becomes a gesture and
      the trail starts at the point the timer captured. `hasMoved` is left
      alone. */
  function FireActivationTimer(t: Tracker, env: Env, now: int): (f: Tracker)
    ensures |t.activationTimers| == 0 ==> f == t
    ensures |t.activationTimers| > 0 ==> f.activationTimers == t.activationTimers[1..]
    ensures |t.activationTimers| > 0 && t.isRecording && now - t.rightClickStartTime >= ActivationDelay ==>
      !f.isRightClickOnly && f.hasMoved == t.hasMoved && f.pattern == t.pattern
    ensures !t.isRecording || now - t.rightClickStartTime < ActivationDelay ==>
      f == t.(activationTimers := f.activationTimers)
  {
    if |t.activationTimers| == 0 then t
    else
      var origin := t.activationTimers[0];
      var t1 := t.(activationTimers := t.activationTimers[1..]);
      if t1.isRecording && now - t1.rightClickStartTime >= ActivationDelay then
        t1.(isRightClickOnly := false, renderer := StartTrail(t1.renderer, env, origin, now))
      else t1
  }

  /** A pending three-second timer clears the tab-switch flag. */
  function FireTabSwitchTimer(t: Tracker): (f: Tracker)
    ensures t.tabSwitchClears > 0 ==>
      f == t.(tabSwitchDetected := false, tabSwitchClears := t.tabSwitchClears - 1)
    ensures t.tabSwitchClears == 0 ==> f == t
  {
    if t.tabSwitchClears == 0 then t
    else t.(tabSwitchDetected := false, tabSwitchClears := t.tabSwitchClears - 1)
  }

  // ---------------------------------------------------------------------
  // Page visibility, focus and settings

  /** `_handleVisibilityChange` when the page is hidden: a recording session
      is cancelled and reset (the reset clears the cancelled flag again). */
  function BecomeHidden(t: Tracker): (h: Tracker)
    ensures h.lastVisibilityHidden
    ensures t.isRecording ==> !h.isRecording && h.pattern == "" && !h.cancelled
    ensures !t.isRecording ==> h == t.(lastVisibilityHidden := true)
  {
    if t.isRecording then Reset(t.(cancelled := true)).(lastVisibilityHidden := true)
    else t.(lastVisibilityHidden := true)
  }

  /** `_handleVisibilityChange` when the page is shown again: a session
      still recording after a hidden phase marks a tab switch. The settings
      refresh it starts arrives as its own event. */
  function BecomeVisible(t: Tracker): (v: Tracker)
    ensures !v.lastVisibilityHidden
    ensures v.tabSwitchDetected <==> t.tabSwitchDetected || (t.lastVisibilityHidden && t.isRecording)
    ensures v.(lastVisibilityHidden := t.lastVisibilityHidden, tabSwitchDetected := t.tabSwitchDetected) == t
  {
    var t1 := if t.lastVisibilityHidden && t.isRecording then t.(tabSwitchDetected := true) else t;
    t1.(lastVisibilityHidden := false)
  }

  /** `_handleWindowFocus`: after a tab switch the prevention window restarts. */
  function Focus(t: Tracker, now: int): (f: Tracker)
    ensures t.tabSwitchDetected ==> f == t.(preventMark := Some(now))
    ensures !t.tabSwitchDetected ==> f == t
  {
    if t.tabSwitchDetected then t.(preventMark := Some(now)) else t
  }

  /** `_handleWindowBlur`: losing focus while recording marks a tab switch. */
  function Blur(t: Tracker): (b: Tracker)
    ensures b.tabSwitchDetected <==> t.tabSwitchDetected || t.isRecording
    ensures b.(tabSwitchDetected := t.tabSwitchDetected) == t
  {
    if t.isRecording then t.(tabSwitchDetected := true) else t
  }

  /** New settings arrive (`reloadSettings` message, or a refresh that found
      a change): a recording session is dropped when execution is now
      disabled. The boolean says whether the disabled hint was shown. */
  function ApplySettings(t: Tracker, s: Settings, now: int): (result: (Tracker, bool))
    ensures result.0.settings == Some(s)
    ensures !s.enableExecution && t.isRecording ==> !result.0.isRecording && result.0.pattern == ""
    ensures s.enableExecution || !t.isRecording ==> result.0 == t.(settings := Some(s)) && !result.1
  {
    var t1 := t.(settings := Some(s));
    if !s.enableExecution && t1.isRecording then ShowDisabledHint(Reset(t1), now)
    else (t1, false)
  }

  /** `_refreshSettingsIfNeeded` once the background answered: nothing
      without an answer or when the answer equals the held settings. */
  function SettingsRefreshed(t: Tracker, latest: Option<Settings>, now: int): (result: (Tracker, bool))
    ensures latest.None? || t.settings == latest ==> result == (t, false)
    ensures latest.Some? && t.settings != latest ==> result == ApplySettings(t, latest.value, now)
  {
    if latest.None? || t.settings == latest then (t, false)
    else ApplySettings(t, latest.value, now)
  }

  // ---------------------------------------------------------------------
  // Context menu

  /** `shouldPreventContextMenu` at time `now`. */
  function ShouldPreventContextMenu(t: Tracker, now: int): (prevent: bool)
    ensures t.isRightClickOnly && now - t.rightClickStartTime < ActivationDelay ==> !prevent
    ensures !(t.isRightClickOnly && now - t.rightClickStartTime < ActivationDelay) ==>
      (prevent <==>
        (t.preventMark.Some? &&
         now - t.preventMark.value < (if t.tabSwitchDetected then TabSwitchPreventDuration else PreventDuration)) ||
        (t.isRecording && t.hasMoved))
  {
    var duration := if t.tabSwitchDetected then TabSwitchPreventDuration else PreventDuration;
    var recent := t.preventMark.Some? && now - t.preventMark.value < duration;
    if t.isRightClickOnly && now - t.rightClickStartTime < ActivationDelay then false
    else recent || (t.isRecording && t.hasMoved)
  }

  // ---------------------------------------------------------------------
  // Messages of the content script

  /** `_t`: the content script's own message table first, then the browser's
      message, then the fallback, then the key itself. `messages` maps keys to
      their `message` text; `browserMessage` is what `chrome.i18n.getMessage`
      returns ("" when it has none). */
  function Translate(messages: Option<map<string, string>>, browserMessage: string, key: string, fallback: string): (r: string)
    ensures messages.Some? && key in messages.value && messages.value[key] != "" ==> r == messages.value[key]
    ensures !(messages.Some? && key in messages.value && messages.value[key] != "") ==>
      r == (if browserMessage != "" then browserMessage else if fallback != "" then fallback else key)
    ensures r == "" ==> key == ""
  {
    if messages.Some? && key in messages.value && messages.value[key] != "" then messages.value[key]
    else if browserMessage != "" then browserMessage
    else if fallback != "" then fallback
    else key
  }

  /** The locales the content script ships. */
  const ContentLocales: set<string> := {"en", "zh_CN", "de", "ja"}

  /** A stored choice `_initI18n` honours: one of the shipped locales. */
  predicate IsSupportedSaved(saved: Option<string>) {
    saved.Some? && saved.value in ContentLocales
  }

  /** `_initI18n`'s choice: a saved supported locale, else the browser UI
      language mapped by prefix, else English. */
  function SelectContentLocale(saved: Option<string>, uiLanguage: string): (locale: string)
    ensures locale in ContentLocales
    ensures IsSupportedSaved(saved) ==> locale == saved.value
    ensures !IsSupportedSaved(saved) && StartsWith(uiLanguage, "zh") ==> locale == "zh_CN"
    ensures !IsSupportedSaved(saved) && !StartsWith(uiLanguage, "zh") && StartsWith(uiLanguage, "de") ==>
      locale == "de"
    ensures (!IsSupportedSaved(saved) && !StartsWith(uiLanguage, "zh") && !StartsWith(uiLanguage, "de") &&
             StartsWith(uiLanguage, "ja")) ==> locale == "ja"
    ensures (!IsSupportedSaved(saved) && !StartsWith(uiLanguage, "zh") && !StartsWith(uiLanguage, "de") &&
             !StartsWith(uiLanguage, "ja")) ==> locale == "en"
  {
    if saved.Some? && saved.value in ContentLocales then saved.value
    else if StartsWith(uiLanguage, "zh") then "zh_CN"
    else if StartsWith(uiLanguage, "de") then "de"
    else if StartsWith(uiLanguage, "ja") then "ja"
    else "en"
  }

  // ---------------------------------------------------------------------
  // Events

  datatype Event =
    | Press(e: InputManager.UnifiedEvent, loaded: Option<Settings>)
    | Drag(e: InputManager.UnifiedEvent)
    | Release
    | ActivationTimer
    | TabSwitchTimer
    | Hidden
    | Visible
    | WindowFocus
    | WindowBlur
    | Refreshed(latest: Option<Settings>)
    | Reloaded(settings: Settings)

  /** The observable effect of an event: the pattern sent to the background
      for execution, and whether the disabled hint was shown. */
  datatype Effect = Effect(dispatched: Option<string>, disabledHint: bool)

  function Step(t: Tracker, env: Env, now: int, ev: Event): (Tracker, Effect) {
    match ev
    case Press(e, loaded) => var (s, hint) := Start(t, e, now, loaded); (s, Effect(None, hint))
    case Drag(e) => (Move(t, env, e, now), Effect(None, false))
    case Release => var (s, d) := End(t, now); (s, Effect(d, false))
    case ActivationTimer => (FireActivationTimer(t, env, now), Effect(None, false))
    case TabSwitchTimer => (FireTabSwitchTimer(t), Effect(None, false))
    case Hidden => (BecomeHidden(t), Effect(None, false))
    case Visible => (BecomeVisible(t), Effect(None, false))
    case WindowFocus => (Focus(t, now), Effect(None, false))
    case WindowBlur => (Blur(t), Effect(None, false))
    case Refreshed(latest) => var (s, hint) := SettingsRefreshed(t, latest, now); (s, Effect(None, hint))
    case Reloaded(settings) => var (s, hint) := ApplySettings(t, settings, now); (s, Effect(None, hint))
  }

  lemma ResetKeepsInv(t: Tracker, now: int)
    requires PathRenderer.Valid(t.renderer)
    ensures Inv(Reset(t), now)
  {
  }

  lemma MoveKeepsInv(t: Tracker, env: Env, e: InputManager.UnifiedEvent, now: int)
    requires Inv(t, now)
    ensures Inv(Move(t, env, e, now), now)
  {
    if t.isRecording {
      var p := Point(e.clientX, e.clientY);
      var a := Activate(t, env, p, now);
      if !a.isRightClickOnly {
        assert a.hasMoved;
        if InCancelZone(e.clientX, e.clientY, env) {
          PathRenderer.OperationsKeepValid(a.renderer, 0.0, 0.0, now);
        } else {
          var b := a.(renderer := PathRenderer.AddPoint(a.renderer, p.x as real, p.y as real, now));
          PathRenderer.OperationsKeepValid(a.renderer, p.x as real, p.y as real, now);
          AppendKeepsGesturePattern(b.pattern, TrackerDirection(p.x - b.last.x, p.y - b.last.y));
        }
      }
    }
  }

  lemma TimerKeepsInv(t: Tracker, env: Env, now: int)
    requires Inv(t, now)
    ensures Inv(FireActivationTimer(t, env, now), now)
  {
    if |t.activationTimers| > 0 && t.isRecording && now - t.rightClickStartTime >= ActivationDelay {
      var origin := t.activationTimers[0];
      var created := PathRenderer.Create(t.renderer, env.hasBody, env.contextAvailable,
        PathRenderer.Size(env.viewportWidth as real, env.viewportHeight as real)).0;
      assert PathRenderer.Valid(created);
      PathRenderer.OperationsKeepValid(created, origin.x as real, origin.y as real, now);
      var trail := StartTrail(t.renderer, env, origin, now);
      assert PathRenderer.Valid(trail);
      var f := t.(activationTimers := t.activationTimers[1..], isRightClickOnly := false, renderer := trail);
      assert FireActivationTimer(t, env, now) == f;
      assert Inv(f, now);
    }
  }

  lemma PressKeepsInv(t: Tracker, e: InputManager.UnifiedEvent, now: int, loaded: Option<Settings>)
    requires Inv(t, now)
    ensures Inv(Start(t, e, now, loaded).0, now)
  {
    var s := if t.settings.Some? then t.settings.value else LoadSettings(loaded);
    ResetKeepsInv(t.(settings := Some(s)), now);
  }

  lemma SettingsKeepInv(t: Tracker, s: Settings, now: int)
    requires Inv(t, now)
    ensures Inv(ApplySettings(t, s, now).0, now)
  {
  }

  /** The invariant only weakens its time condition as time passes. */
  lemma InvLater(t: Tracker, now: int, later: int)
    requires Inv(t, now) && now <= later
    ensures Inv(t, later)
  {
  }

  /** Every event, arriving no earlier than the previous one, keeps the
      tracker's invariant; in particular the pattern never holds anything
      but U/D/L/R and never two equal neighbours. */
  lemma StepKeepsInv(t: Tracker, env: Env, previous: int, now: int, ev: Event)
    requires Inv(t, previous) && previous <= now
    ensures Inv(Step(t, env, now, ev).0, now)
    ensures IsGesturePattern(Step(t, env, now, ev).0.pattern)
  {
    InvLater(t, previous, now);
    match ev
    case Press(e, loaded) => PressKeepsInv(t, e, now, loaded);
    case Drag(e) => MoveKeepsInv(t, env, e, now);
    case Release =>
    case ActivationTimer => TimerKeepsInv(t, env, now);
    case TabSwitchTimer =>
    case Hidden =>
    case Visible =>
    case WindowFocus =>
    case WindowBlur =>
    case Refreshed(latest) =>
      if latest.Some? && t.settings != latest {
        SettingsKeepInv(t, latest.value, now);
      }
    case Reloaded(settings) => SettingsKeepInv(t, settings, now);
  }

  /** Whatever happened before, a release leaves the tracker idle, and what
      it sends for execution is a non-empty, mapped gesture pattern. */
  lemma ReleaseDispatchesGesture(t: Tracker, now: int)
    requires Inv(t, now)
    ensures !End(t, now).0.isRecording && End(t, now).0.pattern == ""
    ensures End(t, now).1.Some? ==>
      IsGesturePattern(End(t, now).1.value) && End(t, now).1.value != "" &&
      HasMapping(t.settings, End(t, now).1.value)
  {
  }

  // ---------------------------------------------------------------------
  // Scenarios and comparisons

  /** A move of exactly 5 px before the activation delay does not activate. */
  lemma FivePixelsDoNotActivate(t: Tracker, env: Env, e: InputManager.UnifiedEvent, now: int)
    requires Inv(t, now) && t.isRecording && t.isRightClickOnly
    requires e.clientX == t.start.x + 3 && e.clientY == t.start.y + 4
    requires now - t.rightClickStartTime < ActivationDelay
    ensures Move(t, env, e, now) == t
  {
  }

  /** Once the cancel band is entered, every later move is ignored. */
  lemma CancelledSessionIgnoresMoves(t: Tracker, env: Env, e: InputManager.UnifiedEvent, now: int,
                                     e2: InputManager.UnifiedEvent, later: int)
    requires Tracking(t, Point(e.clientX, e.clientY), now) && InCancelZone(e.clientX, e.clientY, env)
    ensures var m := Move(t, env, e, now);
      Move(m, env, e2, later) == m && End(m, later).1.None?
  {
  }

  /** A press released before it became a gesture sends nothing. */
  lemma QuickReleaseSendsNothing(t: Tracker, now: int)
    requires t.isRightClickOnly
    ensures End(t, now).1.None?
  {
  }

  /** A concrete session: press at (200, 200), drag 40 px down, then 40 px
      right, release; with "DR" mapped the tracker sends "DR". */
  lemma DownRightGesture(t: Tracker, env: Env, m: InputManager.Manager)
    requires Inv(t, 0) && t.settings == Some(FallbackSettings)
    requires env.viewportWidth == 1000 && env.viewportHeight == 800
    ensures
      var press := InputManager.UnifiedEvent(InputManager.StartPhase, 200, 200, 200, 200, m.platform, Mouse);
      var down := InputManager.UnifiedEvent(InputManager.MovePhase, 200, 240, 200, 240, m.platform, Mouse);
      var right := InputManager.UnifiedEvent(InputManager.MovePhase, 240, 240, 240, 240, m.platform, Mouse);
      var t1 := Start(t, press, 0, None).0;
      var t2 := Move(t1, env, down, 10);
      var t3 := Move(t2, env, right, 20);
      t2.pattern == "D" && t3.pattern == "DR" && End(t3, 30).1 == Some("DR")
  {
    var press := InputManager.UnifiedEvent(InputManager.StartPhase, 200, 200, 200, 200, m.platform, Mouse);
    var down := InputManager.UnifiedEvent(InputManager.MovePhase, 200, 240, 200, 240, m.platform, Mouse);
    var right := InputManager.UnifiedEvent(InputManager.MovePhase, 240, 240, 240, 240, m.platform, Mouse);
    var t1 := Start(t, press, 0, None).0;
    assert t1.start == Point(200, 200) && t1.last == t1.start && t1.pattern == "";
    var t2 := Move(t1, env, down, 10);
    assert t2.pattern == AppendDirection("", 'D');
    var t3 := Move(t2, env, right, 20);
    assert t3.pattern == AppendDirection("D", 'R');
    assert "DR" in FallbackSettings.actionMappings.value;
  }

  /** The tracker's quantiser and the batch analyser's sectors agree on
      every non-zero segment except the anti-diagonal `dx == -dy`, where
      the tracker's tie rule picks the vertical symbol and the analyser's
      half-open sectors pick the horizontal one. */
  lemma QuantisersAgreeOffAntiDiagonal(dx: int, dy: int)
    requires dx != 0 || dy != 0
    ensures TrackerDirection(dx, dy) == PatternAnalyzer.SegmentDirection(dx, dy) <==> dx != -dy
  {
    PatternAnalyzer.SegmentDirectionSectors(dx, dy);
  }

  /** Coordinate correction is the identity for the tracker: the input
      manager always reports mouse input. */
  lemma CorrectionIsIdentity(env: InputManager.Environment, x: int, dpr: real, metaZoom: real)
    ensures Coordinates.GetRealCoordinate(Coordinates.Number(x as real), InputManager.Construct(env).inputType,
      dpr, InputManager.ViewportScale(InputManager.Construct(env), metaZoom)) == x as real
  {
  }
}

=== FILE: numerals.dfy ===
/** `Numerals`: JavaScript's `parseInt` without a radix argument and the
    decimal numerals `String(n)` writes for non-negative integers, with the
    round trip between the two. */
module Numerals {
  import opened Common

  /** The white space and line terminators `parseInt` skips. */
  predicate IsJsSpace(c: char) {
    ('\U{9}' <= c <= '\U{D}') || c == ' ' || c == '\U{A0}' || c == '\U{1680}' ||
    ('\U{2000}' <= c <= '\U{200A}') || c == '\U{2028}' || c == '\U{2029}' || c == '\U{202F}' ||
    c == '\U{205F}' || c == '\U{3000}' || c == '\U{FEFF}'
  }

  function TrimStart(s: string): (t: string)
    ensures |t| <= |s| && t == s[|s| - |t|..]
    ensures |t| > 0 ==> !IsJsSpace(t[0])
  {
    if |s| > 0 && IsJsSpace(s[0]) then TrimStart(s[1..]) else s
  }

  /** The value of a digit in bases up to 36. */
  function DigitValue(c: char): (v: Option<nat>)
    ensures v.Some? ==> v.value < 36
    ensures '0' <= c <= '9' ==> v == Some((c - '0') as nat)
  {
    if '0' <= c <= '9' then Some((c - '0') as nat)
    else if 'a' <= c <= 'z' then Some((c - 'a') as nat + 10)
    else if 'A' <= c <= 'Z' then Some((c - 'A') as nat + 10)
    else None
  }

  predicate IsDigitIn(c: char, radix: nat) {
    DigitValue(c).Some? && DigitValue(c).value < radix
  }

  /** The length of the longest prefix of `s` made of digits of `radix`. */
  function DigitRun(s: string, radix: nat): (n: nat)
    ensures n <= |s|
    ensures forall i :: 0 <= i < n ==> IsDigitIn(s[i], radix)
    ensures n < |s| ==> !IsDigitIn(s[n], radix)
  {
    if |s| == 0 || !IsDigitIn(s[0], radix) then 0 else 1 + DigitRun(s[1..], radix)
  }

  /** The number a string of digits denotes in `radix`. */
  function DigitsValue(ds: string, radix: nat): nat {
    if |ds| == 0 then 0
    else DigitsValue(ds[..|ds| - 1], radix) * radix + DigitOrZero(ds[|ds| - 1])
  }

  /** A digit's value; callers only pass digits. */
  function DigitOrZero(c: char): nat {
    if DigitValue(c).Some? then DigitValue(c).value else 0
  }

  /** `parseInt(s)` without a radix argument: leading white space, an
      optional sign, a `0x` prefix selecting base 16, then the longest run
      of digits; `None` (NaN) when that run is empty. */
  function ParseInt(s: string): (r: Option<int>)
    ensures |s| == 0 ==> r.None?
  {
    ParseSigned(TrimStart(s))
  }

  /** The sign, then the unsigned part. */
  function ParseSigned(t: string): Option<int> {
    if |t| > 0 && t[0] == '-' then
      var m := ParseUnsigned(t[1..]);
      if m.None? then None else Some(-(m.value as int))
    else if |t| > 0 && t[0] == '+' then ParseUnsigned(t[1..])
    else ParseUnsigned(t)
  }

  /** The radix prefix, then the digit run. */
  function ParseUnsigned(u: string): Option<nat> {
    if |u| >= 2 && u[0] == '0' && (u[1] == 'x' || u[1] == 'X') then ParseDigits(u[2..], 16)
    else ParseDigits(u, 10)
  }

  function ParseDigits(w: string, radix: nat): Option<nat> {
    var n := DigitRun(w, radix);
    if n == 0 then None else Some(DigitsValue(w[..n], radix))
  }

  function DecimalDigit(d: nat): (c: char)
    requires d < 10
    ensures IsDigitIn(c, 10) && DigitValue(c) == Some(d)
  {
    ('0' as int + d) as char
  }

  /** The decimal numeral of `n`, as `String(n)` writes a non-negative integer. */
  function NatToString(n: nat): (s: string)
    ensures |s| > 0
    ensures forall i :: 0 <= i < |s| ==> IsDigitIn(s[i], 10)
    ensures |s| > 1 ==> s[0] != '0'
  {
    if n < 10 then [DecimalDigit(n)] else NatToString(n / 10) + [DecimalDigit(n % 10)]
  }

  lemma {:induction false} NatToStringValue(n: nat)
    ensures DigitsValue(NatToString(n), 10) == n
  {
    if n >= 10 {
      var s := NatToString(n);
      assert s[..|s| - 1] == NatToString(n / 10);
      NatToStringValue(n / 10);
    }
  }

  /** A digit run followed by something that is not a digit is read whole. */
  lemma {:induction false} DigitRunOfPrefix(a: string, rest: string, radix: nat)
    requires forall i :: 0 <= i < |a| ==> IsDigitIn(a[i], radix)
    requires |rest| > 0 ==> !IsDigitIn(rest[0], radix)
    ensures DigitRun(a + rest, radix) == |a|
    decreases |a|
  {
    if |a| > 0 {
      assert (a + rest)[1..] == a[1..] + rest;
      DigitRunOfPrefix(a[1..], rest, radix);
    } else {
      assert a + rest == rest;
    }
  }

  /** `parseInt` reads back the decimal numeral of any integer, signed or
      not, and stops at the first character that is not a digit — as long
      as a lone `0` is not followed by an `x` that would make it a hex prefix. */
  lemma ParseIntOfNumeral(n: nat, rest: string)
    requires |rest| > 0 ==> !IsDigitIn(rest[0], 10)
    requires n == 0 && |rest| > 0 ==> rest[0] != 'x' && rest[0] != 'X'
    ensures ParseInt(NatToString(n) + rest) == Some(n)
    ensures n > 0 ==> ParseInt("-" + NatToString(n) + rest) == Some(-(n as int))
  {
    var s := NatToString(n);
    var w := s + rest;
    assert w[0] == s[0];
    assert IsDigitIn(w[0], 10);
    UnsignedOfNumeral(n, rest);
    PlainNumeral(w);
    if n > 0 {
      NegatedNumeral(s, rest, n);
    }
  }

  /** A numeral on its own reads back as its value. */
  lemma ParseIntOfBareNumeral(n: nat)
    ensures ParseInt(NatToString(n)) == Some(n)
  {
    var s := NatToString(n);
    assert s + "" == s;
    UnsignedOfNumeral(n, "");
    PlainNumeral(s);
  }

  /** A string starting with a digit is parsed without sign or trimming. */
  lemma PlainNumeral(w: string)
    requires |w| > 0 && IsDigitIn(w[0], 10)
    ensures ParseInt(w) == ParseUnsigned(w)
  {
    assert TrimStart(w) == w;
  }

  /** A minus sign before a digit negates the unsigned reading. */
  lemma NegatedNumeral(s: string, rest: string, v: nat)
    requires |s| > 0 && IsDigitIn(s[0], 10)
    requires ParseUnsigned(s + rest) == Some(v)
    ensures ParseInt("-" + s + rest) == Some(-(v as int))
  {
    var w := s + rest;
    var m := "-" + s + rest;
    assert m == "-" + w;
    assert m[0] == '-';
    assert TrimStart(m) == m;
    assert m[1..] == w;
  }

  lemma UnsignedOfNumeral(n: nat, rest: string)
    requires |rest| > 0 ==> !IsDigitIn(rest[0], 10)
    requires n == 0 && |rest| > 0 ==> rest[0] != 'x' && rest[0] != 'X'
    ensures ParseUnsigned(NatToString(n) + rest) == Some(n)
  {
    var s := NatToString(n);
    var w := s + rest;
    NatToStringValue(n);
    DigitRunOfPrefix(s, rest, 10);
    assert w[..|s|] == s;
    if |w| >= 2 && w[0] == '0' {
      assert |s| == 1;
      assert w[1] == rest[0];
    }
  }
}

=== FILE: options_manager.dfy ===
/** The settings page controller `ExtensionOptionsManager`: the form
    control ids and setting keys, per-setting validation, the edited copy of
    the settings with its dirty flag, saving, resetting, and importing a
    settings file. Messages to the background and the user's confirmations
    are parameters. */
module OptionsManager {
  import opened Common
  import opened Values

  /** `getSettingKeyFromElement`'s table: form control id to setting key. */
  const KeyOfControl: map<string, string> := map[
    "enable-execution" := "enableExecution",
    "enable-hints" := "enableHints",
    "enable-sounds" := "enableSounds",
    "pattern-sensitivity" := "patternSensitivity",
    "recognition-timeout" := "recognitionTimeout",
    "enable-trail" := "enableTrail",
    "trail-duration" := "trailDuration",
    "trail-color" := "trailColor",
    "trail-width" := "trailWidth",
    "trail-opacity" := "trailOpacity",
    "hint-position" := "hintPosition",
    "hint-duration" := "hintDuration",
    "performance-mode" := "performanceMode",
    "debug-mode" := "debugMode",
    "log-level" := "logLevel",
    "max-trail-points" := "maxTrailPoints"]

  /** `getElementBySettingKey`'s table: setting key to form control id. */
  const ControlOfKey: map<string, string> := map[
    "enableExecution" := "enable-execution",
    "enableHints" := "enable-hints",
    "enableSounds" := "enable-sounds",
    "patternSensitivity" := "pattern-sensitivity",
    "recognitionTimeout" := "recognition-timeout",
    "enableTrail" := "enable-trail",
    "trailDuration" := "trail-duration",
    "trailColor" := "trail-color",
    "trailWidth" := "trail-width",
    "trailOpacity" := "trail-opacity",
    "hintPosition" := "hint-position",
    "hintDuration" := "hint-duration",
    "performanceMode" := "performance-mode",
    "debugMode" := "debug-mode",
    "logLevel" := "log-level",
    "maxTrailPoints" := "max-trail-points"]

  function SettingKeyOf(controlId: string): (key: Option<string>)
    ensures key.Some? <==> controlId in KeyOfControl
    ensures key.Some? ==> key.value in ControlOfKey && ControlOfKey[key.value] == controlId
  {
    if controlId in KeyOfControl then
      ControlTablesAreInverse();
      Some(KeyOfControl[controlId])
    else None
  }

  function ControlIdOf(key: string): (id: Option<string>)
    ensures id.Some? <==> key in ControlOfKey
    ensures id.Some? ==> id.value in KeyOfControl && KeyOfControl[id.value] == key
  {
    if key in ControlOfKey then
      ControlTablesAreInverse();
      Some(ControlOfKey[key])
    else None
  }

  /** The two tables are inverse to each other: every control edits exactly
      one setting and every setting has exactly one control. */
  lemma ControlTablesAreInverse()
    ensures forall id :: id in KeyOfControl ==> KeyOfControl[id] in ControlOfKey && ControlOfKey[KeyOfControl[id]] == id
    ensures forall key :: key in ControlOfKey ==> ControlOfKey[key] in KeyOfControl && KeyOfControl[ControlOfKey[key]] == key
  {
  }

  /** Control and key round trips. */
  lemma SettingKeyRoundTrip(controlId: string, key: string)
    ensures SettingKeyOf(controlId).Some? ==> ControlIdOf(SettingKeyOf(controlId).value) == Some(controlId)
    ensures ControlIdOf(key).Some? ==> SettingKeyOf(ControlIdOf(key).value) == Some(key)
  {
  }

  /** The keys `validateSetting` has a rule for. */
  const ValidatedKeys: set<string> := {"patternSensitivity", "recognitionTimeout", "trailDuration",
    "trailWidth", "trailOpacity", "hintDuration", "maxTrailPoints"}

  /** The closed range `validateSetting` checks for a key, if any. */
  function ValidRange(key: string): Option<(real, real)> {
    if key == "patternSensitivity" then Some((5.0, 50.0))
    else if key == "recognitionTimeout" then Some((500.0, 5000.0))
    else if key == "trailDuration" then Some((100.0, 2000.0))
    else if key == "trailWidth" then Some((1.0, 10.0))
    else if key == "trailOpacity" then Some((0.1, 1.0))
    else if key == "hintDuration" then Some((500.0, 5000.0))
    else if key == "maxTrailPoints" then Some((10.0, 200.0))
    else None
  }

  /** `validateSetting`: keys without a validator accept anything; the seven
      numeric keys accept exactly the values whose number lies in their range. */
  function ValidateSetting(key: string, value: Value): (ok: bool)
    ensures key !in ValidatedKeys ==> ok
    ensures ValidRange(key).Some? && value.Num? ==>
      (ok <==> ValidRange(key).value.0 <= value.n <= ValidRange(key).value.1)
    ensures ValidRange(key).Some? && (value.NaN? || value.Undefined? || value.Str? || value.Obj? || value.Arr?) ==> !ok
    ensures key == "patternSensitivity" ==> (ok <==> value.Num? && 5.0 <= value.n <= 50.0)
  {
    match ValidRange(key)
    case None => true
    case Some((lo, hi)) =>
      var n := NumericValue(value);
      n.Some? && lo <= n.value && n.value <= hi
  }

  /** `getDefaultSettings` */
  const DefaultSettings: map<string, Value> := map[
    "enableExecution" := Bool(true),
    "enableHints" := Bool(true),
    "enableSounds" := Bool(false),
    "patternSensitivity" := Num(10.0),
    "recognitionTimeout" := Num(1000.0),
    "enableTrail" := Bool(true),
    "trailDuration" := Num(500.0),
    "trailColor" := Str("#007bff"),
    "trailWidth" := Num(3.0),
    "trailOpacity" := Num(0.7),
    "hintPosition" := Str("center"),
    "hintDuration" := Num(2000.0),
    "performanceMode" := Bool(false),
    "debugMode" := Bool(false),
    "logLevel" := Str("info"),
    "maxTrailPoints" := Num(50.0),
    "actionMappings" := Obj(map[
      "L" := Str("previousTab"), "R" := Str("nextTab"), "U" := Str("newTab"), "D" := Str("closeTab"),
      "LR" := Str("refreshTab"), "RL" := Str("reopenTab"), "UD" := Str("scrollToTop"), "DU" := Str("scrollToBottom")])]

  /** Every default passes validation, every control has a default, and the
      defaults form an importable settings file. */
  lemma DefaultsAreValid()
    ensures forall key :: key in DefaultSettings ==> ValidateSetting(key, DefaultSettings[key])
    ensures forall key :: key in ControlOfKey ==> key in DefaultSettings
    ensures ValidateImportData(Obj(DefaultSettings))
  {
  }

  /** The page's settings: the edited copy, the last loaded or saved copy,
      the changes since then, and the dirty flag behind the save button. */
  datatype Page = Page(current: map<string, Value>, original: map<string, Value>,
                       pending: map<string, Value>, isDirty: bool)

  /** `loadExtensionSettings`: an object reply is copied into both copies;
      anything else (or a failed request, `Undefined`) gives the defaults. */
  function LoadExtensionSettings(p: Page, response: Value): (q: Page)
    ensures response.Obj? ==> q.current == response.fields && q.original == response.fields
    ensures !response.Obj? && !response.Arr? ==> q.current == DefaultSettings && q.original == DefaultSettings
    ensures q.pending == p.pending && q.isDirty == p.isDirty
  {
    if response.Obj? || response.Arr? then p.(current := Own(response), original := Own(response))
    else p.(current := DefaultSettings, original := DefaultSettings)
  }

  /** `updateSetting`: a value not strictly equal to the current one is
      stored, recorded as pending and marks the page dirty. */
  function UpdateSetting(p: Page, key: string, value: Value): (q: Page)
    ensures StrictEquals(Get(p.current, key), value) ==> q == p
    ensures !StrictEquals(Get(p.current, key), value) ==>
      q.current == p.current[key := value] && q.pending == p.pending[key := value] &&
      q.isDirty && q.original == p.original
    ensures q.isDirty <==> p.isDirty || !StrictEquals(Get(p.current, key), value)
  {
    if StrictEquals(Get(p.current, key), value) then p
    else p.(current := p.current[key := value], pending := p.pending[key := value], isDirty := true)
  }

  /** Setting the same value twice is the same as setting it once, even for
      `NaN`, which is never strictly equal to itself. */
  lemma UpdateIsIdempotent(p: Page, key: string, value: Value)
    ensures UpdateSetting(UpdateSetting(p, key, value), key, value) == UpdateSetting(p, key, value)
  {
    StrictEqualsMeansSame(Get(p.current, key), value);
  }

  /** What a form control holds: a checkbox state, the `parseFloat` of a
      number or range input (`None` for `NaN`), or text. */
  datatype Control = Checkbox(checked: bool) | NumberInput(number: Option<real>) | TextInput(text: string)

  function ControlValue(c: Control): Value {
    match c
    case Checkbox(b) => Bool(b)
    case NumberInput(n) => if n.Some? then Num(n.value) else NaN
    case TextInput(t) => Str(t)
  }

  datatype ChangeOutcome = Ignored | Rejected | Applied(previewUpdated: bool)

  /** `handleSettingChange` for the control with id `controlId`. */
  function HandleSettingChange(p: Page, controlId: string, c: Control): (result: (Page, ChangeOutcome))
    ensures controlId !in KeyOfControl ==> result == (p, Ignored)
    ensures controlId in KeyOfControl ==>
      var key := KeyOfControl[controlId];
      (!ValidateSetting(key, ControlValue(c)) <==> result.1 == Rejected) &&
      (result.1 == Rejected ==> result.0 == p) &&
      (result.1.Applied? ==>
        result.0 == UpdateSetting(p, key, ControlValue(c)) &&
        (result.1.previewUpdated <==> StartsWith(key, "trail") || StartsWith(key, "hint")))
  {
    match SettingKeyOf(controlId)
    case None => (p, Ignored)
    case Some(key) =>
      var value := ControlValue(c);
      if !ValidateSetting(key, value) then (p, Rejected)
      else (UpdateSetting(p, key, value), Applied(StartsWith(key, "trail") || StartsWith(key, "hint")))
  }

  /** A number outside its range never reaches the settings, and a valid one does. */
  lemma OutOfRangeIsRejected(p: Page, n: real)
    ensures n > 50.0 ==> HandleSettingChange(p, "pattern-sensitivity", NumberInput(Some(n))) == (p, Rejected)
    ensures HandleSettingChange(p, "pattern-sensitivity", NumberInput(None)) == (p, Rejected)
    ensures 5.0 <= n <= 50.0 ==>
      Get(HandleSettingChange(p, "pattern-sensitivity", NumberInput(Some(n))).0.current, "patternSensitivity") == Num(n)
  {
  }

  /** `handleSave` with the background's answer: on success the edited copy
      becomes the saved one and nothing is pending. */
  function HandleSave(p: Page, saved: bool): (q: Page)
    ensures saved ==> q == Page(p.current, p.current, map[], false)
    ensures !saved ==> q == p
  {
    if saved then p.(original := p.current, pending := map[], isDirty := false) else p
  }

  /** `handleReset`: after confirmation and a successful reset the settings
      are reloaded and the page is clean; the pending changes are not cleared. */
  function HandleReset(p: Page, confirmed: bool, resetOk: bool, reloaded: Value): (q: Page)
    ensures !confirmed || !resetOk ==> q == p
    ensures confirmed && resetOk ==>
      q == LoadExtensionSettings(p, reloaded).(isDirty := false) && q.pending == p.pending
  {
    if !confirmed || !resetOk then p
    else LoadExtensionSettings(p, reloaded).(isDirty := false)
  }

  /** `validateImportData`: an object carrying both required fields. */
  predicate ValidateImportData(settings: Value) {
    settings.Obj? && "patternSensitivity" in settings.fields && "enableExecution" in settings.fields
  }

  datatype ImportOutcome = ImportCancelled | ImportFailed(message: string) | Imported

  /** `handleExport`'s file contents, without version and time stamp. */
  function Export(p: Page): (file: Value)
    ensures file.Obj? && Get(file.fields, "settings") == Obj(p.current)
  {
    Obj(map["settings" := Obj(p.current)])
  }

  /** The import handler for a parsed file: the file's settings are merged
      over the edited copy and the page becomes dirty. */
  function HandleImport(p: Page, file: Value, confirmed: bool): (result: (Page, ImportOutcome))
    ensures result.1 != Imported ==> result.0 == p
    ensures result.1 == Imported <==>
      (file.Obj? && Truthy(Get(file.fields, "settings")) && ValidateImportData(Get(file.fields, "settings")) && confirmed)
    ensures result.1 == Imported ==>
      var imported := Get(file.fields, "settings").fields;
      result.0.isDirty && result.0.original == p.original && result.0.pending == p.pending &&
      (forall k :: k in result.0.current <==> k in p.current || k in imported) &&
      (forall k :: k in imported ==> result.0.current[k] == imported[k]) &&
      (forall k :: k in p.current && k !in imported ==> result.0.current[k] == p.current[k])
  {
    var settings := if file.Obj? then Get(file.fields, "settings") else Undefined;
    if !Truthy(settings) then (p, ImportFailed("invalid settings file format"))
    else if !ValidateImportData(settings) then (p, ImportFailed("settings validation failed"))
    else if !confirmed then (p, ImportCancelled)
    else (p.(current := Spread(p.current, settings.fields), isDirty := true), Imported)
  }

  /** Importing the same file a second time changes nothing more. */
  lemma ImportIsIdempotent(p: Page, file: Value)
    requires HandleImport(p, file, true).1 == Imported
    ensures var p1 := HandleImport(p, file, true).0;
      HandleImport(p1, file, true) == (p1, Imported)
  {
    var imported := Get(file.fields, "settings").fields;
    SpreadAbsorbs(p.current, imported);
  }

  /** Importing an exported file restores the exported settings. */
  lemma ExportImportRoundTrip(p: Page, q: Page)
    requires ValidateImportData(Obj(p.current))
    ensures HandleImport(q, Export(p), true).1 == Imported
    ensures HandleImport(q, Export(p), true).0.current == Spread(q.current, p.current)
    ensures HandleImport(p, Export(p), true).0.current == p.current
  {
  }
}

=== FILE: options_page.dfy ===
/** The legacy options page controller `MotionOptions`: its own copy of the
    path recogniser used while recording a custom gesture, the slider
    validators, the settings it derives from the background's reply, and the
    list operations on its gestures. The DOM, the canvas and the
    `confirm` dialogs are parameters. */
module OptionsPage {
  import opened Common
  import opened Directions
  import opened Values
  import opened Numerals
  import PatternAnalyzer

  // ---------------------------------------------------------------------
  // analyzeGesture

  /** The page's noise floor, raised from the analyzer's 30 px. */
  const RecordingMinDistance: int := 40

  /** The analyzer configuration the page's recogniser amounts to. */
  const RecordingConfig: PatternAnalyzer.Config :=
    PatternAnalyzer.Config(RecordingMinDistance, PatternAnalyzer.SampleRateFactor)

  /** `analyzeGesture`: the same strided sampling, noise floor, sectors and
      run merge as `PatternAnalyzer.analyzePattern`, written out with its own
      two loops. It yields exactly what the analyzer yields with a 40 px
      floor. */
  method AnalyzeGesture(path: seq<PatternAnalyzer.PathPoint>) returns (r: Option<string>)
    ensures r == PatternAnalyzer.AnalyzePattern(PatternAnalyzer.Points(path), RecordingConfig)
    ensures |path| < 5 ==> r.None?
    ensures r.Some? ==> |r.value| > 0 && IsGesturePattern(r.value)
  {
    if |path| < 5 {
      return None;
    }
    var directions: seq<char> := [];
    var lastDirection: Option<char> := None;
    var sampleRate: nat := if |path| / 20 >= 1 then |path| / 20 else 1;
    ghost var whole := PatternAnalyzer.ExtractLoop(path, sampleRate, RecordingMinDistance, 0, None, []);
    var i: nat := 0;
    while i + sampleRate < |path|
      invariant PatternAnalyzer.ExtractLoop(path, sampleRate, RecordingMinDistance, i, lastDirection, directions) == whole
      decreases |path| - i
    {
      var current := path[i];
      var next := path[i + sampleRate];
      var dx := next.x - current.x;
      var dy := next.y - current.y;
      if dx * dx + dy * dy >= RecordingMinDistance * RecordingMinDistance {
        var direction := PatternAnalyzer.SegmentDirection(dx, dy);
        if lastDirection != Some(direction) {
          directions := directions + [direction];
          lastDirection := Some(direction);
        }
      }
      i := i + sampleRate;
    }
    assert directions == PatternAnalyzer.ExtractDirections(path, RecordingConfig);
    if |directions| == 0 {
      return None;
    }

    var pattern: seq<char> := [];
    var currentDir := directions[0];
    var count: nat := 1;
    var j := 1;
    while j < |directions|
      invariant 1 <= j <= |directions| && count >= 1
      invariant PatternAnalyzer.CleanLoop(directions, j, currentDir, count, pattern) ==
                PatternAnalyzer.CleanLoop(directions, 1, directions[0], 1, [])
    {
      if directions[j] == currentDir {
        count := count + 1;
      } else {
        if count >= 1 {
          pattern := pattern + [currentDir];
        }
        currentDir := directions[j];
        count := 1;
      }
      j := j + 1;
    }
    if count >= 1 {
      pattern := pattern + [currentDir];
    }
    assert pattern == PatternAnalyzer.CleanDirections(directions);
    CollapseShape(directions);
    return Some(pattern);
  }

  /** The merge pass of `analyzeGesture` never changes anything: the first
      loop already pushes a direction only when it differs from the last. */
  lemma MergePassIsIdentity(path: seq<PatternAnalyzer.PathPoint>)
    ensures var d := PatternAnalyzer.ExtractDirections(path, RecordingConfig);
      PatternAnalyzer.CleanDirections(d) == d
  {
    var d := PatternAnalyzer.ExtractDirections(path, RecordingConfig);
    PatternAnalyzer.CleanDirectionsProperties(d);
  }

  // ---------------------------------------------------------------------
  // Slider validators

  /** `Math.max(lo, Math.min(hi, k))` */
  function Clamp(lo: int, hi: int, k: int): (r: int)
    requires lo <= hi
    ensures lo <= r <= hi
    ensures lo <= k <= hi ==> r == k
    ensures k < lo ==> r == lo
    ensures k > hi ==> r == hi
  {
    if k < lo then lo else if k > hi then hi else k
  }

  /** JavaScript's truncation of a number towards zero. */
  function Trunc(x: real): int {
    if x >= 0.0 then x.Floor else -((-x).Floor)
  }

  /** `parseInt(value)` for the values a slider or the settings hold: a
      string is parsed, a number is truncated, and anything else is NaN. */
  function ParseIntValue(v: Value): Option<int> {
    match v
    case Str(s) => ParseInt(s)
    case Num(n) => Some(Trunc(n))
    case _ => None
  }

  predicate IsBlank(v: Value) {
    v.Undefined? || v.Null? || v == Str("")
  }

  /** `validateSensitivity`: 30 for a blank or unreadable value, otherwise
      the parsed integer clamped to [10, 50]. */
  function ValidateSensitivity(v: Value): (r: int)
    ensures 10 <= r <= 50
    ensures IsBlank(v) || ParseIntValue(v).None? ==> r == 30
    ensures !IsBlank(v) && ParseIntValue(v).Some? && 10 <= ParseIntValue(v).value <= 50 ==>
      r == ParseIntValue(v).value
    ensures !IsBlank(v) && ParseIntValue(v).Some? && ParseIntValue(v).value < 10 ==> r == 10
    ensures !IsBlank(v) && ParseIntValue(v).Some? && ParseIntValue(v).value > 50 ==> r == 50
  {
    if IsBlank(v) then 30
    else
      var k := ParseIntValue(v);
      if k.None? then 30 else Clamp(10, 50, k.value)
  }

  /** `validateTrailDuration`: 1200 for a blank or unreadable value,
      otherwise the parsed integer clamped to [500, 3000]. */
  function ValidateTrailDuration(v: Value): (r: int)
    ensures 500 <= r <= 3000
    ensures IsBlank(v) || ParseIntValue(v).None? ==> r == 1200
    ensures !IsBlank(v) && ParseIntValue(v).Some? && 500 <= ParseIntValue(v).value <= 3000 ==>
      r == ParseIntValue(v).value
    ensures !IsBlank(v) && ParseIntValue(v).Some? && ParseIntValue(v).value < 500 ==> r == 500
    ensures !IsBlank(v) && ParseIntValue(v).Some? && ParseIntValue(v).value > 3000 ==> r == 3000
  {
    if IsBlank(v) then 1200
    else
      var k := ParseIntValue(v);
      if k.None? then 1200 else Clamp(500, 3000, k.value)
  }

  /** A slider's text reads back as its own value, and out-of-range
      readings stick to the nearer end. */
  lemma SliderTextRoundTrip(n: nat)
    ensures 10 <= n <= 50 ==> ValidateSensitivity(Str(NatToString(n))) == n
    ensures n < 10 ==> ValidateSensitivity(Str(NatToString(n))) == 10
    ensures n > 50 ==> ValidateSensitivity(Str(NatToString(n))) == 50
    ensures 500 <= n <= 3000 ==> ValidateTrailDuration(Str(NatToString(n))) == n
    ensures n < 500 ==> ValidateTrailDuration(Str(NatToString(n))) == 500
    ensures n > 3000 ==> ValidateTrailDuration(Str(NatToString(n))) == 3000
  {
    SliderText(n);
  }

  lemma SliderText(n: nat)
    ensures ParseIntValue(Str(NatToString(n))) == Some(n as int)
    ensures !IsBlank(Str(NatToString(n)))
  {
    var s := NatToString(n);
    ParseIntOfBareNumeral(n);
    assert ParseIntValue(Str(s)) == ParseInt(s);
    assert |s| > 0;
  }

  /** Validating a validated value changes nothing. */
  lemma ValidatorsAreIdempotent(v: Value)
    ensures ValidateSensitivity(Num(ValidateSensitivity(v) as real)) == ValidateSensitivity(v)
    ensures ValidateTrailDuration(Num(ValidateTrailDuration(v) as real)) == ValidateTrailDuration(v)
  {
    var k := ValidateSensitivity(v);
    assert Trunc(k as real) == k;
    var d := ValidateTrailDuration(v);
    assert Trunc(d as real) == d;
  }

  // ---------------------------------------------------------------------
  // Settings and gestures

  /** One gesture row: `enabled` and `custom` read as false when absent. */
  datatype Motion = Motion(pattern: string, action: Value, name: Value, enabled: bool, custom: bool)

  /** The page's `settings` object. */
  datatype PageSettings = PageSettings(enabled: Value, sensitivity: Value, trailDuration: Value, motions: seq<Motion>)

  const InitialSettings: PageSettings := PageSettings(Bool(true), Num(30.0), Num(1200.0), [])

  /** `getDefaultMotions` */
  const DefaultMotions: seq<Motion> := [
    Motion("L", Str("goBack"), Str("后退"), true, false),
    Motion("R", Str("goForward"), Str("前进"), true, false),
    Motion("U", Str("scrollToTop"), Str("滚动到顶部"), true, false),
    Motion("D", Str("scrollToBottom"), Str("滚动到底部"), true, false),
    Motion("LR", Str("refreshTab"), Str("刷新页面"), true, false),
    Motion("RL", Str("reopenTab"), Str("重新打开标签页"), true, false),
    Motion("DL", Str("newTab"), Str("新建标签页"), true, false),
    Motion("DR", Str("closeTab"), Str("关闭标签页"), true, false)]

  /** The display names `loadSettings` gives to known actions. */
  const ActionNames: map<string, string> := map[
    "goBack" := "后退", "goForward" := "前进", "previousTab" := "前一标签", "nextTab" := "下一标签",
    "scrollToTop" := "滚动到顶部", "scrollToBottom" := "滚动到底部", "newTab" := "新建标签页",
    "closeTab" := "关闭标签页", "refreshTab" := "刷新页面", "reopenTab" := "重新打开标签页",
    "duplicateTab" := "复制标签页", "minimizeWindow" := "最小化窗口", "toggleFullscreen" := "全屏切换",
    "togglePinTab" := "固定标签"]

  /** `actionNames[action] || action` */
  function DisplayName(action: Value): (name: Value)
    ensures action.Str? && action.s in ActionNames ==> name == Str(ActionNames[action.s])
    ensures !(action.Str? && action.s in ActionNames) ==> name == action
  {
    if action.Str? && action.s in ActionNames then Str(ActionNames[action.s]) else action
  }

  /** The `GET_SETTINGS` exchange: the request threw, there was no reply,
      or a reply whose `actionMappings` enumerate to `mappingEntries`
      (empty when the field is missing or falsy). */
  datatype SettingsReply =
    | RequestFailed
    | NoReply
    | Reply(enableExecution: Value, patternSensitivity: Value, trailDuration: Value,
            mappingEntries: seq<(string, Value)>)

  function MotionOfEntry(e: (string, Value)): Motion {
    Motion(e.0, e.1, DisplayName(e.1), true, false)
  }

  /** `loadSettings`. A reply turns every mapping into an enabled preset
      gesture, or falls back to the default gestures when there are none;
      `enabled` comes out of `enableExecution || true`, so a stored `false`
      is read as true. */
  function LoadSettings(prev: PageSettings, reply: SettingsReply): (s: PageSettings)
    ensures |s.motions| > 0
    ensures reply.RequestFailed? ==> s == prev.(motions := DefaultMotions)
    ensures !reply.RequestFailed? ==> Truthy(s.enabled) && Truthy(s.sensitivity) && Truthy(s.trailDuration)
    ensures reply.Reply? && reply.enableExecution.Bool? ==> s.enabled == Bool(true)
    ensures reply.Reply? ==>
      s.enabled == Or(reply.enableExecution, Bool(true)) &&
      s.sensitivity == Or(reply.patternSensitivity, Num(30.0)) &&
      s.trailDuration == Or(reply.trailDuration, Num(1200.0))
    ensures reply.NoReply? ==> s == InitialSettings.(motions := DefaultMotions)
    ensures reply.Reply? && |reply.mappingEntries| == 0 ==> s.motions == DefaultMotions
    ensures reply.Reply? && |reply.mappingEntries| > 0 ==>
      |s.motions| == |reply.mappingEntries| &&
      forall i :: 0 <= i < |s.motions| ==>
        s.motions[i].pattern == reply.mappingEntries[i].0 &&
        s.motions[i].action == reply.mappingEntries[i].1 &&
        s.motions[i].name == DisplayName(reply.mappingEntries[i].1) &&
        s.motions[i].enabled && !s.motions[i].custom
  {
    match reply
    case RequestFailed => prev.(motions := DefaultMotions)
    case NoReply => PageSettings(Bool(true), Num(30.0), Num(1200.0), DefaultMotions)
    case Reply(enable, sensitivity, duration, entries) =>
      var motions := seq(|entries|, i requires 0 <= i < |entries| => MotionOfEntry(entries[i]));
      PageSettings(Or(enable, Bool(true)), Or(sensitivity, Num(30.0)), Or(duration, Num(1200.0)),
                   if |motions| > 0 then motions else DefaultMotions)
  }

  /** Even a reply that says execution is off leaves the page showing it on. */
  lemma DisabledReadsAsEnabled(prev: PageSettings, sensitivity: Value, duration: Value,
                               entries: seq<(string, Value)>)
    ensures LoadSettings(prev, Reply(Bool(false), sensitivity, duration, entries)).enabled == Bool(true)
  {
  }

  /** `renderSettings` writes the validated slider values back into the settings. */
  function RenderSettings(s: PageSettings): (t: PageSettings)
    ensures t.motions == s.motions && t.enabled == s.enabled
    ensures t.sensitivity.Num? && 10.0 <= t.sensitivity.n <= 50.0
    ensures t.trailDuration.Num? && 500.0 <= t.trailDuration.n <= 3000.0
    ensures t.sensitivity == Num(ValidateSensitivity(s.sensitivity) as real)
    ensures t.trailDuration == Num(ValidateTrailDuration(s.trailDuration) as real)
  {
    s.(sensitivity := Num(ValidateSensitivity(s.sensitivity) as real),
       trailDuration := Num(ValidateTrailDuration(s.trailDuration) as real))
  }

  /** Slider positions already in range are rendered unchanged. */
  lemma RenderKeepsSliderValues(s: PageSettings, a: int, b: int)
    requires 10 <= a <= 50 && 500 <= b <= 3000
    requires s.sensitivity == Num(a as real) && s.trailDuration == Num(b as real)
    ensures RenderSettings(s) == s
  {
    assert Trunc(a as real) == a && Trunc(b as real) == b;
  }

  /** A reply without slider values renders the defaults 30 and 1200. */
  lemma MissingSlidersRenderDefaults(prev: PageSettings, reply: SettingsReply)
    requires reply.Reply? && !Truthy(reply.patternSensitivity) && !Truthy(reply.trailDuration)
    ensures RenderSettings(LoadSettings(prev, reply)).sensitivity == Num(30.0)
    ensures RenderSettings(LoadSettings(prev, reply)).trailDuration == Num(1200.0)
  {
    assert Trunc(30.0) == 30 && Trunc(1200.0) == 1200;
  }

  /** Rendering twice is rendering once. */
  lemma RenderSettingsIsIdempotent(s: PageSettings)
    ensures RenderSettings(RenderSettings(s)) == RenderSettings(s)
  {
    ValidatorsAreIdempotent(s.sensitivity);
    ValidatorsAreIdempotent(s.trailDuration);
  }

  /** The position of the first gesture with `pattern`, as `find` picks it. */
  function FindPattern(motions: seq<Motion>, pattern: string): (r: Option<nat>)
    ensures r.Some? ==> r.value < |motions| && motions[r.value].pattern == pattern
    ensures r.Some? ==> forall j :: 0 <= j < r.value ==> motions[j].pattern != pattern
    ensures r.None? ==> forall j :: 0 <= j < |motions| ==> motions[j].pattern != pattern
  {
    if |motions| == 0 then None
    else if motions[0].pattern == pattern then Some(0)
    else
      var r := FindPattern(motions[1..], pattern);
      if r.Some? then Some(r.value + 1) else None
  }

  /** How many gestures carry `pattern`. */
  function Occurrences(motions: seq<Motion>, pattern: string): nat {
    if |motions| == 0 then 0
    else (if motions[0].pattern == pattern then 1 else 0) + Occurrences(motions[1..], pattern)
  }

  lemma {:induction false} OccurrencesAppend(a: seq<Motion>, b: seq<Motion>, pattern: string)
    ensures Occurrences(a + b, pattern) == Occurrences(a, pattern) + Occurrences(b, pattern)
    decreases |a|
  {
    if |a| == 0 {
      assert a + b == b;
    } else {
      assert (a + b)[1..] == a[1..] + b;
      OccurrencesAppend(a[1..], b, pattern);
    }
  }

  lemma {:induction false} OccurrencesOfFree(motions: seq<Motion>, pattern: string)
    requires forall j :: 0 <= j < |motions| ==> motions[j].pattern != pattern
    ensures Occurrences(motions, pattern) == 0
    decreases |motions|
  {
    if |motions| > 0 {
      OccurrencesOfFree(motions[1..], pattern);
    }
  }

  /** `splice(index, 1)` */
  function RemoveAt(motions: seq<Motion>, index: nat): (r: seq<Motion>)
    requires index < |motions|
    ensures |r| == |motions| - 1
    ensures multiset(r) + multiset{motions[index]} == multiset(motions)
    ensures forall j :: 0 <= j < index ==> r[j] == motions[j]
    ensures forall j :: index <= j < |r| ==> r[j] == motions[j + 1]
  {
    assert motions == motions[..index] + [motions[index]] + motions[index + 1..];
    motions[..index] + motions[index + 1..]
  }

  datatype SaveOutcome = MissingPattern | MissingName | MissingAction | OverwriteDeclined | Saved

  /** `saveCustomGesture`: the pattern, the trimmed name and the action must
      all be non-empty; an existing gesture with the same pattern is removed
      first, after the user confirms, and the new custom gesture goes last. */
  function SaveCustomGesture(motions: seq<Motion>, pattern: Option<string>, name: string, action: string,
                             confirmOverwrite: bool): (result: (seq<Motion>, SaveOutcome))
    ensures result.1 != Saved ==> result.0 == motions
    ensures result.1 == Saved <==>
      pattern.Some? && pattern.value != "" && name != "" && action != "" &&
      (FindPattern(motions, pattern.value).None? || confirmOverwrite)
    ensures result.1 == Saved ==>
      var saved := result.0;
      |saved| > 0 && saved[|saved| - 1] == Motion(pattern.value, Str(action), Str(name), true, true) &&
      (FindPattern(motions, pattern.value).None? ==> saved == motions + [saved[|saved| - 1]]) &&
      (FindPattern(motions, pattern.value).Some? ==> |saved| == |motions|) &&
      (FindPattern(motions, pattern.value).Some? ==>
        saved == RemoveAt(motions, FindPattern(motions, pattern.value).value) + [saved[|saved| - 1]])
  {
    if pattern.None? || pattern.value == "" then (motions, MissingPattern)
    else if name == "" then (motions, MissingName)
    else if action == "" then (motions, MissingAction)
    else
      var existing := FindPattern(motions, pattern.value);
      if existing.Some? && !confirmOverwrite then (motions, OverwriteDeclined)
      else
        var kept := if existing.Some? then RemoveAt(motions, existing.value) else motions;
        (kept + [Motion(pattern.value, Str(action), Str(name), true, true)], Saved)
  }

  /** Overwriting keeps one gesture per pattern: if the pattern occurred at
      most once before, it occurs exactly once after a save. */
  lemma SaveKeepsPatternUnique(motions: seq<Motion>, pattern: string, name: string, action: string,
                               confirmOverwrite: bool)
    requires Occurrences(motions, pattern) <= 1
    ensures var result := SaveCustomGesture(motions, Some(pattern), name, action, confirmOverwrite);
      result.1 == Saved ==> Occurrences(result.0, pattern) == 1
  {
    var result := SaveCustomGesture(motions, Some(pattern), name, action, confirmOverwrite);
    if result.1 == Saved {
      var g := Motion(pattern, Str(action), Str(name), true, true);
      var existing := FindPattern(motions, pattern);
      if existing.Some? {
        var kept := RemoveAt(motions, existing.value);
        RemovingOneOccurrence(motions, existing.value, pattern);
        assert result.0 == kept + [g];
        OccurrencesAppend(kept, [g], pattern);
      } else {
        OccurrencesOfFree(motions, pattern);
        OccurrencesAppend(motions, [g], pattern);
      }
    }
  }

  /** Removing a gesture that carries `pattern` removes one occurrence. */
  lemma RemovingOneOccurrence(motions: seq<Motion>, i: nat, pattern: string)
    requires i < |motions| && motions[i].pattern == pattern
    ensures Occurrences(RemoveAt(motions, i), pattern) == Occurrences(motions, pattern) - 1
  {
    var before, after := motions[..i], motions[i + 1..];
    assert motions == (before + [motions[i]]) + after;
    OccurrencesAppend(before + [motions[i]], after, pattern);
    OccurrencesAppend(before, [motions[i]], pattern);
    assert RemoveAt(motions, i) == before + after;
    OccurrencesAppend(before, after, pattern);
  }

  /** `finalizeGestureSave`: a pattern that is already taken leaves the list
      as it is; otherwise the new gesture (which carries neither `enabled`
      nor `custom`) is appended. */
  function FinalizeGestureSave(motions: seq<Motion>, pattern: string, name: string, action: string): (r: seq<Motion>)
    ensures (exists j :: 0 <= j < |motions| && motions[j].pattern == pattern) ==> r == motions
    ensures (forall j :: 0 <= j < |motions| ==> motions[j].pattern != pattern) ==>
      r == motions + [Motion(pattern, Str(action), Str(name), false, false)]
  {
    if FindPattern(motions, pattern).Some? then motions
    else motions + [Motion(pattern, Str(action), Str(name), false, false)]
  }

  /** Finalizing never puts a second gesture on a pattern. */
  lemma FinalizeKeepsPatternUnique(motions: seq<Motion>, pattern: string, name: string, action: string)
    requires Occurrences(motions, pattern) <= 1
    ensures Occurrences(FinalizeGestureSave(motions, pattern, name, action), pattern) <= 1
    ensures Occurrences(FinalizeGestureSave(motions, pattern, name, action), pattern) >= 1
  {
    if FindPattern(motions, pattern).Some? {
      var i := FindPattern(motions, pattern).value;
      assert motions == motions[..i] + motions[i..];
      OccurrencesAppend(motions[..i], motions[i..], pattern);
      assert motions[i..][0].pattern == pattern;
    } else {
      OccurrencesOfFree(motions, pattern);
      OccurrencesAppend(motions, [Motion(pattern, Str(action), Str(name), false, false)], pattern);
    }
  }

  /** The position `indexOf` finds; records stand for the objects they describe. */
  function IndexOfMotion(motions: seq<Motion>, g: Motion): (r: Option<nat>)
    ensures r.Some? <==> g in motions
    ensures r.Some? ==> r.value < |motions| && motions[r.value] == g
    ensures r.Some? ==> forall j :: 0 <= j < r.value ==> motions[j] != g
  {
    if |motions| == 0 then None
    else if motions[0] == g then Some(0)
    else
      var r := IndexOfMotion(motions[1..], g);
      if r.Some? then Some(r.value + 1) else None
  }

  /** `deleteCustomGesture`: after confirmation, the gesture is removed if
      it is still in the list. */
  function DeleteCustomGesture(motions: seq<Motion>, g: Motion, confirmed: bool): (r: seq<Motion>)
    ensures !confirmed || g !in motions ==> r == motions
    ensures confirmed && g in motions ==>
      |r| == |motions| - 1 && multiset(r) + multiset{g} == multiset(motions)
    ensures confirmed && g in motions ==>
      var i := IndexOfMotion(motions, g).value;
      g !in motions[..i] && r == motions[..i] + motions[i + 1..]
  {
    if !confirmed then motions
    else
      var index := IndexOfMotion(motions, g);
      if index.None? then motions else RemoveAt(motions, index.value)
  }

  /** Saving a custom gesture and then deleting it restores the list when
      its pattern was new. */
  lemma SaveThenDelete(motions: seq<Motion>, pattern: string, name: string, action: string)
    requires pattern != "" && name != "" && action != ""
    requires FindPattern(motions, pattern).None?
    ensures var saved := SaveCustomGesture(motions, Some(pattern), name, action, false);
      saved.1 == Saved &&
      DeleteCustomGesture(saved.0, Motion(pattern, Str(action), Str(name), true, true), true) == motions
  {
    var g := Motion(pattern, Str(action), Str(name), true, true);
    var saved := motions + [g];
    assert forall j :: 0 <= j < |motions| ==> motions[j] != g;
    assert IndexOfMotion(saved, g) == Some(|motions|) by {
      IndexAfterAbsent(motions, g);
    }
    assert saved[..|motions|] == motions;
  }

  lemma {:induction false} IndexAfterAbsent(motions: seq<Motion>, g: Motion)
    requires g !in motions
    ensures IndexOfMotion(motions + [g], g) == Some(|motions|)
    decreases |motions|
  {
    if |motions| == 0 {
      assert motions + [g] == [g];
    } else {
      assert (motions + [g])[1..] == motions[1..] + [g];
      IndexAfterAbsent(motions[1..], g);
    }
  }
}

=== FILE: path_renderer.dfy ===
/** The gesture trail of `PathRenderer`: a buffer of trail points with
    linear interpolation on append, a per-frame alpha decay that ends in
    `destroy`, and the create/destroy lifecycle of its canvas. Drawing is
    left out; alpha is kept in integer hundredths (100 is fully opaque). */
module PathRenderer {
  import opened Common

  /** `config.fadeStep` (0.02) in hundredths. */
  const FadeStep: int := 2

  /** The alpha of a fresh point (1.0). */
  const FullAlpha: int := 100

  /** A trail point; `timestamp` is the `Date.now()` of its creation. */
  datatype TrailPoint = TrailPoint(x: real, y: real, timestamp: int, alpha: int)

  datatype Size = Size(width: real, height: real)

  /** The renderer's state. `canvas` is the canvas element with its size,
      `hasContext` whether a 2-D context was obtained, and `framePending`
      whether a fade frame has been requested and not yet run. */
  datatype Renderer = Renderer(
    canvas: Option<Size>,
    hasContext: bool,
    isActive: bool,
    points: seq<TrailPoint>,
    framePending: bool)

  /** The consistency the operations keep: only a renderer with a canvas
      and a context is active, and only an active one waits for a frame. */
  predicate Valid(r: Renderer) {
    (r.isActive ==> r.canvas.Some? && r.hasContext) && (r.framePending ==> r.isActive)
  }

  /** The state the constructor sets up. */
  const Initial: Renderer := Renderer(None, false, false, [], false)

  /** The size a fresh canvas element has before it is sized (the HTML default). */
  const DefaultCanvasSize: Size := Size(300.0, 150.0)

  // ---------------------------------------------------------------------
  // Lifecycle

  /** `destroy`: inactive, no canvas, no context, no points, no pending
      frame. */
  function Destroy(r: Renderer): (d: Renderer)
    ensures !d.isActive && d.canvas.None? && !d.hasContext && d.points == [] && !d.framePending
  {
    Renderer(None, false, false, [], false)
  }

  /** Destroying twice is the same as destroying once, and what `destroy`
      leaves behind does not depend on the state it started from. */
  lemma DestroyIdempotent(r: Renderer, s: Renderer)
    ensures Destroy(Destroy(r)) == Destroy(r)
    ensures Destroy(r) == Destroy(s)
    ensures Destroy(r) == Initial
  {
  }

  /** `create`. `hasBody` says whether `document.body` exists, `contextAvailable`
      whether `getContext('2d')` succeeds, and `viewport` is the visible
      viewport size the canvas takes. The boolean is the method's return
      value. */
  function Create(r: Renderer, hasBody: bool, contextAvailable: bool, viewport: Size): (result: (Renderer, bool))
    ensures result.1 <==> hasBody && contextAvailable
    ensures result.1 ==> result.0 == Renderer(Some(viewport), true, true, [], false)
    ensures hasBody && !contextAvailable ==>
      result.0 == Renderer(Some(DefaultCanvasSize), false, false, [], false)
    ensures !hasBody && r.canvas.Some? ==> result.0 == Initial
    ensures !hasBody && r.canvas.None? ==> result.0 == r
    ensures Valid(r) ==> Valid(result.0)
  {
    var cleaned := if r.canvas.Some? then Destroy(r) else r;
    if !hasBody then (cleaned, false)
    else
      var reset := cleaned.(points := [], isActive := false, framePending := false);
      if !contextAvailable then
        // `_createCanvas` throws after the element exists but before it is sized
        (reset.(canvas := Some(DefaultCanvasSize), hasContext := false), false)
      else
        (reset.(canvas := Some(viewport), hasContext := true, isActive := true), true)
  }

  /** `clear`: the trail is emptied, nothing else changes. */
  function Clear(r: Renderer): (c: Renderer)
    ensures c.points == []
    ensures c.(points := r.points) == r
  {
    r.(points := [])
  }

  datatype Status = Status(isActive: bool, pointCount: nat, canvasSize: Option<Size>)

  /** `getStatus`, without the copy of the drawing configuration. */
  function GetStatus(r: Renderer): (s: Status)
    ensures s.pointCount == |r.points| && s.isActive == r.isActive && s.canvasSize == r.canvas
  {
    Status(r.isActive, |r.points|, r.canvas)
  }

  /** After `destroy` the status reports an idle renderer without a canvas. */
  lemma StatusAfterDestroy(r: Renderer)
    ensures GetStatus(Destroy(r)) == Status(false, 0, None)
  {
  }

  // ---------------------------------------------------------------------
  // Appending points

  /** The integer square root, `Math.floor(Math.sqrt(n))`. */
  function Isqrt(n: nat): (s: nat)
    ensures s * s <= n < (s + 1) * (s + 1)
  {
    IsqrtFrom(n, 0)
  }

  function IsqrtFrom(n: nat, s: nat): (t: nat)
    requires s * s <= n
    ensures t * t <= n < (t + 1) * (t + 1)
    decreases n - s
  {
    if (s + 1) * (s + 1) > n then s
    else
      assert s < n by {
        assert s <= s * s || s == 0;
        assert (s + 1) * (s + 1) == s * s + 2 * s + 1;
      }
      IsqrtFrom(n, s + 1)
  }

  lemma Square(a: real)
    ensures a * a >= 0.0
  {
    if a > 0.0 {
      PositiveProduct(a, a);
    } else if a < 0.0 {
      PositiveProduct(-a, -a);
    }
  }

  function SquaredDistance(x1: real, y1: real, x2: real, y2: real): (d: real)
    ensures d >= 0.0
  {
    Square(x1 - x2);
    Square(y1 - y2);
    (x1 - x2) * (x1 - x2) + (y1 - y2) * (y1 - y2)
  }

  /** `Math.floor(distance / 5)` for a distance whose square is `d2`. */
  function StepCount(d2: real): (steps: nat)
    requires d2 >= 0.0
  {
    Isqrt(d2.Floor) / 5
  }

  /** `steps` is the largest whole number of 5-pixel steps that fits in the
      distance; above the 10-pixel threshold there are at least two. */
  lemma StepCountBounds(d2: real)
    requires d2 >= 0.0
    ensures 25 * StepCount(d2) * StepCount(d2) <= d2.Floor
    ensures d2.Floor < 25 * (StepCount(d2) + 1) * (StepCount(d2) + 1)
    ensures d2 > 100.0 ==> StepCount(d2) >= 2
  {
    var n := d2.Floor;
    var r := Isqrt(n);
    var s := r / 5;
    assert 5 * s <= r < 5 * s + 5;
    MonotoneSquare(5 * s, r);
    MonotoneSquare(r + 1, 5 * s + 5);
    if d2 > 100.0 {
      assert n >= 100;
      if r < 10 {
        MonotoneSquare(r + 1, 10);
        assert false;
      }
    }
  }

  lemma MonotoneSquare(a: nat, b: nat)
    requires a <= b
    ensures a * a <= b * b
  {
    assert a * a <= a * b <= b * b;
  }

  /** The points `_addInterpolatedPoints` pushes between the last point and
      a new point at `(x, y)`: none within 10 pixels; otherwise `steps - 1`
      points at the fractions `i / steps` of the segment. */
  function Interpolated(last: TrailPoint, x: real, y: real, now: int): (ps: seq<TrailPoint>)
    ensures SquaredDistance(x, y, last.x, last.y) <= 100.0 ==> ps == []
    ensures SquaredDistance(x, y, last.x, last.y) > 100.0 ==>
      |ps| + 1 == StepCount(SquaredDistance(x, y, last.x, last.y)) && |ps| >= 1
    ensures forall i :: 0 <= i < |ps| ==> ps[i].alpha == FullAlpha && ps[i].timestamp == now
  {
    var d2 := SquaredDistance(x, y, last.x, last.y);
    if d2 <= 100.0 then []
    else
      var steps := StepCount(d2);
      StepCountBounds(d2);
      seq(steps - 1, i requires 0 <= i < steps - 1 =>
        var ratio := ((i + 1) as real) / (steps as real);
        TrailPoint(last.x + (x - last.x) * ratio, last.y + (y - last.y) * ratio, now, FullAlpha))
  }

  /** Every interpolated point lies on the segment from the last point to
      the new one. */
  lemma InterpolatedOnSegment(last: TrailPoint, x: real, y: real, now: int, i: nat)
    requires i < |Interpolated(last, x, y, now)|
    ensures Between(Interpolated(last, x, y, now)[i].x, last.x, x)
    ensures Between(Interpolated(last, x, y, now)[i].y, last.y, y)
  {
    var ps := Interpolated(last, x, y, now);
    var d2 := SquaredDistance(x, y, last.x, last.y);
    assert d2 > 100.0;
    var steps := StepCount(d2);
    assert i + 1 < steps;
    var ratio := ((i + 1) as real) / (steps as real);
    assert ps[i] == TrailPoint(last.x + (x - last.x) * ratio, last.y + (y - last.y) * ratio, now, FullAlpha);
    Ratio(i + 1, steps);
    ScaledBetween(last.x, x, ratio);
    ScaledBetween(last.y, y, ratio);
  }

  predicate Between(v: real, a: real, b: real) {
    (a <= v <= b) || (b <= v <= a)
  }

  lemma ScaledBetween(a: real, b: real, q: real)
    requires 0.0 <= q <= 1.0
    ensures Between(a + (b - a) * q, a, b)
  {
    if b > a {
      NonNegativeProduct(q, b - a);
      NonNegativeProduct(1.0 - q, b - a);
      assert (b - a) * q + (1.0 - q) * (b - a) == b - a;
    } else if b < a {
      NonNegativeProduct(q, a - b);
      NonNegativeProduct(1.0 - q, a - b);
      assert (a - b) * q + (1.0 - q) * (a - b) == a - b;
      assert (b - a) * q == -((a - b) * q);
    }
  }

  /** `addPoint(x, y)` at time `now`: a no-op unless the renderer is active
      with a context; otherwise the interpolated points and then the new,
      fully opaque point are appended. Rendering is a no-op here. */
  function AddPoint(r: Renderer, x: real, y: real, now: int): (a: Renderer)
    ensures !r.isActive || !r.hasContext ==> a == r
    ensures r.isActive && r.hasContext ==>
      a.(points := r.points) == r &&
      |a.points| > |r.points| &&
      a.points[..|r.points|] == r.points &&
      a.points[|a.points| - 1] == TrailPoint(x, y, now, FullAlpha)
    ensures r.isActive && r.hasContext && r.points == [] ==> a.points == [TrailPoint(x, y, now, FullAlpha)]
  {
    if !r.isActive || !r.hasContext then r
    else
      var point := TrailPoint(x, y, now, FullAlpha);
      var extra := if |r.points| == 0 then [] else Interpolated(r.points[|r.points| - 1], x, y, now);
      r.(points := r.points + extra + [point])
  }

  /** The number of points added: one, plus `⌊d/5⌋ - 1` when the trail was
      non-empty and the new point is more than 10 pixels from its end. */
  lemma AddPointCount(r: Renderer, x: real, y: real, now: int)
    requires r.isActive && r.hasContext && r.points != []
    ensures var last := r.points[|r.points| - 1];
      var d2 := SquaredDistance(x, y, last.x, last.y);
      |AddPoint(r, x, y, now).points| == |r.points| + (if d2 > 100.0 then StepCount(d2) else 1)
  {
  }

  // ---------------------------------------------------------------------
  // Fading

  /** Every point's alpha lowered by one fade step. */
  function Decay(points: seq<TrailPoint>): (d: seq<TrailPoint>)
    ensures |d| == |points|
    ensures forall i :: 0 <= i < |d| ==> d[i] == points[i].(alpha := points[i].alpha - FadeStep)
  {
    seq(|points|, i requires 0 <= i < |points| => points[i].(alpha := points[i].alpha - FadeStep))
  }

  predicate HasVisiblePoint(points: seq<TrailPoint>) {
    exists i :: 0 <= i < |points| && points[i].alpha > 0
  }

  /** `_fadeStep`: no-op without a context or when inactive; otherwise every
      alpha drops by one step, and the fade continues (a frame is requested)
      while some point is visible and at least two remain, else the
      renderer is destroyed. */
  function FadeOnce(r: Renderer): (f: Renderer)
    ensures !r.hasContext || !r.isActive ==> f == r
    ensures r.hasContext && r.isActive ==>
      (f.isActive <==> HasVisiblePoint(Decay(r.points)) && |r.points| >= 2)
    ensures r.hasContext && r.isActive && f.isActive ==>
      f == r.(points := Decay(r.points), framePending := true)
    ensures r.hasContext && r.isActive && !f.isActive ==> f == Destroy(r)
  {
    if !r.hasContext || !r.isActive then r
    else
      var faded := Decay(r.points);
      if HasVisiblePoint(faded) && |faded| >= 2 then r.(points := faded, framePending := true)
      else Destroy(r)
  }

  /** `startFadeOut`: a no-op on an inactive renderer, otherwise the first
      fade step. */
  function StartFadeOut(r: Renderer): (f: Renderer)
    ensures !r.isActive ==> f == r
    ensures r.isActive ==> f == FadeOnce(r)
  {
    if !r.isActive then r else FadeOnce(r)
  }

  /** An animation frame: runs the requested fade step, if any. */
  function FrameTick(r: Renderer): Renderer {
    if r.framePending then FadeOnce(r.(framePending := false)) else r
  }

  function Ticks(r: Renderer, n: nat): Renderer
    decreases n
  {
    if n == 0 then r else Ticks(FrameTick(r), n - 1)
  }

  /** Every operation keeps a consistent renderer consistent. */
  lemma OperationsKeepValid(r: Renderer, x: real, y: real, now: int)
    requires Valid(r)
    ensures Valid(AddPoint(r, x, y, now)) && Valid(Clear(r)) && Valid(Destroy(r))
    ensures Valid(StartFadeOut(r)) && Valid(FrameTick(r))
  {
  }

  predicate AlphasAtMost(points: seq<TrailPoint>, bound: int) {
    forall i :: 0 <= i < |points| ==> points[i].alpha <= bound
  }

  /** Frames never revive an inactive renderer. */
  lemma {:induction false} InactiveStaysInactive(r: Renderer, n: nat)
    requires !r.isActive
    ensures !Ticks(r, n).isActive
    decreases n
  {
    if n > 0 {
      InactiveStaysInactive(FrameTick(r), n - 1);
    }
  }

  /** A fade that starts with every alpha at most `2 * (k + 1)` has destroyed
      the renderer after its first step and `k` further frames. */
  lemma {:induction false} FadeEnds(r: Renderer, k: nat)
    requires Valid(r)
    requires AlphasAtMost(r.points, FadeStep * (k + 1))
    ensures !Ticks(FadeOnce(r), k).isActive
    decreases k
  {
    var f := FadeOnce(r);
    if !f.isActive {
      InactiveStaysInactive(f, k);
    } else if k == 0 {
      assert false;
    } else {
      assert f.points == Decay(r.points);
      assert AlphasAtMost(f.points, FadeStep * k);
      assert FrameTick(f) == FadeOnce(f.(framePending := false));
      FadeEnds(f.(framePending := false), k - 1);
    }
  }

  /** From fully opaque points the fade has ended after `startFadeOut` and 49
      frames, whatever the number of points. */
  lemma FadeOutTerminates(r: Renderer)
    requires Valid(r)
    requires AlphasAtMost(r.points, FullAlpha)
    ensures !Ticks(StartFadeOut(r), 49).isActive
  {
    if r.isActive {
      FadeEnds(r, 49);
    } else {
      InactiveStaysInactive(r, 49);
    }
  }

  /** Conversely, while a point is still above the steps taken so far and
      two points remain, the fade keeps going. */
  lemma {:induction false} FadeContinues(r: Renderer, k: nat)
    requires r.isActive && r.hasContext && |r.points| >= 2
    requires exists i :: 0 <= i < |r.points| && r.points[i].alpha > FadeStep * (k + 1)
    ensures Ticks(FadeOnce(r), k).isActive
    ensures |Ticks(FadeOnce(r), k).points| == |r.points|
    decreases k
  {
    var i :| 0 <= i < |r.points| && r.points[i].alpha > FadeStep * (k + 1);
    var f := FadeOnce(r);
    assert Decay(r.points)[i].alpha > 0;
    if k > 0 {
      assert f.points[i].alpha > FadeStep * k;
      assert FrameTick(f) == FadeOnce(f.(framePending := false));
      FadeContinues(f.(framePending := false), k - 1);
    }
  }

  /** A trail of at least two points with a fully opaque one fades for
      exactly 50 steps: still visible after `startFadeOut` and 48 frames,
      destroyed after 49. */
  lemma OpaqueTrailFadesInFiftySteps(r: Renderer)
    requires Valid(r) && r.isActive && |r.points| >= 2
    requires AlphasAtMost(r.points, FullAlpha)
    requires exists i :: 0 <= i < |r.points| && r.points[i].alpha == FullAlpha
    ensures Ticks(StartFadeOut(r), 48).isActive
    ensures !Ticks(StartFadeOut(r), 49).isActive
  {
    FadeContinues(r, 48);
    FadeOutTerminates(r);
  }
}

=== FILE: pattern_analyzer.dfy ===
/** The batch path-to-pattern recogniser and its companions
    (`PatternAnalyzer`): direction extraction by strided sampling, the
    four-sector angle classification, run-length cleaning, edit distance,
    similarity, pattern validation, descriptions and statistics. */
module PatternAnalyzer {
  import opened Common
  import opened Directions
  import Coordinates

  /** `CONFIG` */
  const MinDistance: int := 30
  const MinPathLength: nat := 5
  const SampleRateFactor: nat := 20
  const DirectionThreshold: nat := 1

  datatype PathPoint = PathPoint(x: int, y: int)

  /** The `pathData` argument: something that is not an array, or an array of points. */
  datatype PathData = NotAnArray | Points(points: seq<PathPoint>)

  /** The two `CONFIG` entries an `options` object can override in
      `analyzePattern`; the length floor and the cleaning threshold are
      always read from the class constants. */
  datatype Config = Config(minDistance: int, sampleRateFactor: nat)

  const DefaultConfig: Config := Config(MinDistance, SampleRateFactor)

  // ---------------------------------------------------------------------
  // Angles

  /** `angleToDirection` on an angle in degrees: four half-open sectors. */
  function AngleToDirection(degrees: real): (c: char)
    ensures IsDirection(c)
    ensures c == 'R' <==> -45.0 <= degrees < 45.0
    ensures c == 'D' <==> 45.0 <= degrees < 135.0
    ensures c == 'L' <==> degrees >= 135.0 || degrees < -135.0
    ensures c == 'U' <==> -135.0 <= degrees < -45.0
  {
    if degrees >= -45.0 && degrees < 45.0 then 'R'
    else if degrees >= 45.0 && degrees < 135.0 then 'D'
    else if degrees >= 135.0 || degrees < -135.0 then 'L'
    else 'U'
  }

  function Fraction(a: int, s: int): real
    requires 0 <= a <= s && s > 0
  {
    (a as real) / (s as real)
  }

  /** The angle of the displacement `(dx, dy)` in "diamond degrees": a
      piecewise-linear stand-in for `atan2(dy, dx) * 180 / PI` in (-180, 180].
      It is strictly increasing in the true angle and coincides with it at
      every multiple of 45 degrees, so each of the four half-open sectors of
      `AngleToDirection` contains exactly the same displacements for both. */
  function DiamondDegrees(dx: int, dy: int): real
  {
    if dx == 0 && dy == 0 then 0.0
    else if dy >= 0 && dx > 0 then 90.0 * Fraction(dy, dx + dy)
    else if dy > 0 then 90.0 + 90.0 * Fraction(-dx, dy - dx)
    else if dy == 0 then 180.0
    else if dx < 0 then -180.0 + 90.0 * Fraction(-dy, -dx - dy)
    else -90.0 + 90.0 * Fraction(dx, dx - dy)
  }

  /** At the eight compass points (at any distance) the diamond angle is the
      true angle. */
  lemma DiamondDegreesAtCompassPoints(k: int)
    requires k > 0
    ensures DiamondDegrees(k, 0) == 0.0 && DiamondDegrees(k, k) == 45.0
    ensures DiamondDegrees(0, k) == 90.0 && DiamondDegrees(-k, k) == 135.0
    ensures DiamondDegrees(-k, 0) == 180.0 && DiamondDegrees(-k, -k) == -135.0
    ensures DiamondDegrees(0, -k) == -90.0 && DiamondDegrees(k, -k) == -45.0
  {
    Ratio(k, 2 * k);
    Ratio(0, k);
  }

  /** The direction of a displacement (atan2(0, 0) is 0, so no movement reads as right). */
  function SegmentDirection(dx: int, dy: int): char {
    AngleToDirection(DiamondDegrees(dx, dy))
  }

  /** The four sectors written as exact comparisons on the displacement:
      right and left own the diagonals below the horizontal axis' bisectors
      as `atan2` does, i.e. (1,1) is down, (-1,1) left, (-1,-1) up, (1,-1) right. */
  lemma SegmentDirectionSectors(dx: int, dy: int)
    ensures SegmentDirection(dx, dy) == 'R' <==> (dx == 0 && dy == 0) || (dx > 0 && -dx <= dy < dx)
    ensures SegmentDirection(dx, dy) == 'D' <==> dy > 0 && -dy < dx <= dy
    ensures SegmentDirection(dx, dy) == 'L' <==> dx < 0 && dx < dy <= -dx
    ensures SegmentDirection(dx, dy) == 'U' <==> dy < 0 && dy <= dx < -dy
  {
    if dx == 0 && dy == 0 {
    } else if dy >= 0 && dx > 0 {
      Ratio(dy, dx + dy);
    } else if dy > 0 {
      Ratio(-dx, dy - dx);
    } else if dy == 0 {
    } else if dx < 0 {
      Ratio(-dy, -dx - dy);
    } else {
      Ratio(dx, dx - dy);
    }
  }

  // ---------------------------------------------------------------------
  // Direction extraction

  /** `Math.max(1, Math.floor(n / SAMPLE_RATE_FACTOR))`; a factor of 0 makes
      the stride infinite, written `None`. */
  function SampleRate(n: nat, factor: nat): (s: Option<nat>)
    ensures s.None? <==> factor == 0
    ensures s.Some? ==> s.value >= 1
    ensures s.Some? && n >= factor ==> s.value * factor <= n < (s.value + 1) * factor
    ensures s.Some? && n < factor ==> s.value == 1
  {
    if factor == 0 then None
    else if n / factor >= 1 then Some(n / factor)
    else Some(1)
  }

  /** `distance < MIN_DISTANCE`, on squares. */
  predicate IsNoise(distanceSquared: nat, minDistance: int) {
    minDistance > 0 && distanceSquared < minDistance * minDistance
  }

  function SegmentLengthSquared(p: PathPoint, q: PathPoint): nat {
    Coordinates.DistanceSquared(p.x, p.y, q.x, q.y)
  }

  /** Reference: the directions of all sampled segments from index `i` on
      that are not noise, in order, before any de-duplication. */
  function SampledDirections(path: seq<PathPoint>, stride: nat, minDistance: int, i: nat): seq<char>
    requires stride >= 1
    decreases |path| - i
  {
    if i + stride >= |path| then []
    else
      var p, q := path[i], path[i + stride];
      (if IsNoise(SegmentLengthSquared(p, q), minDistance) then [] else [SegmentDirection(q.x - p.x, q.y - p.y)])
      + SampledDirections(path, stride, minDistance, i + stride)
  }

  /** The loop of `extractDirections`: step by the stride, skip noise, and
      push a direction only when it differs from the last one pushed. */
  function ExtractLoop(path: seq<PathPoint>, stride: nat, minDistance: int, i: nat,
                       last: Option<char>, acc: seq<char>): seq<char>
    requires stride >= 1
    decreases |path| - i
  {
    if i + stride >= |path| then acc
    else
      var p, q := path[i], path[i + stride];
      if IsNoise(SegmentLengthSquared(p, q), minDistance) then
        ExtractLoop(path, stride, minDistance, i + stride, last, acc)
      else
        var d := SegmentDirection(q.x - p.x, q.y - p.y);
        if last != Some(d) then ExtractLoop(path, stride, minDistance, i + stride, Some(d), acc + [d])
        else ExtractLoop(path, stride, minDistance, i + stride, last, acc)
  }

  /** The collapse of `xs` as continued after an already emitted `last`. */
  function CollapseAfter(last: Option<char>, xs: seq<char>): seq<char> {
    if last.None? then Collapse(xs)
    else
      CollapseShape([last.value] + xs);
      Collapse([last.value] + xs)[1..]
  }

  /** Emitting a new direction `d` after `last`. */
  lemma CollapseAfterNew(last: Option<char>, d: char, rest: seq<char>)
    requires last != Some(d)
    ensures CollapseAfter(last, [d] + rest) == [d] + CollapseAfter(Some(d), rest)
  {
    CollapseShape([d] + rest);
    if last.Some? {
      var c := last.value;
      assert ([c] + ([d] + rest))[1..] == [d] + rest;
    }
  }

  /** Repeating the direction `d` that was emitted last adds nothing. */
  lemma CollapseAfterRepeat(d: char, rest: seq<char>)
    ensures CollapseAfter(Some(d), [d] + rest) == CollapseAfter(Some(d), rest)
  {
    assert ([d] + ([d] + rest))[1..] == [d] + rest;
  }

  lemma {:induction false} ExtractLoopIsCollapse(path: seq<PathPoint>, stride: nat, minDistance: int, i: nat,
                                                 last: Option<char>, acc: seq<char>)
    requires stride >= 1
    ensures ExtractLoop(path, stride, minDistance, i, last, acc) ==
            acc + CollapseAfter(last, SampledDirections(path, stride, minDistance, i))
    decreases |path| - i, 2
  {
    if i + stride < |path| {
      if IsNoise(SegmentLengthSquared(path[i], path[i + stride]), minDistance) {
        ExtractNoiseCase(path, stride, minDistance, i, last, acc);
      } else {
        ExtractDirectionCase(path, stride, minDistance, i, last, acc);
      }
    } else {
      ExtractEndStep(path, stride, minDistance, i, last, acc);
      CollapseAfterEmpty(last);
    }
  }

  /** The induction step over a noisy segment. */
  lemma ExtractNoiseCase(path: seq<PathPoint>, stride: nat, minDistance: int, i: nat,
                         last: Option<char>, acc: seq<char>)
    requires stride >= 1 && i + stride < |path|
    requires IsNoise(SegmentLengthSquared(path[i], path[i + stride]), minDistance)
    ensures ExtractLoop(path, stride, minDistance, i, last, acc) ==
            acc + CollapseAfter(last, SampledDirections(path, stride, minDistance, i))
    decreases |path| - i, 0
  {
    ExtractLoopIsCollapse(path, stride, minDistance, i + stride, last, acc);
    ExtractNoiseStep(path, stride, minDistance, i, last, acc);
  }

  /** The induction step over a segment that yields a direction. */
  lemma ExtractDirectionCase(path: seq<PathPoint>, stride: nat, minDistance: int, i: nat,
                             last: Option<char>, acc: seq<char>)
    requires stride >= 1 && i + stride < |path|
    requires !IsNoise(SegmentLengthSquared(path[i], path[i + stride]), minDistance)
    ensures ExtractLoop(path, stride, minDistance, i, last, acc) ==
            acc + CollapseAfter(last, SampledDirections(path, stride, minDistance, i))
    decreases |path| - i, 1
  {
    var d := SegmentDirection(path[i + stride].x - path[i].x, path[i + stride].y - path[i].y);
    if last != Some(d) {
      ExtractNewDirectionCase(path, stride, minDistance, i, last, acc, d);
    } else {
      ExtractRepeatedDirectionCase(path, stride, minDistance, i, acc, d);
    }
  }

  /** The induction step over a segment whose direction `d` is pushed. */
  lemma ExtractNewDirectionCase(path: seq<PathPoint>, stride: nat, minDistance: int, i: nat,
                                last: Option<char>, acc: seq<char>, d: char)
    requires stride >= 1 && i + stride < |path|
    requires !IsNoise(SegmentLengthSquared(path[i], path[i + stride]), minDistance)
    requires d == SegmentDirection(path[i + stride].x - path[i].x, path[i + stride].y - path[i].y)
    requires last != Some(d)
    ensures ExtractLoop(path, stride, minDistance, i, last, acc) ==
            acc + CollapseAfter(last, SampledDirections(path, stride, minDistance, i))
    decreases |path| - i, 0
  {
    var rest := SampledDirections(path, stride, minDistance, i + stride);
    ExtractDirectionStep(path, stride, minDistance, i, last, acc);
    ExtractLoopIsCollapse(path, stride, minDistance, i + stride, Some(d), acc + [d]);
    PushNew(ExtractLoop(path, stride, minDistance, i, last, acc), last, d, acc, rest);
  }

  /** The induction step over a segment that repeats the last direction `d`. */
  lemma ExtractRepeatedDirectionCase(path: seq<PathPoint>, stride: nat, minDistance: int, i: nat,
                                     acc: seq<char>, d: char)
    requires stride >= 1 && i + stride < |path|
    requires !IsNoise(SegmentLengthSquared(path[i], path[i + stride]), minDistance)
    requires d == SegmentDirection(path[i + stride].x - path[i].x, path[i + stride].y - path[i].y)
    ensures ExtractLoop(path, stride, minDistance, i, Some(d), acc) ==
            acc + CollapseAfter(Some(d), SampledDirections(path, stride, minDistance, i))
    decreases |path| - i, 0
  {
    var rest := SampledDirections(path, stride, minDistance, i + stride);
    ExtractDirectionStep(path, stride, minDistance, i, Some(d), acc);
    ExtractLoopIsCollapse(path, stride, minDistance, i + stride, Some(d), acc);
    CollapseAfterRepeat(d, rest);
  }

  /** The loop's result after pushing a new direction `d` is the collapse
      continued after `last`. */
  lemma PushNew(r: seq<char>, last: Option<char>, d: char, acc: seq<char>, rest: seq<char>)
    requires last != Some(d)
    requires r == (acc + [d]) + CollapseAfter(Some(d), rest)
    ensures r == acc + CollapseAfter(last, [d] + rest)
  {
    CollapseAfterNew(last, d, rest);
    var tail := CollapseAfter(Some(d), rest);
    assert (acc + [d]) + tail == acc + ([d] + tail);
  }

  /** A noisy segment is skipped by the loop and by the sampling. */
  lemma ExtractNoiseStep(path: seq<PathPoint>, stride: nat, minDistance: int, i: nat,
                         last: Option<char>, acc: seq<char>)
    requires stride >= 1 && i + stride < |path|
    requires IsNoise(SegmentLengthSquared(path[i], path[i + stride]), minDistance)
    ensures ExtractLoop(path, stride, minDistance, i, last, acc) ==
            ExtractLoop(path, stride, minDistance, i + stride, last, acc)
    ensures SampledDirections(path, stride, minDistance, i) == SampledDirections(path, stride, minDistance, i + stride)
  {
    assert [] + SampledDirections(path, stride, minDistance, i + stride) ==
           SampledDirections(path, stride, minDistance, i + stride);
  }

  /** A segment long enough is sampled as its direction, which the loop
      pushes unless it repeats the last one. */
  lemma ExtractDirectionStep(path: seq<PathPoint>, stride: nat, minDistance: int, i: nat,
                             last: Option<char>, acc: seq<char>)
    requires stride >= 1 && i + stride < |path|
    requires !IsNoise(SegmentLengthSquared(path[i], path[i + stride]), minDistance)
    ensures var d := SegmentDirection(path[i + stride].x - path[i].x, path[i + stride].y - path[i].y);
      SampledDirections(path, stride, minDistance, i) == [d] + SampledDirections(path, stride, minDistance, i + stride) &&
      (last != Some(d) ==> ExtractLoop(path, stride, minDistance, i, last, acc) ==
                           ExtractLoop(path, stride, minDistance, i + stride, Some(d), acc + [d])) &&
      (last == Some(d) ==> ExtractLoop(path, stride, minDistance, i, last, acc) ==
                           ExtractLoop(path, stride, minDistance, i + stride, last, acc))
  {
  }

  /** At the end of the path the loop returns what it has pushed. */
  lemma ExtractEndStep(path: seq<PathPoint>, stride: nat, minDistance: int, i: nat,
                       last: Option<char>, acc: seq<char>)
    requires stride >= 1 && i + stride >= |path|
    ensures ExtractLoop(path, stride, minDistance, i, last, acc) == acc
    ensures SampledDirections(path, stride, minDistance, i) == []
  {
  }

  /** Nothing more to collapse adds nothing. */
  lemma CollapseAfterEmpty(last: Option<char>)
    ensures CollapseAfter(last, []) == []
  {
    if last.Some? {
      assert [last.value] + [] == [last.value];
    }
  }

  /** `extractDirections` */
  function ExtractDirections(path: seq<PathPoint>, config: Config): (r: seq<char>)
    ensures IsGesturePattern(r)
    ensures config.sampleRateFactor == 0 ==> r == []
    ensures config.sampleRateFactor > 0 ==>
      r == Collapse(SampledDirections(path, SampleRate(|path|, config.sampleRateFactor).value, config.minDistance, 0))
  {
    var rate := SampleRate(|path|, config.sampleRateFactor);
    if rate.None? then []
    else
      var sampled := SampledDirections(path, rate.value, config.minDistance, 0);
      ExtractLoopIsCollapse(path, rate.value, config.minDistance, 0, None, []);
      SampledAreDirections(path, rate.value, config.minDistance, 0);
      CollapseIsGesturePattern(sampled);
      ExtractLoop(path, rate.value, config.minDistance, 0, None, [])
  }

  lemma {:induction false} SampledAreDirections(path: seq<PathPoint>, stride: nat, minDistance: int, i: nat)
    requires stride >= 1
    ensures AllIn(SampledDirections(path, stride, minDistance, i), DirectionChars)
    decreases |path| - i
  {
    if i + stride < |path| {
      SampledAreDirections(path, stride, minDistance, i + stride);
    }
  }

  // ---------------------------------------------------------------------
  // Cleaning

  /** The loop of `cleanDirections`: count the current run and emit its
      direction when the run ends, if the count reaches the threshold. */
  function CleanLoop(dirs: seq<char>, i: nat, current: char, count: nat, cleaned: seq<char>): seq<char>
    requires i <= |dirs|
    decreases |dirs| - i
  {
    if i == |dirs| then
      if count >= DirectionThreshold then cleaned + [current] else cleaned
    else if dirs[i] == current then
      CleanLoop(dirs, i + 1, current, count + 1, cleaned)
    else
      CleanLoop(dirs, i + 1, dirs[i], 1, if count >= DirectionThreshold then cleaned + [current] else cleaned)
  }

  lemma {:induction false} CleanLoopIsCollapse(dirs: seq<char>, i: nat, current: char, count: nat, cleaned: seq<char>)
    requires i <= |dirs| && count >= 1
    ensures CleanLoop(dirs, i, current, count, cleaned) == cleaned + Collapse([current] + dirs[i..])
    decreases |dirs| - i
  {
    if i < |dirs| {
      assert [current] + dirs[i..] == [current, dirs[i]] + dirs[i + 1..];
      assert ([current] + dirs[i..])[1..] == dirs[i..];
      if dirs[i] == current {
        CleanLoopIsCollapse(dirs, i + 1, current, count + 1, cleaned);
        assert dirs[i..] == [current] + dirs[i + 1..];
      } else {
        CleanLoopIsCollapse(dirs, i + 1, dirs[i], 1, cleaned + [current]);
        assert dirs[i..] == [dirs[i]] + dirs[i + 1..];
      }
    }
  }

  /** `cleanDirections`: with a threshold of 1 it is exactly the run-length collapse. */
  function CleanDirections(dirs: seq<char>): (r: seq<char>)
    ensures r == Collapse(dirs)
  {
    if |dirs| == 0 then []
    else
      CleanLoopIsCollapse(dirs, 1, dirs[0], 1, []);
      assert [dirs[0]] + dirs[1..] == dirs;
      CleanLoop(dirs, 1, dirs[0], 1, [])
  }

  /** Cleaning leaves no equal neighbours, is idempotent, and changes nothing
      in a sequence that already has no equal neighbours. */
  lemma CleanDirectionsProperties(dirs: seq<char>)
    ensures NoAdjacentDuplicates(CleanDirections(dirs))
    ensures CleanDirections(CleanDirections(dirs)) == CleanDirections(dirs)
    ensures NoAdjacentDuplicates(dirs) ==> CleanDirections(dirs) == dirs
  {
    CollapseShape(dirs);
    CollapseIdempotent(dirs);
    if NoAdjacentDuplicates(dirs) {
      CollapseOfDuplicateFree(dirs);
    }
  }

  // ---------------------------------------------------------------------
  // analyzePattern

  /** `analyzePattern`: `None` for a non-array or fewer than five points, or
      when no segment survives the noise floor; otherwise the cleaned
      direction string, which is never empty. */
  function AnalyzePattern(data: PathData, config: Config): (r: Option<string>)
    ensures data.NotAnArray? || |data.points| < MinPathLength ==> r.None?
    ensures r.Some? ==> |r.value| > 0 && IsGesturePattern(r.value)
    ensures data.Points? && |data.points| >= MinPathLength ==>
      (r.None? <==> ExtractDirections(data.points, config) == [])
  {
    if data.NotAnArray? || |data.points| < MinPathLength then None
    else
      var directions := ExtractDirections(data.points, config);
      if |directions| == 0 then None
      else
        var cleaned := CleanDirections(directions);
        CleanDirectionsProperties(directions);
        CollapseShape(directions);
        if |cleaned| > 0 then Some(cleaned) else None
  }

  /** The recogniser in one line: the collapse of the sampled, noise-free
      segment directions, or `None` when that is empty. */
  lemma AnalyzePatternIsCollapseOfSamples(points: seq<PathPoint>, config: Config)
    requires |points| >= MinPathLength && config.sampleRateFactor > 0
    ensures var c := Collapse(SampledDirections(points, SampleRate(|points|, config.sampleRateFactor).value,
                                                config.minDistance, 0));
      AnalyzePattern(Points(points), config) == if c == [] then None else Some(c)
  {
    var d := ExtractDirections(points, config);
    CleanDirectionsProperties(d);
  }

  /** A path whose points all lie within the noise floor of each other gives no pattern. */
  lemma {:induction false} ShortPathsAreNoise(points: seq<PathPoint>, config: Config)
    requires config.minDistance > 0
    requires forall i, j :: 0 <= i < |points| && 0 <= j < |points| ==>
      SegmentLengthSquared(points[i], points[j]) < config.minDistance * config.minDistance
    ensures AnalyzePattern(Points(points), config).None?
  {
    if |points| >= MinPathLength && config.sampleRateFactor > 0 {
      NoiseOnlySamples(points, SampleRate(|points|, config.sampleRateFactor).value, config.minDistance, 0);
    }
  }

  lemma {:induction false} NoiseOnlySamples(points: seq<PathPoint>, stride: nat, minDistance: int, i: nat)
    requires stride >= 1 && minDistance > 0
    requires forall a, b :: 0 <= a < |points| && 0 <= b < |points| ==>
      SegmentLengthSquared(points[a], points[b]) < minDistance * minDistance
    ensures SampledDirections(points, stride, minDistance, i) == []
    decreases |points| - i
  {
    if i + stride < |points| {
      NoiseOnlySamples(points, stride, minDistance, i + stride);
    }
  }

  /** A drag along a horizontal line towards the right yields at most "R". */
  lemma StraightRightDragIsR(points: seq<PathPoint>, config: Config)
    requires forall i, j :: 0 <= i < j < |points| ==> points[i].y == points[j].y && points[i].x <= points[j].x
    ensures AnalyzePattern(Points(points), config) in {None, Some("R")}
  {
    if |points| >= MinPathLength && config.sampleRateFactor > 0 {
      var stride := SampleRate(|points|, config.sampleRateFactor).value;
      var s := SampledDirections(points, stride, config.minDistance, 0);
      RightwardSamples(points, stride, config.minDistance, 0);
      CollapseOfConstant(s, 'R');
      AnalyzePatternIsCollapseOfSamples(points, config);
    }
  }

  lemma {:induction false} RightwardSamples(points: seq<PathPoint>, stride: nat, minDistance: int, i: nat)
    requires stride >= 1
    requires forall a, b :: 0 <= a < b < |points| ==> points[a].y == points[b].y && points[a].x <= points[b].x
    ensures forall k :: 0 <= k < |SampledDirections(points, stride, minDistance, i)| ==>
      SampledDirections(points, stride, minDistance, i)[k] == 'R'
    decreases |points| - i
  {
    if i + stride < |points| {
      var p, q := points[i], points[i + stride];
      SegmentDirectionSectors(q.x - p.x, q.y - p.y);
      RightwardSamples(points, stride, minDistance, i + stride);
    }
  }

  // ---------------------------------------------------------------------
  // Edit distance and similarity

  function Min3(a: nat, b: nat, c: nat): (m: nat)
    ensures m <= a && m <= b && m <= c && (m == a || m == b || m == c)
  {
    if a <= b && a <= c then a else if b <= c then b else c
  }

  /** Reference recurrence of the `levenshteinDistance` matrix: entry
      `[i][j]` is `EditDistance(str1[..j], str2[..i])`; equal last
      characters copy the diagonal, otherwise one plus the cheapest of
      substitution, insertion and deletion. */
  function EditDistance(s1: string, s2: string): nat
    decreases |s1| + |s2|
  {
    if |s2| == 0 then |s1|
    else if |s1| == 0 then |s2|
    else
      var a, b := s1[..|s1| - 1], s2[..|s2| - 1];
      if s2[|s2| - 1] == s1[|s1| - 1] then EditDistance(a, b)
      else Min3(EditDistance(a, b) + 1, EditDistance(a, s2) + 1, EditDistance(s1, b) + 1)
  }

  /** One cell of the matrix in terms of its three neighbours. */
  lemma EditDistanceCell(s1: string, s2: string, i: nat, j: nat)
    requires 1 <= i <= |s2| && 1 <= j <= |s1|
    ensures EditDistance(s1[..j], s2[..i]) ==
      if s2[i - 1] == s1[j - 1] then EditDistance(s1[..j - 1], s2[..i - 1])
      else Min3(EditDistance(s1[..j - 1], s2[..i - 1]) + 1,
                EditDistance(s1[..j - 1], s2[..i]) + 1,
                EditDistance(s1[..j], s2[..i - 1]) + 1)
  {
    assert s1[..j][..j - 1] == s1[..j - 1];
    assert s2[..i][..i - 1] == s2[..i - 1];
  }

  /** The first row and column of the matrix. */
  lemma EditDistanceBorders(s1: string, s2: string, i: nat, j: nat)
    requires i <= |s2| && j <= |s1|
    ensures EditDistance(s1[..j], s2[..0]) == j
    ensures EditDistance(s1[..0], s2[..i]) == i
  {
  }

  /** Row `i` of the matrix from row `i - 1`. */
  method NextRow(str1: string, str2: string, i: nat, prev: seq<nat>) returns (row: seq<nat>)
    requires 1 <= i <= |str2| && |prev| == |str1| + 1
    requires forall j :: 0 <= j <= |str1| ==> prev[j] == EditDistance(str1[..j], str2[..i - 1])
    ensures |row| == |str1| + 1
    ensures forall j :: 0 <= j <= |str1| ==> row[j] == EditDistance(str1[..j], str2[..i])
  {
    row := [i];
    EditDistanceBorders(str1, str2, i, 0);
    var j := 1;
    while j <= |str1|
      invariant 1 <= j <= |str1| + 1
      invariant |row| == j
      invariant forall k :: 0 <= k < j ==> row[k] == EditDistance(str1[..k], str2[..i])
    {
      EditDistanceCell(str1, str2, i, j);
      var v: nat;
      if str2[i - 1] == str1[j - 1] {
        v := prev[j - 1];
      } else {
        v := Min3(prev[j - 1] + 1, row[j - 1] + 1, prev[j] + 1);
      }
      row := row + [v];
      j := j + 1;
    }
  }

  /** `levenshteinDistance`, computed row by row as the source fills its matrix. */
  method LevenshteinDistance(str1: string, str2: string) returns (d: nat)
    ensures d == EditDistance(str1, str2)
  {
    var n1 := |str1|;
    var prev: seq<nat> := seq(n1 + 1, j => j);
    forall j | 0 <= j <= n1
      ensures prev[j] == EditDistance(str1[..j], str2[..0])
    {
      EditDistanceBorders(str1, str2, 0, j);
    }
    var i := 1;
    while i <= |str2|
      invariant 1 <= i <= |str2| + 1
      invariant |prev| == n1 + 1
      invariant forall j :: 0 <= j <= n1 ==> prev[j] == EditDistance(str1[..j], str2[..i - 1])
    {
      var row := NextRow(str1, str2, i, prev);
      prev := row;
      i := i + 1;
    }
    assert str1[..n1] == str1 && str2[..|str2|] == str2;
    d := prev[n1];
  }

  /** A string is at distance 0 from itself. */
  lemma {:induction false} EditDistanceToSelf(s: string)
    ensures EditDistance(s, s) == 0
    decreases |s|
  {
    if |s| > 0 {
      EditDistanceToSelf(s[..|s| - 1]);
    }
  }

  /** The distance to or from the empty string is the length. */
  lemma EditDistanceToEmpty(s: string)
    ensures EditDistance(s, "") == |s| && EditDistance("", s) == |s|
  {
  }

  /** The distance never exceeds the longer length. */
  lemma {:induction false} EditDistanceBound(s1: string, s2: string)
    ensures EditDistance(s1, s2) <= if |s1| >= |s2| then |s1| else |s2|
    decreases |s1| + |s2|
  {
    if |s1| > 0 && |s2| > 0 {
      EditDistanceBound(s1[..|s1| - 1], s2[..|s2| - 1]);
    }
  }

  /** `Math.max(len1, len2)` */
  function Longer(p1: string, p2: string): nat {
    if |p1| >= |p2| then |p1| else |p2|
  }

  /** `calculateSimilarity`: one minus the distance relative to the longer
      pattern, and 0 when either pattern is empty. */
  function CalculateSimilarity(p1: string, p2: string): (r: real)
    ensures 0.0 <= r <= 1.0
    ensures p1 == "" || p2 == "" ==> r == 0.0
    ensures p1 != "" && p1 == p2 ==> r == 1.0
    ensures r == 1.0 <==> p1 != "" && p1 == p2
    ensures p1 != "" && p2 != "" ==>
      r == 1.0 - (EditDistance(p1, p2) as real) / (Longer(p1, p2) as real)
  {
    if p1 == "" || p2 == "" then 0.0
    else
      var m := Longer(p1, p2);
      var e := EditDistance(p1, p2);
      EditDistanceBound(p1, p2);
      EditDistanceToSelf(p1);
      EditDistanceZeroOnlyForEqual(p1, p2);
      Ratio(e, m);
      1.0 - (e as real) / (m as real)
  }

  /** Only equal strings are at distance 0. */
  lemma {:induction false} EditDistanceZeroOnlyForEqual(s1: string, s2: string)
    ensures EditDistance(s1, s2) == 0 ==> s1 == s2
    decreases |s1| + |s2|
  {
    if |s1| > 0 && |s2| > 0 && s2[|s2| - 1] == s1[|s1| - 1] {
      var a, b := s1[..|s1| - 1], s2[..|s2| - 1];
      EditDistanceZeroOnlyForEqual(a, b);
      if EditDistance(s1, s2) == 0 {
        assert s1 == a + [s1[|s1| - 1]] && s2 == b + [s2[|s2| - 1]];
      }
    }
  }

  // ---------------------------------------------------------------------
  // Validation

  datatype ValidationError = NotANonEmptyString | TooShort(minLength: int) | TooLong(maxLength: int) | InvalidChars(chars: string)
  datatype ValidationWarning = MaybeTooSimple
  datatype Validation = Validation(isValid: bool, errors: seq<ValidationError>, warnings: seq<ValidationWarning>)

  /** The `criteria` object; an absent or zero bound falls back to the default. */
  datatype Criteria = Criteria(minLength: Option<int>, maxLength: Option<int>)

  /** `criteria.x || fallback` */
  function BoundOr(bound: Option<int>, fallback: int): int {
    if bound.Some? && bound.value != 0 then bound.value else fallback
  }

  /** The characters of `p` that are not direction letters, in order. */
  function InvalidCharsOf(p: string): (r: string)
    ensures forall c :: c in r <==> c in p && !IsDirection(c)
    ensures |r| <= |p|
  {
    if |p| == 0 then ""
    else
      var rest := InvalidCharsOf(p[1..]);
      assert forall c :: c in p <==> c == p[0] || c in p[1..];
      if IsDirection(p[0]) then rest else [p[0]] + rest
  }

  function CharSet(p: string): set<char> {
    set i | 0 <= i < |p| :: p[i]
  }

  /** `validatePattern`. `None` stands for a non-string pattern. Adjacent
      duplicates are not checked. */
  function ValidatePattern(pattern: Option<string>, criteria: Criteria): (v: Validation)
    ensures v.isValid <==>
      pattern.Some? && pattern.value != "" &&
      BoundOr(criteria.minLength, 1) <= |pattern.value| <= BoundOr(criteria.maxLength, 10) &&
      AllIn(pattern.value, DirectionChars)
    ensures v.isValid <==> v.errors == []
    ensures v.warnings != [] <==>
      pattern.Some? && pattern.value != "" && |CharSet(pattern.value)| < 2 && |pattern.value| > 3
  {
    if pattern.None? || pattern.value == "" then Validation(false, [NotANonEmptyString], [])
    else
      var p := pattern.value;
      var minLength := BoundOr(criteria.minLength, 1);
      var maxLength := BoundOr(criteria.maxLength, 10);
      var invalid := InvalidCharsOf(p);
      var errors :=
        (if |p| < minLength then [TooShort(minLength)] else []) +
        (if |p| > maxLength then [TooLong(maxLength)] else []) +
        (if |invalid| > 0 then [InvalidChars(invalid)] else []);
      assert |invalid| == 0 <==> AllIn(p, DirectionChars) by {
        if |invalid| > 0 {
          assert invalid[0] in invalid;
        }
        if !AllIn(p, DirectionChars) {
          var i :| 0 <= i < |p| && p[i] !in DirectionChars;
          assert p[i] in p;
        }
      }
      var warnings := if |CharSet(p)| < 2 && |p| > 3 then [MaybeTooSimple] else [];
      Validation(errors == [], errors, warnings)
  }

  /** Equal neighbours are accepted: "UU" passes the default criteria. */
  lemma ValidatorAcceptsRepeatedDirections()
    ensures ValidatePattern(Some("UU"), Criteria(None, None)).isValid
  {
  }

  // ---------------------------------------------------------------------
  // Descriptions

  /** The `zh` and `en` direction names; any other language reads the `zh` table. */
  function DirectionWord(language: string, c: char): string {
    if language == "en" then
      match c
      case 'U' => "Up"
      case 'D' => "Down"
      case 'L' => "Left"
      case 'R' => "Right"
      case _ => [c]
    else
      match c
      case 'U' => "上"
      case 'D' => "下"
      case 'L' => "左"
      case 'R' => "右"
      case _ => [c]
  }

  function DirectionWords(language: string, p: string): (words: seq<string>)
    ensures |words| == |p|
    ensures forall i :: 0 <= i < |p| ==> words[i] == DirectionWord(language, p[i])
  {
    seq(|p|, i requires 0 <= i < |p| => DirectionWord(language, p[i]))
  }

  /** `getPatternDescription`: names joined without a separator for `zh`
      and with '-' for every other language, including unknown ones, which
      nevertheless use the Chinese names. */
  function GetPatternDescription(pattern: Option<string>, language: string): (r: string)
    ensures pattern.None? || pattern.value == "" ==> r == ""
    ensures pattern.Some? && language == "zh" ==> |r| == |pattern.value|
    ensures pattern.Some? && pattern.value != "" && language != "zh" && language != "en" ==>
      |r| == 2 * |pattern.value| - 1 &&
      forall i :: 0 <= i < |pattern.value| ==>
        r[2 * i] == DirectionWord("zh", pattern.value[i])[0] &&
        (i + 1 < |pattern.value| ==> r[2 * i + 1] == '-')
  {
    if pattern.None? || pattern.value == "" then ""
    else
      var words := DirectionWords(language, pattern.value);
      if language == "zh" then
        JoinOfSinglesNoSeparator(words);
        Join(words, "")
      else
        if language != "en" then
          JoinOfSinglesWithSeparator(words, "-");
          Join(words, "-")
        else Join(words, "-")
  }

  // ---------------------------------------------------------------------
  // Statistics

  /** `getPatternStats` without the floating-point `averageLength`. */
  datatype Stats = Stats(total: nat, unique: nat, mostCommon: Option<string>, lengthDistribution: map<nat, nat>)

  function Count(ps: seq<string>, p: string): nat
  {
    if |ps| == 0 then 0 else (if ps[0] == p then 1 else 0) + Count(ps[1..], p)
  }

  function CountLength(ps: seq<string>, n: nat): nat
  {
    if |ps| == 0 then 0 else (if ps[0] != "" && |ps[0]| == n then 1 else 0) + CountLength(ps[1..], n)
  }

  lemma {:induction false} CountPositive(ps: seq<string>, i: nat)
    requires i < |ps|
    ensures Count(ps, ps[i]) >= 1
    decreases |ps|
  {
    if i > 0 {
      CountPositive(ps[1..], i - 1);
    }
  }

  /** The `Object.entries(frequency)` scan: keys in first-occurrence order,
      replacing the best only on a strictly larger count. */
  function MostCommonLoop(ps: seq<string>, i: nat, best: Option<string>, maxCount: nat): (r: Option<string>)
    requires i <= |ps|
    requires best.Some? ==> best.value != "" && best.value in ps && Count(ps, best.value) == maxCount
    requires best.None? ==> maxCount == 0
    requires forall j :: 0 <= j < i && ps[j] != "" ==> Count(ps, ps[j]) <= maxCount
    ensures r.Some? ==> r.value != "" && r.value in ps
    ensures r.Some? ==> forall j :: 0 <= j < |ps| && ps[j] != "" ==> Count(ps, ps[j]) <= Count(ps, r.value)
    ensures r.None? ==> forall j :: 0 <= j < |ps| ==> ps[j] == ""
    decreases |ps| - i
  {
    if i == |ps| then
      if best.None? then
        forall j | 0 <= j < |ps| && ps[j] != ""
          ensures false
        {
          CountPositive(ps, j);
        }
        best
      else best
    else if ps[i] != "" && ps[i] !in ps[..i] && Count(ps, ps[i]) > maxCount then
      MostCommonLoop(ps, i + 1, Some(ps[i]), Count(ps, ps[i]))
    else
      assert ps[i] != "" && ps[i] in ps[..i] ==> Count(ps, ps[i]) <= maxCount by {
        if ps[i] != "" && ps[i] in ps[..i] {
          var j :| 0 <= j < i && ps[..i][j] == ps[i];
          assert ps[j] == ps[i];
        }
      }
      MostCommonLoop(ps, i + 1, best, maxCount)
  }

  /** `getPatternStats`; `None` stands for a non-array. Empty strings are
      falsy and are left out of the length distribution and the frequencies. */
  function GetPatternStats(patterns: Option<seq<string>>): (s: Stats)
    ensures patterns.None? || patterns.value == [] ==> s == Stats(0, 0, None, map[])
    ensures patterns.Some? ==> s.total == |patterns.value|
    ensures patterns.Some? ==> s.unique == |set i | 0 <= i < |patterns.value| :: patterns.value[i]|
    ensures patterns.Some? ==> forall n :: n in s.lengthDistribution ==>
      s.lengthDistribution[n] == CountLength(patterns.value, n) && s.lengthDistribution[n] > 0
    ensures patterns.Some? ==> forall n: nat :: CountLength(patterns.value, n) > 0 ==> n in s.lengthDistribution
    ensures s.mostCommon.Some? ==>
      patterns.Some? && s.mostCommon.value in patterns.value &&
      forall j :: 0 <= j < |patterns.value| && patterns.value[j] != "" ==>
        Count(patterns.value, patterns.value[j]) <= Count(patterns.value, s.mostCommon.value)
    ensures patterns.Some? && s.mostCommon.None? ==> forall j :: 0 <= j < |patterns.value| ==> patterns.value[j] == ""
  {
    if patterns.None? || patterns.value == [] then Stats(0, 0, None, map[])
    else
      var ps := patterns.value;
      var lengths := set i | 0 <= i < |ps| && ps[i] != "" :: |ps[i]|;
      var distribution := map n | n in lengths :: CountLength(ps, n);
      assert forall n :: n in lengths ==> CountLength(ps, n) > 0 by {
        forall n | n in lengths
          ensures CountLength(ps, n) > 0
        {
          var i :| 0 <= i < |ps| && ps[i] != "" && |ps[i]| == n;
          CountLengthPositive(ps, i);
        }
      }
      assert forall n: nat :: CountLength(ps, n) > 0 ==> n in lengths by {
        forall n: nat | CountLength(ps, n) > 0
          ensures n in lengths
        {
          var i := CountLengthWitness(ps, n);
        }
      }
      Stats(|ps|, |set i | 0 <= i < |ps| :: ps[i]|, MostCommonLoop(ps, 0, None, 0), distribution)
  }

  /** A length that is counted is the length of some non-empty pattern. */
  lemma {:induction false} CountLengthWitness(ps: seq<string>, n: nat) returns (i: nat)
    requires CountLength(ps, n) > 0
    ensures i < |ps| && ps[i] != "" && |ps[i]| == n
    decreases |ps|
  {
    if ps[0] != "" && |ps[0]| == n {
      i := 0;
    } else {
      var j := CountLengthWitness(ps[1..], n);
      i := j + 1;
    }
  }

  lemma {:induction false} CountLengthPositive(ps: seq<string>, i: nat)
    requires i < |ps| && ps[i] != ""
    ensures CountLength(ps, |ps[i]|) >= 1
    decreases |ps|
  {
    if i > 0 {
      CountLengthPositive(ps[1..], i - 1);
    }
  }
}

=== FILE: sidepanel.dfy ===
/** The side panel script: its arrow rendering of patterns, the
    classification of the current page, the choice of the visible pane, the
    conversion between the background's action mappings and the panel's
    gesture list, and the usage counters. Messaging, tabs and the DOM are
    parameters. */
module Sidepanel {
  import opened Common
  import opened Directions
  import opened Values
  import GestureArrows

  /** `patternToArrows`: each direction becomes its heavy arrow, any other
      character stays. */
  function PatternToArrows(pattern: string): (r: string)
    ensures |r| == |pattern|
    ensures forall i :: 0 <= i < |r| ==> (IsDirection(pattern[i]) <==> r[i] in GestureArrows.HeavyArrows) || pattern[i] in GestureArrows.HeavyArrows
    ensures forall i :: 0 <= i < |r| && !IsDirection(pattern[i]) ==> r[i] == pattern[i]
  {
    seq(|pattern|, i requires 0 <= i < |pattern| =>
      match pattern[i]
      case 'L' => '⬅'
      case 'R' => '➡'
      case 'U' => '⬆'
      case 'D' => '⬇'
      case c => c)
  }

  /** The panel draws the same arrows as the shared arrow helper, so the
      helper's inverse reads every pattern back from them. */
  lemma PanelArrowsAgreeWithHelper(pattern: string)
    ensures PatternToArrows(pattern) == GestureArrows.GetArrowsForPattern(Some(pattern))
    ensures IsGesturePattern(pattern) ==>
      GestureArrows.GetPatternForArrows(Some(PatternToArrows(pattern))) == pattern
  {
    assert forall i :: 0 <= i < |pattern| ==>
      PatternToArrows(pattern)[i] == GestureArrows.ArrowFor(pattern[i]);
    if IsGesturePattern(pattern) {
      GestureArrows.ArrowsRoundTrip(pattern);
    }
  }

  // ---------------------------------------------------------------------
  // Current page

  /** The protocols the panel refuses to work on. */
  const UnsupportedProtocols: seq<string> :=
    ["chrome://", "chrome-extension://", "chrome-search://", "edge://", "about:", "moz-extension://"]

  /** `isSupportedUrl`; a missing URL and the empty URL are unsupported. */
  predicate IsSupportedUrl(url: Option<string>) {
    url.Some? && url.value != "" &&
    forall i :: 0 <= i < |UnsupportedProtocols| ==> !StartsWith(url.value, UnsupportedProtocols[i])
  }

  datatype PageType = Secure | PlainHttp | System | LocalFile | ExtensionPage | UnknownPage

  /** `getPageType`: the first prefix that matches. */
  function GetPageType(url: Option<string>): (t: PageType)
    ensures t == Secure <==> url.Some? && StartsWith(url.value, "https://")
    ensures t == PlainHttp <==> url.Some? && StartsWith(url.value, "http://")
    ensures t == System <==> url.Some? && StartsWith(url.value, "chrome://")
    ensures t == LocalFile <==> url.Some? && StartsWith(url.value, "file://")
    ensures t == ExtensionPage <==> url.Some? && StartsWith(url.value, "chrome-extension://")
  {
    if url.None? || url.value == "" then UnknownPage
    else
      PageTypePrefixesAreExclusive(url.value);
      if StartsWith(url.value, "https://") then Secure
    else if StartsWith(url.value, "http://") then PlainHttp
    else if StartsWith(url.value, "chrome://") then System
    else if StartsWith(url.value, "file://") then LocalFile
    else if StartsWith(url.value, "chrome-extension://") then ExtensionPage
    else UnknownPage
  }

  /** No URL starts with two of the page-type prefixes. */
  lemma PageTypePrefixesAreExclusive(u: string)
    ensures !(StartsWith(u, "https://") && StartsWith(u, "http://"))
    ensures !(StartsWith(u, "chrome://") && StartsWith(u, "chrome-extension://"))
    ensures forall p, q :: p in PageTypePrefixes && q in PageTypePrefixes && p != q ==>
      !(StartsWith(u, p) && StartsWith(u, q))
  {
    PrefixesDiffer(u, "https://", "http://", 4);
    PrefixesDiffer(u, "chrome://", "chrome-extension://", 6);
    forall p, q | p in PageTypePrefixes && q in PageTypePrefixes && p != q
      ensures !(StartsWith(u, p) && StartsWith(u, q))
    {
      if p[0] != q[0] {
        PrefixesDiffer(u, p, q, 0);
      }
    }
  }

  const PageTypePrefixes: set<string> := {"https://", "http://", "chrome://", "file://", "chrome-extension://"}

  /** The two classifications agree where they overlap: web and file pages
      are supported, browser and extension pages are not. */
  lemma PageTypeAndSupport(url: Option<string>)
    ensures GetPageType(url) in {Secure, PlainHttp, LocalFile} ==> IsSupportedUrl(url)
    ensures GetPageType(url) in {System, ExtensionPage} ==> !IsSupportedUrl(url)
  {
    if GetPageType(url) in {Secure, PlainHttp, LocalFile} {
      var u := url.value;
      forall i | 0 <= i < |UnsupportedProtocols|
        ensures !StartsWith(u, UnsupportedProtocols[i])
      {
        var p := UnsupportedProtocols[i];
        assert u[0] in {'h', 'f'};
        assert p[0] in {'c', 'e', 'a', 'm'};
        FirstCharDiffers(u, p);
      }
    }
    if GetPageType(url) == System {
      assert StartsWith(url.value, UnsupportedProtocols[0]);
    }
    if GetPageType(url) == ExtensionPage {
      assert StartsWith(url.value, UnsupportedProtocols[1]);
    }
  }

  datatype PageInfo = PageInfo(url: string, title: string, supported: bool, pageType: PageType)

  /** `updateCurrentPageInfo`: the active tab's description, a fixed
      extensions-page description when the query fails, and no change when
      there is no active tab. */
  function UpdateCurrentPageInfo(current: PageInfo, tab: Completion<Option<(Option<string>, Option<string>)>>): (p: PageInfo)
    ensures tab.Throw? ==> p == PageInfo("chrome://extensions/", "Extensions", false, System)
    ensures tab.Normal? && tab.value.None? ==> p == current
    ensures tab.Normal? && tab.value.Some? ==>
      p.supported == IsSupportedUrl(tab.value.value.0) && p.pageType == GetPageType(tab.value.value.0) &&
      (p.url == "" <==> tab.value.value.0.None? || tab.value.value.0 == Some(""))
    ensures tab.Normal? && tab.value.Some? && tab.value.value.0.Some? ==> p.url == tab.value.value.0.value
    ensures tab.Normal? && tab.value.Some? ==>
      var title := tab.value.value.1;
      (title.Some? && title.value != "" ==> p.title == title.value) &&
      (title.None? || title.value == "" ==> p.title == "Unknown")
    ensures tab.Normal? && tab.value.Some? && p.supported ==> p.pageType != System && p.pageType != ExtensionPage
  {
    match tab
    case Throw(_) => PageInfo("chrome://extensions/", "Extensions", false, System)
    case Normal(None) => current
    case Normal(Some((url, title))) =>
      PageTypeAndSupport(url);
      PageInfo(if url.Some? then url.value else "",
               if title.Some? && title.value != "" then title.value else "Unknown",
               IsSupportedUrl(url), GetPageType(url))
  }

  // ---------------------------------------------------------------------
  // Visibility

  datatype Panes = Panes(main: bool, disabled: bool, unsupported: bool)

  /** `updateVisibility`: exactly one pane is shown; an unsupported page
      wins over a disabled extension, which wins over the main content. */
  function UpdateVisibility(enabled: Value, supported: bool): (v: Panes)
    ensures (if v.main then 1 else 0) + (if v.disabled then 1 else 0) + (if v.unsupported then 1 else 0) == 1
    ensures v.unsupported <==> !supported
    ensures v.disabled <==> supported && !Truthy(enabled)
    ensures v.main <==> supported && Truthy(enabled)
  {
    if !supported then Panes(false, false, true)
    else if !Truthy(enabled) then Panes(false, true, false)
    else Panes(true, false, false)
  }

  // ---------------------------------------------------------------------
  // Gestures and mappings

  datatype ActionInfo = ActionInfo(name: Value, category: string)

  /** `actionDescriptions` */
  const ActionDescriptions: map<string, ActionInfo> := map[
    "goBack" := ActionInfo(Str("后退"), "navigation"),
    "goForward" := ActionInfo(Str("前进"), "navigation"),
    "previousTab" := ActionInfo(Str("前一标签"), "tab"),
    "nextTab" := ActionInfo(Str("下一标签"), "tab"),
    "scrollToTop" := ActionInfo(Str("页面顶部"), "scroll"),
    "scrollToBottom" := ActionInfo(Str("页面底部"), "scroll"),
    "newTab" := ActionInfo(Str("新标签页"), "tab"),
    "closeTab" := ActionInfo(Str("关闭标签"), "tab"),
    "refreshTab" := ActionInfo(Str("刷新页面"), "page"),
    "reopenTab" := ActionInfo(Str("重新打开"), "tab"),
    "duplicateTab" := ActionInfo(Str("复制标签"), "tab"),
    "minimizeWindow" := ActionInfo(Str("最小化窗口"), "window"),
    "toggleFullscreen" := ActionInfo(Str("全屏切换"), "view"),
    "togglePinTab" := ActionInfo(Str("固定标签"), "tab")]

  /** `actionDescriptions[action] || { name: action, category: 'other' }` */
  function DescribeAction(action: Value): (info: ActionInfo)
    ensures action.Str? && action.s in ActionDescriptions ==> info == ActionDescriptions[action.s]
    ensures !(action.Str? && action.s in ActionDescriptions) ==> info == ActionInfo(action, "other")
  {
    if action.Str? && action.s in ActionDescriptions then ActionDescriptions[action.s]
    else ActionInfo(action, "other")
  }

  /** The category is `other` exactly for an action without a description. */
  lemma OtherCategoryIffUndescribed(action: Value)
    ensures DescribeAction(action).category == "other" <==> !(action.Str? && action.s in ActionDescriptions)
  {
    if action.Str? && action.s in ActionDescriptions {
      assert ActionDescriptions[action.s].category != "other";
    }
  }

  datatype Gesture = Gesture(pattern: string, name: Value, action: Value, enabled: bool, category: string)

  function GestureOfEntry(e: (string, Value)): Gesture {
    var info := DescribeAction(e.1);
    Gesture(e.0, info.name, e.1, true, info.category)
  }

  /** One enabled gesture per mapping entry, in enumeration order. */
  function GesturesOf(entries: seq<(string, Value)>): (gs: seq<Gesture>)
    ensures |gs| == |entries|
    ensures forall i :: 0 <= i < |gs| ==>
      gs[i].pattern == entries[i].0 && gs[i].action == entries[i].1 && gs[i].enabled &&
      gs[i].name == DescribeAction(entries[i].1).name && gs[i].category == DescribeAction(entries[i].1).category
  {
    seq(|entries|, i requires 0 <= i < |entries| => GestureOfEntry(entries[i]))
  }

  datatype Stats = Stats(totalGestures: int, todayUsage: int, favoriteGesture: Value)

  datatype PanelState = PanelState(enabled: Value, gestures: seq<Gesture>, customGestures: Value,
                                   stats: Stats, currentPage: PageInfo)

  const InitialState: PanelState :=
    PanelState(Bool(false), [], Arr([]), Stats(0, 0, Str("L")), PageInfo("", "", false, UnknownPage))

  /** The `GET_SETTINGS` exchange as `loadExtensionState` sees it: the
      extension context is gone before asking, the request throws (with the
      context-invalidated message or another one), there is no reply, or a
      reply whose `actionMappings` enumerate to `mappingEntries`. */
  datatype LoadReply =
    | NoContext
    | LoadThrew(contextInvalidated: bool)
    | NoResponse
    | Response(enableExecution: Value, mappingEntries: seq<(string, Value)>, customGestures: Value)

  /** `loadExtensionState` */
  function LoadExtensionState(st: PanelState, reply: LoadReply): (r: PanelState)
    ensures reply.NoContext? || reply.NoResponse? || reply == LoadThrew(true) ==> r == st
    ensures reply == LoadThrew(false) ==> r == st.(gestures := [], enabled := Bool(false))
    ensures reply.Response? ==>
      r.gestures == GesturesOf(reply.mappingEntries) &&
      (Truthy(r.enabled) <==> Truthy(reply.enableExecution)) &&
      (!Truthy(reply.enableExecution) ==> r.enabled == Bool(false)) &&
      r.enabled == Or(reply.enableExecution, Bool(false)) &&
      (Truthy(reply.customGestures) ==> r.customGestures == reply.customGestures) &&
      (!Truthy(reply.customGestures) ==> r.customGestures == Arr([]))
    ensures r.stats == st.stats && r.currentPage == st.currentPage
  {
    match reply
    case NoContext => st
    case LoadThrew(invalidated) => if invalidated then st else st.(gestures := [], enabled := Bool(false))
    case NoResponse => st
    case Response(enable, entries, custom) =>
      st.(enabled := Or(enable, Bool(false)), gestures := GesturesOf(entries),
          customGestures := Or(custom, Arr([])))
  }

  /** Exactly the patterns of `gs` are keys of `m`. */
  ghost predicate KeysArePatterns(gs: seq<Gesture>, m: map<string, Value>) {
    forall k :: k in m <==> exists i :: 0 <= i < |gs| && gs[i].pattern == k
  }

  /** No later gesture in `gs` has the pattern of `gs[i]`. */
  ghost predicate IsLastOnPattern(gs: seq<Gesture>, i: int)
    requires 0 <= i < |gs|
  {
    forall j :: i < j < |gs| ==> gs[j].pattern != gs[i].pattern
  }

  /** Every pattern maps to the action of its last gesture. */
  ghost predicate LastGestureWins(gs: seq<Gesture>, m: map<string, Value>) {
    forall i :: 0 <= i < |gs| && IsLastOnPattern(gs, i) ==> gs[i].pattern in m && m[gs[i].pattern] == gs[i].action
  }

  /** The `reduce` in `saveExtensionState`: `acc[gesture.pattern] = gesture.action`,
      so of several gestures on one pattern the later one wins. */
  function MappingsOf(gs: seq<Gesture>): (m: map<string, Value>)
    ensures KeysArePatterns(gs, m)
    ensures LastGestureWins(gs, m)
  {
    if |gs| == 0 then map[]
    else
      var prefix := gs[..|gs| - 1];
      var last := gs[|gs| - 1];
      var m := MappingsOf(prefix)[last.pattern := last.action];
      MappingsOfStep(gs, MappingsOf(prefix));
      m
  }

  /** One step of the `reduce`. */
  lemma MappingsOfStep(gs: seq<Gesture>, pm: map<string, Value>)
    requires |gs| > 0
    requires KeysArePatterns(gs[..|gs| - 1], pm) && LastGestureWins(gs[..|gs| - 1], pm)
    ensures var last := gs[|gs| - 1];
      KeysArePatterns(gs, pm[last.pattern := last.action]) && LastGestureWins(gs, pm[last.pattern := last.action])
  {
    MappingsKeysStep(gs, pm);
    MappingsLastWinsStep(gs, pm);
  }

  /** The keys after one step of the `reduce`. */
  lemma MappingsKeysStep(gs: seq<Gesture>, pm: map<string, Value>)
    requires |gs| > 0
    requires KeysArePatterns(gs[..|gs| - 1], pm)
    ensures var last := gs[|gs| - 1];
      KeysArePatterns(gs, pm[last.pattern := last.action])
  {
    var n := |gs| - 1;
    var prefix := gs[..n];
    var last := gs[n];
    var m := pm[last.pattern := last.action];
    forall k
      ensures k in m <==> exists i :: 0 <= i < |gs| && gs[i].pattern == k
    {
      if k in pm {
        var i :| 0 <= i < n && prefix[i].pattern == k;
        assert gs[i].pattern == k;
      }
      if exists i :: 0 <= i < |gs| && gs[i].pattern == k {
        var i :| 0 <= i < |gs| && gs[i].pattern == k;
        if i < n {
          assert prefix[i].pattern == k;
        }
      }
    }
  }

  /** The winning actions after one step of the `reduce`. */
  lemma MappingsLastWinsStep(gs: seq<Gesture>, pm: map<string, Value>)
    requires |gs| > 0
    requires LastGestureWins(gs[..|gs| - 1], pm)
    ensures var last := gs[|gs| - 1];
      LastGestureWins(gs, pm[last.pattern := last.action])
  {
    var n := |gs| - 1;
    var prefix := gs[..n];
    var last := gs[n];
    var m := pm[last.pattern := last.action];
    forall i | 0 <= i < |gs| && IsLastOnPattern(gs, i)
      ensures gs[i].pattern in m && m[gs[i].pattern] == gs[i].action
    {
      if i < n {
        assert prefix[i] == gs[i];
        assert IsLastOnPattern(prefix, i) by {
          forall j | i < j < n ensures prefix[j].pattern != prefix[i].pattern {
            assert prefix[j] == gs[j];
          }
        }
        assert gs[n].pattern != gs[i].pattern;
      }
    }
  }

  /** `saveExtensionState`'s settings object. */
  function SaveExtensionState(st: PanelState): (settings: map<string, Value>)
    ensures Get(settings, "enableExecution") == st.enabled
    ensures Get(settings, "actionMappings") == Obj(MappingsOf(st.gestures))
    ensures Get(settings, "customGestures") == st.customGestures
    ensures |settings| == 3
  {
    map["enableExecution" := st.enabled, "actionMappings" := Obj(MappingsOf(st.gestures)),
        "customGestures" := st.customGestures]
  }

  /** `entries` enumerates the object `m`: each key once, with its value. */
  ghost predicate EnumeratesMap(entries: seq<(string, Value)>, m: map<string, Value>) {
    (forall k :: k in m <==> exists i :: 0 <= i < |entries| && entries[i].0 == k) &&
    (forall i :: 0 <= i < |entries| ==> entries[i].0 in m && m[entries[i].0] == entries[i].1) &&
    (forall i, j :: 0 <= i < j < |entries| ==> entries[i].0 != entries[j].0)
  }

  /** Loading the background's mappings and saving them again gives back
      exactly the same mappings. */
  lemma LoadThenSaveKeepsMappings(st: PanelState, enable: Value, m: map<string, Value>,
                                  entries: seq<(string, Value)>, custom: Value)
    requires EnumeratesMap(entries, m)
    ensures var loaded := LoadExtensionState(st, Response(enable, entries, custom));
      Get(SaveExtensionState(loaded), "actionMappings") == Obj(m)
  {
    var saved := MappingsOf(GesturesOf(entries));
    SavedMappingsAgree(m, entries);
    assert saved == m;
  }

  lemma SavedMappingsAgree(m: map<string, Value>, entries: seq<(string, Value)>)
    requires EnumeratesMap(entries, m)
    ensures var saved := MappingsOf(GesturesOf(entries));
      (forall k :: k in saved <==> k in m) && (forall k :: k in saved ==> saved[k] == m[k])
  {
    var gs := GesturesOf(entries);
    var saved := MappingsOf(gs);
    forall k | k in saved
      ensures k in m && saved[k] == m[k]
    {
      var i :| 0 <= i < |gs| && gs[i].pattern == k;
      assert entries[i].0 == k;
      assert IsLastOnPattern(gs, i) by {
        forall j | i < j < |gs| ensures gs[j].pattern != gs[i].pattern {
          assert entries[i].0 != entries[j].0;
        }
      }
    }
    forall k | k in m
      ensures k in saved
    {
      var i :| 0 <= i < |entries| && entries[i].0 == k;
      assert gs[i].pattern == k;
    }
  }

  // ---------------------------------------------------------------------
  // Messages and counters

  datatype PanelMessage =
    | GestureExecuted(pattern: Value)
    | StatusChanged(enabled: Value)
    | ClosePanel
    | OtherMessage

  /** The panel's message listener: a gesture report bumps both counters by
      one and records a non-empty pattern as the favourite; a status change
      sets the switch; everything is answered with success. */
  function HandlePanelMessage(st: PanelState, msg: PanelMessage): (r: PanelState)
    ensures msg.GestureExecuted? ==>
      r.stats.totalGestures == st.stats.totalGestures + 1 &&
      r.stats.todayUsage == st.stats.todayUsage + 1 &&
      (Truthy(msg.pattern) ==> r.stats.favoriteGesture == msg.pattern) &&
      (!Truthy(msg.pattern) ==> r.stats.favoriteGesture == st.stats.favoriteGesture) &&
      r.(stats := st.stats) == st
    ensures msg.StatusChanged? ==> r == st.(enabled := msg.enabled)
    ensures msg.ClosePanel? || msg.OtherMessage? ==> r == st
  {
    match msg
    case GestureExecuted(pattern) =>
      st.(stats := Stats(st.stats.totalGestures + 1, st.stats.todayUsage + 1,
                         if Truthy(pattern) then pattern else st.stats.favoriteGesture))
    case StatusChanged(enabled) => st.(enabled := enabled)
    case ClosePanel => st
    case OtherMessage => st
  }

  /** `executeQuickAction`: a quick action that completes counts as one use
      today; a failing one counts nothing. */
  function ExecuteQuickAction(st: PanelState, succeeded: bool): (r: PanelState)
    ensures succeeded ==> r.stats.todayUsage == st.stats.todayUsage + 1 &&
                          r.stats.totalGestures == st.stats.totalGestures
    ensures !succeeded ==> r == st
  {
    if succeeded then st.(stats := st.stats.(todayUsage := st.stats.todayUsage + 1)) else st
  }

  /** The number of gesture reports among `msgs`. */
  function CountReports(msgs: seq<PanelMessage>): nat {
    if |msgs| == 0 then 0
    else CountReports(msgs[..|msgs| - 1]) + (if msgs[|msgs| - 1].GestureExecuted? then 1 else 0)
  }

  /** The listener run over a sequence of messages. */
  function ApplyAll(st: PanelState, msgs: seq<PanelMessage>): PanelState {
    if |msgs| == 0 then st else HandlePanelMessage(ApplyAll(st, msgs[..|msgs| - 1]), msgs[|msgs| - 1])
  }

  /** After any sequence of messages both counters have grown by exactly
      the number of gesture reports. */
  lemma {:induction false} TotalCountsReports(st: PanelState, msgs: seq<PanelMessage>)
    ensures ApplyAll(st, msgs).stats.totalGestures == st.stats.totalGestures + CountReports(msgs)
    ensures ApplyAll(st, msgs).stats.todayUsage == st.stats.todayUsage + CountReports(msgs)
    decreases |msgs|
  {
    if |msgs| > 0 {
      TotalCountsReports(st, msgs[..|msgs| - 1]);
    }
  }
}

=== FILE: values.dfy ===
/** The JavaScript values that the settings code of the extension reads,
    merges and compares: settings objects travel between the pages and the
    background as plain objects, and several decisions hang on JavaScript's
    truthiness and strict equality. */
module Values {
  import opened Common

  /** A JavaScript value as far as the settings code can tell values apart.
      Numbers are exact reals; `NaN` is its own case. Objects are plain
      key/value records; arrays keep only their elements. */
  datatype Value =
    | Undefined
    | Null
    | Bool(b: bool)
    | Num(n: real)
    | NaN
    | Str(s: string)
    | Arr(items: seq<Value>)
    | Obj(fields: map<string, Value>)

  /** How a statement ends: with a value, or by throwing an error with a message. */
  datatype Completion<T> = Normal(value: T) | Throw(message: string)

  /** JavaScript's truthiness. */
  predicate Truthy(v: Value) {
    match v
    case Undefined => false
    case Null => false
    case Bool(b) => b
    case Num(n) => n != 0.0
    case NaN => false
    case Str(s) => s != ""
    case Arr(_) => true
    case Obj(_) => true
  }

  /** `a || b` */
  function Or(a: Value, b: Value): (r: Value)
    ensures Truthy(a) ==> r == a
    ensures !Truthy(a) ==> r == b
    ensures Truthy(r) <==> Truthy(a) || Truthy(b)
  {
    if Truthy(a) then a else b
  }

  /** Reading `o[key]` of a plain object: `undefined` when the key is absent. */
  function Get(o: map<string, Value>, key: string): (v: Value)
    ensures key !in o ==> v == Undefined
    ensures key in o ==> v == o[key]
  {
    if key in o then o[key] else Undefined
  }

  /** The own keys a spread `{...v}` copies. Only plain objects are modelled
      as contributing keys. */
  function Own(v: Value): map<string, Value> {
    if v.Obj? then v.fields else map[]
  }

  /** `{...a, ...b}`: every key of either, the later object winning. */
  function Spread(a: map<string, Value>, b: map<string, Value>): (r: map<string, Value>)
    ensures forall k :: k in r <==> k in a || k in b
    ensures forall k :: k in b ==> r[k] == b[k]
    ensures forall k :: k in a && k !in b ==> r[k] == a[k]
  {
    a + b
  }

  /** Spreading the same object twice adds nothing: the merge used by every
      settings save is idempotent. */
  lemma SpreadAbsorbs(a: map<string, Value>, b: map<string, Value>)
    ensures Spread(a, Spread(a, b)) == Spread(a, b)
    ensures Spread(Spread(a, b), b) == Spread(a, b)
  {
  }

  /** `a === b`. `NaN` equals nothing, and two object values are taken to be
      two distinct objects (identity is not modelled). */
  predicate StrictEquals(a: Value, b: Value) {
    match (a, b)
    case (Undefined, Undefined) => true
    case (Null, Null) => true
    case (Bool(x), Bool(y)) => x == y
    case (Num(x), Num(y)) => x == y
    case (Str(x), Str(y)) => x == y
    case _ => false
  }

  /** Strict equality is reflexive exactly on the primitives other than `NaN`,
      and where it holds the two values are the same. */
  lemma StrictEqualsMeansSame(a: Value, b: Value)
    ensures StrictEquals(a, b) ==> a == b
    ensures StrictEquals(a, a) <==> !(a.NaN? || a.Arr? || a.Obj?)
  {
  }

  /** The value in a numeric comparison `v >= c`: `ToNumber` for the values a
      form control produces. Strings are not converted here. */
  function NumericValue(v: Value): (r: Option<real>)
    ensures v.Num? ==> r == Some(v.n)
    ensures v.Bool? ==> r == Some(if v.b then 1.0 else 0.0)
    ensures v.Null? ==> r == Some(0.0)
    ensures r.Some? ==> v.Num? || v.Bool? || v.Null?
  {
    match v
    case Num(n) => Some(n)
    case Bool(b) => Some(if b then 1.0 else 0.0)
    case Null => Some(0.0)
    case _ => None
  }
}
